=== FILE: README.md ===
# alife core in Dafny

A model of the evolutionary core of the Ruby A-life simulator `alife`. Agents steer
with small neural networks. A genetic algorithm breeds the networks' weight vectors
once per generation. The controller keeps the world's bookkeeping in between.

The modules follow the source files:

- `Wrappers` (wrappers.dfy): `Option`, `Result` and the Ruby exceptions the model can
  raise (`NoMethodError`, `TypeError`, `ErrDimensionMismatch`, `ZeroDivisionError`,
  `ExtinctionEvent`, `NameError`). `DrawsExhausted` stands for a loop that was still
  running when the supplied random draws ran out.
- `Params` (params.dfy): the constants of Params.rb that the core reads.
- `Matrices` (matrices.dfy): the `Matrix`, `Vector` and `Array` extensions of Params.rb.
  The same module holds the parts of Ruby's `Matrix` they stand on: build, column and
  row vectors, diagonal, product, and `to_a.flatten`.
- `Genomes` (genomes.dfy): `Genome`, ordered by fitness alone. It also covers the
  `Array#[]` index and range semantics that its delegators inherit.
- `GenAlg` (genalg.dfy): `GenAlg`. This covers initialisation, the statistics,
  stochastic-acceptance sampling, crossover, mutation, elitism and the epoch loop.
- `Network` (network.dfy): the dense `Network` mixin. This covers layer building,
  feed-forward, output conversion, the memoised weight list and `set_weights`.
- `NeuralNets` (neuralnets.dfy): `SeekingNet`. Its first layer is diagonal, its
  middle layer is the winner-takes-all layer and its output layer is a row. Its
  weight list holds only the nonzero entries.
- `Agency` (agency.dfy): the fitness accounting of the `Agency` mixin, and the search
  for the closest reachable goal.
- `World` (world.dfy): the bookkeeping of the `ALife2` controller:
  - the reverse look-up table of the environment and `consume`;
  - the per-tick pass over the agents, and dropping the dead;
  - the generation boundary, which runs the GA and rebinds genomes to agents;
  - the end-of-world test.

Randomness is passed in as parameters. Every `rand` and `sample` of the source is a
value supplied by the caller, constrained to the range Ruby can return. Loops that
repeat until a random test succeeds consume a finite sequence of such draws. Running
out of draws is reported as a failure, meaning "has not returned yet". Geometry (the
distance from an agent to an object) and `Float#round(3)` are also parameters.

## Model

| member | source | states |
|---|---|---|
| Genomes.Compare | Genome.rb:25-28 | `<=>` answers -1, 0 or +1, negative exactly when the receiver is less fit and positive exactly when it is fitter |
| Genomes.Same | Genome.rb:25-28 | Comparable `==` holds exactly when the two fitnesses are equal, whatever the weights |
| Genomes.SameIgnoresWeights | Genome.rb:25-28 | two genomes with any weights are `==` once their fitnesses agree |
| Genomes.Push | Genome.rb:36-38 | `<<` adds one weight at the end, keeps the earlier weights and keeps the fitness |
| Genomes.Concat | Genome.rb:41-44 | `concat` keeps the old weights as a prefix, follows them with the array, and returns the same genome |
| Genomes.Index | Genome.rb:47-49 | an index answers nil exactly outside -size...size, and negative indices count from the end |
| Genomes.Slice | Genome.rb:47-49 | a range answers nil exactly when its start lies outside -size..size |
| Genomes.SliceHead | Genome.rb:47-49 | `w[0...p]` is the prefix of length p for every p up to the size |
| Genomes.SliceTail | Genome.rb:47-49 | `w[p..-1]` is the suffix from p for every p up to the size, and is empty rather than nil at p = size |
| Genomes.At | Genome.rb:47-49 | `genome[i]` is the weight at i, counting from the end for a negative i, and nil exactly outside -size...size |
| Genomes.Range | Genome.rb:47-49 | `genome[lo..hi]` is nil exactly for a start outside -size..size, never longer than the weights, and the expected slice for in-range bounds, inclusive or exclusive |
| Genomes.MapWeights | Genome.rb:52-54 | `map!` applies the block at every position and keeps the length and the fitness |
| Matrices.Ones | Network.rb:45 | `Matrix.build(m, n) { 1 }` is an m x n matrix of ones |
| Matrices.ColumnVector | Network.rb:67 | `Matrix.column_vector` has one row per component and holds component i in row i |
| Matrices.RowVector | NeuralNets.rb:131 | `Matrix.row_vector` is a single row holding the array |
| Matrices.Diagonal | NeuralNets.rb:146 | `Matrix.diagonal` is square, holds d on the diagonal and zero elsewhere |
| Matrices.HorizConcat | Params.rb:127-138 | `horiz_concat` succeeds exactly when the row counts agree and then places b's columns after a's. Otherwise `Matrix.raise`, Kernel's private raise called with a receiver, raises NoMethodError |
| Matrices.VertExtend | Params.rb:142-153 | `vert_extend` succeeds exactly when the column counts agree and stacks b's rows below a's. Otherwise `Matrix.raise` raises NoMethodError |
| Matrices.Hadamult | Params.rb:91-107 | `hadamult` succeeds exactly on equal shapes and multiplies entry by entry. Otherwise `Matrix.Raise` raises ErrDimensionMismatch |
| Matrices.Kronemult | Params.rb:111-124 | `kronemult` succeeds exactly for a column times a row and gives the outer product `x[i] * y[j]`. Otherwise `Matrix.raise` raises NoMethodError |
| Matrices.Size | Params.rb:164-166 | `size` is the number of entries that `to_a.flatten` yields |
| Matrices.Dimensions | Params.rb:169-171 | `dimensions` is `[row_size, column_size]`, whose product is `size` |
| Matrices.FlattenRowsAppend | Params.rb:142-153 | flattening the rows of two stacked row lists gives the first list's entries followed by the second's |
| Matrices.VertExtendFlatten | Params.rb:142-153 | the row-major entries of `vert_extend(a, b)` are a's followed by b's, so its size is the sum of the sizes |
| Matrices.HorizConcatSplit | Params.rb:127-138 | every row of `horiz_concat(a, b)` is a's row followed by b's, so the first a.cols columns give a back and the rest give b; the size is the sum of the sizes |
| Matrices.HadamultOnes | Params.rb:91-107 | `hadamult` with a matrix of ones of the same shape gives the matrix back |
| Matrices.HadamultCommutes | Params.rb:91-107 | `hadamult` gives the same result, error or matrix, with its operands swapped |
| Matrices.KronemultIsMatMul | Params.rb:111-124 | for a column vector and a row vector, `kronemult` agrees with the ordinary product Matrix#* |
| Matrices.MatMul | Network.rb:58 | the product succeeds exactly when the inner dimensions agree, and entry (i, j) is row i dotted with column j. Otherwise ErrDimensionMismatch |
| Matrices.Flatten | Network.rb:111 | `to_a.flatten`, row after row; Matrices.Size states its length and Matrices.FlattenIndex the position of each entry |
| Matrices.FlattenIndex | Network.rb:111 | `to_a.flatten` is row-major: entry (r, c) sits at position r * cols + c |
| Matrices.UnflattenFlatten | Network.rb:111 | refilling a matrix of the same shape from its flattened entries gives the matrix back |
| Matrices.ErrorVector | Params.rb:181-187 | `error_vector` fails on different sizes (`each2`); otherwise it holds 1 where the components differ and 0 where they agree |
| Matrices.ErrorVectorZeroIffEqual | Params.rb:181-187 | the error vector of two vectors of one size is all zero exactly when the vectors are equal |
| Matrices.ZeroVectorSumSquares | Params.rb:82-83 | the zero vector has magnitude zero, so `normalize` raises on it |
| Matrices.Normalize | Params.rb:81-85 | `normalize` raises ZeroDivisionError exactly when the sum of squares is zero; otherwise each component times the magnitude gives the original back |
| Network.Activation | Network.rb:14 | ACTIVATION_FN times 20 gives the input back, and it keeps the input's sign |
| Network.BuildLayer | Network.rb:41-46 | `build_layer` is m x (n+1): the drawn weights in the first n columns and a bias column of ones |
| Network.BuildLayers | Network.rb:17-29 | the layers are num_hidden_layers hidden layers of num_per_hidden x (num_inputs+1), then a num_outputs x (num_per_hidden+1) output layer |
| Network.LayerEntries | Network.rb:17-32 | layers of those shapes hold num_hidden * num_per_hidden * (num_inputs+1) + num_outputs * (num_per_hidden+1) entries |
| Network.FlattenLayers | Network.rb:111 | the flat list of all layers, layer after layer; Network.FlattenLayersLength states its length |
| Network.BuildNetwork | Network.rb:17-33 | `build_network` keeps its configuration, memoises the flat weight list, and sets `@num_weights` to the closed-form entry count |
| Network.FlattenLayersLength | Network.rb:111 | the flat weight list has one entry per layer entry |
| Network.Activate | Network.rb:78-80 | `activate` keeps the shape and applies ACTIVATION_FN at every entry |
| Network.ActivateLayer | Network.rb:54-61 | `activate_layer` succeeds exactly for a column input and a layer with one more column than the input has rows. A wider input fails in `vert_extend` with NoMethodError, a misfitting layer in `*` with ErrDimensionMismatch. Net input i is row i applied to the input extended by the bias 1, and the output is its activation |
| Network.Feed | Network.rb:66-72 | the loop of `respond_to`: without layers the input comes back, and with one layer the result is that layer's activation of the input (and fails exactly when it does) |
| Network.FeedAppend | Network.rb:66-72 | feeding a + b is feeding a and then b from its output, failing as soon as a part fails; with the one-layer case this fixes every feed |
| Network.FeedThree | NeuralNets.rb:243-250 | three layers whose activations chain, as in SeekingNet's `respond_to`, feed through to the last activation |
| Network.FeedCons | Network.rb:69-72 | a layer that accepts the input hands its activation on to the remaining layers |
| Network.FeedSucceedsIffChains | Network.rb:66-72 | feeding a column succeeds exactly when each layer has one more column than its predecessor's rows; otherwise ErrDimensionMismatch |
| Network.Median3 | Network.rb:87-89 | the middle of the sorted triple clamps the value into [-MAX_TURN_ANGLE, MAX_TURN_ANGLE] and leaves values inside unchanged |
| Network.Convert | Network.rb:83-90 | `convert` yields one clamped, rounded value per row of the first column, and nothing for a matrix with no column |
| Network.RespondTo | Network.rb:66-75 | `respond_to` succeeds exactly when the layers chain from the input count, and otherwise raises ErrDimensionMismatch. Its outputs are `convert` of the fed column vector: one per row of the last layer, each clamped into the turn range |
| Network.RespondShapes | Network.rb:66-75 | a network shaped by `build_network` responds exactly when the layers chain: with no hidden layer, when the input count is num_per_hidden (the output layer has num_per_hidden + 1 columns); with hidden layers, when the input count is num_inputs and, for two or more of them, num_per_hidden equals num_inputs. The answer then holds num_outputs values |
| Network.Weights | Network.rb:106-112 | `weights` returns the stored list when there is one, and otherwise the flattened layers, which it stores |
| Network.WeightsMemoised | Network.rb:106-112 | a second call of `weights` returns the same list and state as the first |
| Network.Fill | Network.rb:94-103 | the fill `set_weights` computes succeeds exactly when the list is long enough, and keeps every layer's shape |
| Network.FillFirstLayer | Network.rb:98-100 | the fill places flat entry r * cols + c at (r, c) of the first layer |
| Network.FillFlattenIdentity | Network.rb:94-112 | filling the layers with their own flat list gives the layers back |
| Network.FlattenFill | Network.rb:94-112 | the flat list of a fill is the prefix of the list that it consumed |
| Network.SetWeightsAsWritten | Network.rb:94-103 | `set_weights` as written computes the fill and drops it: for every list, the layers, the memoised list and what `weights` reports stay as they were, and no list makes it fail |
| Network.SetWeightsDropsFill | Network.rb:94-103 | for every list long enough, the as-written and the corrected `set_weights` leave the network reporting the same weights exactly when the list starts with the weights it already reports |
| Network.SetWeightsFixed | Network.rb:94-103 | corrected `set_weights` succeeds exactly when the list is long enough and keeps the shapes. `weights` then reports the consumed prefix of the list; a short list fails with NoMethodError |
| Network.SetOwnWeights | Network.rb:94-112 | setting a built network's own weights gives the same network |
| NeuralNets.NonZero | NeuralNets.rb:219 | `reject(&:zero?)` keeps no zero, drops nothing from an all-nonzero list and everything from an all-zero list |
| NeuralNets.NonZeroAppend | NeuralNets.rb:215-220 | rejecting zeros distributes over concatenation, so the weight list can be taken layer by layer |
| NeuralNets.LayerNonZero | NeuralNets.rb:219 | a layer's contribution to the weight list holds only nonzero entries and no more entries than the layer |
| NeuralNets.BuildLayer | NeuralNets.rb:144-149 | SeekingNet's `build_layer` is m x (m+1): the drawn diagonal, zeros off it, and a bias column of ones |
| NeuralNets.OutputLayer | NeuralNets.rb:131-133 | the output layer is 1 x 7: six drawn weights, then the bias 1 |
| NeuralNets.WeightsAsWritten | NeuralNets.rb:210-221 | `weights` raises NoMethodError exactly when some layer slot is still nil |
| NeuralNets.BuildAsWritten | NeuralNets.rb:115-138 | `SeekingNet.new` as written always raises NoMethodError, because layer 1 is nil when `weights` runs |
| NeuralNets.Weights | NeuralNets.rb:210-221 | the weight list of the two evolvable layers holds no zero |
| NeuralNets.Build | NeuralNets.rb:115-138 | the corrected constructor builds layers 0 and 2, leaves layer 1 empty, and memoises the nonzero weight list and its size |
| NeuralNets.ArgMin | NeuralNets.rb:157 | `find_index(min)` is the first position of a minimum, and NoMethodError on an empty input |
| NeuralNets.BuildWinningLayer | NeuralNets.rb:153-180 | the winner layer is square plus a bias column. Only the first minimal input's diagonal entry carries the draw, and every other weight is zero |
| NeuralNets.WinnerTakesAll | NeuralNets.rb:153-180 | applied to its own inputs, the winner layer gives the draw times the winning input plus 1 at the winner, and 1 elsewhere |
| NeuralNets.RespondTo | NeuralNets.rb:226-252 | with nothing in view the turn is the supplied draw and the net is unchanged. Otherwise slot 1 becomes the winner layer built from the first layer's output, and the turn is the first converted output of feeding the signals through layers 0, the new 1, and 2; the turn is in range |
| NeuralNets.RespondShapes | NeuralNets.rb:226-252 | a built SeekingNet with something in view responds exactly when there are as many signals as diagonal neurons and num_per_hidden is 6, since the winner layer's num_per_hidden outputs plus the bias must fit the 1 x 7 output layer |
| NeuralNets.SetWeightsAsWritten | NeuralNets.rb:185-207 | `set_weights` reads the `@layer` slot: nil there (as in every net) raises NoMethodError, and whatever it holds, the layers the net responds with and its weight list are never changed |
| NeuralNets.BuiltRejectsWeights | NeuralNets.rb:115-138 | every net `SeekingNet.new` builds leaves `@layer` nil, so `set_weights` raises NoMethodError on it for every list |
| NeuralNets.FillAsWritten | NeuralNets.rb:194-203 | what each entry of layers 0 and 2 would receive if the block read `@layers`. Layer 0 reads `weights[index]` (nil past the end) for every entry, zero or not; layer 2 reads one per entry and keeps zeros |
| NeuralNets.FillMisaligned | NeuralNets.rb:185-221 | for a two-neuron net, that fill puts a weight meant for the bias into a diagonal entry and overwrites a zero |
| NeuralNets.TwoNeuronFirstLayer | NeuralNets.rb:144-149 | the first layer of a two-neuron net, row-major, is `[a, 0, 1, 0, b, 1]` |
| NeuralNets.TwoNeuronNonZero | NeuralNets.rb:219 | that layer contributes `[a, 1, b, 1]` to the weight list |
| NeuralNets.ReplaceNonZero | NeuralNets.rb:200-203 | replacing nonzero entries by successive weights keeps the length and every zero entry |
| NeuralNets.ReplaceOwnNonZero | NeuralNets.rb:200-203 | replacing the nonzero entries by themselves changes nothing |
| NeuralNets.NonZeroOfReplace | NeuralNets.rb:200-203 | after replacement by nonzero weights, the nonzero entries are exactly the weights consumed |
| NeuralNets.ReplaceLayer | NeuralNets.rb:200-203 | a layer with its nonzero entries replaced keeps its shape, and its row-major entries are the replaced list |
| NeuralNets.SetWeights | NeuralNets.rb:185-207 | corrected `set_weights` succeeds exactly when the list covers the weight list, and fails with NoMethodError otherwise. It keeps every shape and layer 1 and stores the new weight list |
| NeuralNets.SetThenWeights | NeuralNets.rb:185-221 | after setting nonzero weights, `weights` reports the consumed prefix of the list |
| NeuralNets.ReplacePairNonZero | NeuralNets.rb:185-221 | replacing layers 0 and 2 in turn from one list yields the consumed prefix as their nonzero entries |
| NeuralNets.SetOwnWeights | NeuralNets.rb:185-221 | setting a net's own weight list gives the same net back |
| NeuralNets.ReplaceIdentity | NeuralNets.rb:200-203 | a layer keeps its entries when its nonzero entries are replaced by themselves |
| Agency.SlowlyDie | Agency.rb:173-182 | `slowly_die` adds the illness and caps the fitness at MAX_FITNESS, changing nothing else |
| Agency.UpdateFitness | Agency.rb:152-161 | a reached goal adds its value and one goal, then the agent slowly dies. The returned fitness is the agent's, capped at MAX_FITNESS |
| Agency.UpdateAge | Agency.rb:169-171 | `update_age` counts one tick and leaves the fitness and goals alone |
| Agency.Dead | Agency.rb:165-167 | `dead?`: fitness at or below zero. Agency.Reset and Agency.SurvivesGeneration state which agents it holds for |
| Agency.Reset | Agency.rb:130-142 | `reset` restores BASE_FITNESS, age 0 and no goals, so the agent is alive |
| Agency.StarveLinear | Agency.rb:152-182 | without goals and with a negative illness, k ticks lower the fitness by k times the illness (exactly, in real arithmetic) and age the agent by k |
| Agency.SurvivesGeneration | Params.rb:26-31 | a reset agent that reaches no goal is alive after NUM_TICKS ticks; in real arithmetic its fitness is 375 - 1800 * 0.2 = 15 |
| Agency.GoalTable | Agency.rb:110-116 | the DIST => GOAL hash stores only goals, each under its own distance, and every goal's distance is a key |
| Agency.GoalTableFromEnv | Agency.rb:114-116 | every goal in the hash is an object of the environment |
| Agency.LaterGoalWins | Agency.rb:114-116 | a goal with no later goal at the same distance is the one stored under that distance |
| Agency.ClosestDistance | Agency.rb:119 | `hash.keys.min` is None exactly when there is no goal, and is otherwise a goal's distance no greater than any goal's |
| Agency.WithinReach | Agency.rb:75-85 | `within_reach?` is never true of nil, and is true of an object at distance AGENT_REACH or less |
| Agency.FindClosest | Agency.rb:106-126 | `find_closest` is nil exactly when the environment holds no goal, and otherwise a goal of the environment at minimal distance |
| Agency.TryForGoal | Agency.rb:88-102 | `try_for_goal` yields a goal of the environment within AGENT_REACH and closest of all, or nil when the closest goal is out of reach |
| Agency.ReachableGoalIsTaken | Agency.rb:75-102 | a goal is collected exactly when some goal lies within AGENT_REACH |
| GenAlg.ResetStats | GenAlg.rb:119-126 | `reset_stats` zeroes total and best, sets worst to -Infinity and `@pop_size` to the population's size |
| GenAlg.ResetAverage | GenAlg.rb:119-126 | after `reset_stats` the average fitness is 0.0 |
| GenAlg.Initialize | GenAlg.rb:16-32 | `GenAlg.new` gives pop_size genomes of num_weights drawn weights in [-1, 1], each of fitness 0, with reset statistics |
| GenAlg.MaxFitness | GenAlg.rb:109-110 | the best fitness is a member's fitness and no member's is larger |
| GenAlg.MinFitness | GenAlg.rb:112 | the worst fitness is a member's fitness and no member's is smaller |
| GenAlg.TotalFitness | GenAlg.rb:114 | the fitness total is non-negative when every fitness is, and non-positive when every fitness is |
| GenAlg.TotalFitnessBounds | GenAlg.rb:114 | a total of n fitnesses in [lo, hi] lies between n * lo and n * hi |
| GenAlg.CalculateStats | GenAlg.rb:107-117 | `calculate_stats` raises NoMethodError exactly on an empty population. Otherwise best and worst bound every fitness and are attained, and the total is the fitness sum |
| GenAlg.Average | GenAlg.rb:116 | the average times a nonzero `@pop_size` is the total, and it is 0.0 while `@pop_size` is zero |
| GenAlg.AverageTimesCount | GenAlg.rb:116 | the average times `@pop_size` gives the total back |
| GenAlg.AverageBetweenWorstAndBest | GenAlg.rb:107-117 | for a non-empty population the average lies between the worst and the best fitness |
| GenAlg.Divisor | GenAlg.rb:88 | the divisor is never zero and is the best fitness whenever that is nonzero |
| GenAlg.Accepts | GenAlg.rb:88 | the acceptance test passes only for the draws 0 and 1 that `rand(0..1)` can give |
| GenAlg.AcceptsIsRatioTest | GenAlg.rb:88 | the division-free acceptance test agrees with `rand(0..1) <= fitness / divisor` |
| GenAlg.BestAlwaysAccepted | GenAlg.rb:88 | a genome with the nonzero best fitness is accepted by either draw |
| GenAlg.ZeroDrawAccepts | GenAlg.rb:88 | the draw 0 accepts every genome with a non-negative fitness ratio |
| GenAlg.ZeroBestZeroFitness | GenAlg.rb:85-88 | with best fitness 0, a genome of fitness 0 is accepted exactly by the draw 0 |
| GenAlg.FirstAccepted | GenAlg.rb:79-92 | the until-loop stops at the first accepted pick, and every pick before it was rejected |
| GenAlg.SampleGenome | GenAlg.rb:79-92 | `sample_genome` returns a member of the population, namely the genome of the first accepted pick |
| GenAlg.Child | GenAlg.rb:48-60 | a child has the chromosome length and fitness 0. It holds the first parent's weights before the point and the second's from it |
| GenAlg.ChildFromRanges | GenAlg.rb:48-60 | both ranges are defined, and `Genome.new.concat(head[0...p]).concat(tail[p..-1])` is that child |
| GenAlg.Crossover | GenAlg.rb:39-63 | the parents come back when the parents are `==`, the length is zero or the coin exceeds the rate. Otherwise the children are the two cross-overs at the point |
| GenAlg.CrossoverKeepsGenes | GenAlg.rb:39-63 | at every position the two children hold the two parents' weights, in one order or the other |
| GenAlg.Mutate | GenAlg.rb:67-75 | each weight whose coin is below the rate gains its perturbation, the others are kept, and the fitness is kept |
| GenAlg.MutationBounded | GenAlg.rb:67-75 | every weight is kept or moved by an amount in [-1, MAX_PERTURBATION] |
| GenAlg.ZeroRateIsIdentity | GenAlg.rb:67-75 | with a mutation rate of 0 the genome is unchanged |
| GenAlg.Insert | GenAlg.rb:99 | inserting into a sorted sequence keeps it sorted and adds exactly that genome |
| GenAlg.Sort | GenAlg.rb:99 | `sort` is a permutation of the population that is ascending by fitness |
| GenAlg.Last | GenAlg.rb:99 | `last(n)` is the final min(n, size) elements |
| GenAlg.RepeatLength | GenAlg.rb:101 | num_copies pushes of the elites add num_copies times as many genomes |
| GenAlg.RepeatMembers | GenAlg.rb:101 | every pushed genome is an elite |
| GenAlg.Elites | GenAlg.rb:99 | the elites number min(n, size) and form a sub-multiset of the population |
| GenAlg.ElitesFromPopulation | GenAlg.rb:99 | every elite is a genome of the population |
| GenAlg.ElitesDominate | GenAlg.rb:96-99 | every elite is at least as fit as every genome left out |
| GenAlg.CloneNBest | GenAlg.rb:96-103 | `clone_n_best` keeps the accumulator as a prefix, and with one copy appends exactly the elites |
| GenAlg.CloneNBestContents | GenAlg.rb:96-103 | it appends num_copies times the elites' count of genomes, each one a genome of the population |
| GenAlg.Breed | GenAlg.rb:152-160 | one pass yields two children of the chromosome length exactly when both samples find a parent |
| GenAlg.Litters | GenAlg.rb:151-164 | the loop's passes give one litter per round, every child of the chromosome length |
| GenAlg.LittersAreBreeds | GenAlg.rb:151-164 | pass j breeds from round j |
| GenAlg.Fill | GenAlg.rb:151-164 | when the until-loop stops, new_pop is exactly `@pop_size` long, extends the elites and keeps the chromosome length |
| GenAlg.Prepare | GenAlg.rb:135-141 | the survivors become the population and `@pop_size` their count. The best fitness is their maximum, and an empty population raises NoMethodError |
| GenAlg.Seed | GenAlg.rb:144-147 | new_pop starts as the min(size, NUM_ELITE) fittest survivors |
| GenAlg.Epoch | GenAlg.rb:133-170 | when `epoch` returns, the new population has the survivors' count, starts with the elites, keeps the chromosome length, and becomes `@population` |
| GenAlg.FillOddNeverStops | GenAlg.rb:151-164 | with an odd number of places left, or new_pop already too large, the as-written loop never stops, whatever the draws |
| GenAlg.EpochOddNeverReturns | GenAlg.rb:133-170 | `epoch` never returns when the survivors outnumber the elites by an odd count |
| GenAlg.EpochFailsWithFill | GenAlg.rb:133-170 | for non-empty survivors, `epoch` fails exactly when its breeding loop fails |
| GenAlg.BreedsYield | GenAlg.rb:151-163 | rounds in which both samples find a parent give litters that hold children |
| GenAlg.FillEvenStops | GenAlg.rb:151-164 | with 2 * pairs places left and a litter for each pair, the as-written loop stops |
| GenAlg.EpochEvenReturns | GenAlg.rb:133-170 | as written, `epoch` returns when the survivors outnumber the elites by an even count and each pair of places finds parents |
| GenAlg.FillFixed | GenAlg.rb:151-164 | the corrected loop ends with exactly `@pop_size` genomes, extending the elites and keeping the chromosome length |
| GenAlg.FillFixedStops | GenAlg.rb:151-164 | the corrected loop stops once half the gap, rounded up, of rounds are fruitful |
| GenAlg.EpochFixed | GenAlg.rb:133-170 | the corrected `epoch` has the same guarantees as `epoch` when it returns |
| GenAlg.EpochFixedReturns | GenAlg.rb:133-170 | the corrected `epoch` returns for every non-empty population, odd gap or even, given enough fruitful rounds |
| GenAlg.EpochWith | GenAlg.rb:133-170 | `epoch` with either loop keeps the survivors' count, the chromosome length and the elites in front when it returns |
| GenAlg.Chromosomes | GenAlg.rb:173-176 | `chromosomes` gives the population; GenAlg.Epoch states that after `epoch` it is the new population |
| World.BuildTable | ALife2.rb:39-42 | `@ENV_TABLE` maps every object to an index holding it, at or after each of its positions |
| World.BuildTableInverse | ALife2.rb:39-42 | the table is the inverse of environment indexing exactly when no object occurs twice |
| World.Consume | ALife2.rb:226-232 | `consume` fails with TypeError exactly for a goal not in the table. Otherwise the new food takes the goal's index in the environment and the table, and nothing else moves |
| World.ConsumeKeepsInverse | ALife2.rb:226-232 | consuming a goal for new food keeps the table the inverse of the environment |
| World.TickAgent | ALife2.rb:92-123 | one agent's turn ages it and charges its fitness to its genome. A reachable goal is counted and replaced; otherwise the environment is untouched, and the table stays the inverse |
| World.TickAll | ALife2.rb:92-123 | every agent takes its turn in order, each stepped once, and the table stays the inverse of the environment |
| World.Survivors | ALife2.rb:118-122 | the kept pairs are alive and come from the tick's outcomes |
| World.LivingSurvive | ALife2.rb:118-122 | every living agent is kept |
| World.RemovedFromBoth | ALife2.rb:118-122 | an agent is dropped from @agents exactly when its pair is dropped from @population |
| World.Init | ALife2.rb:34-66 | the constructor without the `sprite=` of line 67: it raises NoMethodError exactly when there are no agents (`@agents[0].num_weights` on nil). Otherwise it binds genome i to agent i and starts counters, averages and the hall of fame empty. The table is the environment's inverse when the foods are distinct |
| World.InitAsWritten | ALife2.rb:34-67 | `initialize` as written raises NoMethodError for every population: on line 50 without agents, otherwise on line 67, where `@Henry.sprite =` calls a writer no agent class defines |
| World.Tick | ALife2.rb:90-123 | a tick counts one more tick and keeps only living agents, each with its genome carrying its fitness. It keeps the world consistent and the table inverse |
| World.Rebind | ALife2.rb:147-157 | the boundary gives every agent its next chromosome and resets it, counts the generation, and records the rounded average and best |
| World.Boundary | ALife2.rb:124-158 | a generation boundary, with `epoch` as written or corrected, gives every agent a chromosome, the elites to the first agents, and records one average and one best |
| World.Step | ALife2.rb:81-160 | `update` raises ExtinctionEvent on an empty world, ticks below NUM_TICKS and runs the boundary at it; the tick counter stays within 1..NUM_TICKS |
| World.Update | ALife2.rb:81-164 | with the end of the world supplied and the corrected breeding loop, update closes the window once the generation count reaches it, and otherwise is the step |
| World.UpdateAsWritten | ALife2.rb:81-164 | as written, update breeds with `epoch` as written; every update whose step completes then raises NameError at the quit test, and one whose step fails fails with the step's error |
| World.UpdateNeverCompletes | ALife2.rb:81-164 | no tick of a populated world completes as written, while the corrected update completes it |
| World.BoundaryCompletes | ALife2.rb:124-158 | with the corrected breeding loop, a generation boundary of a populated world completes, with one genome per agent, once the draws provide enough parents |
| World.BoundaryOddStalls | ALife2.rb:124-162 | as written, a boundary with an odd number of places after the elites never completes, so update never reaches the quit test |
| World.BoundaryEvenRaises | ALife2.rb:124-162 | as written, a boundary with an even number of places and parents for each pair completes, and update then raises NameError |
| World.Run | ALife2.rb:81-164 | repeated updates keep the world consistent, never lower the generation, and close the window only at the end of the world |
| World.RunKeepsTicks | ALife2.rb:90-160 | the tick counter never exceeds NUM_TICKS and is at least 1 after an update |

## Left out

- Rendering, fonts, sprites (apart from the `sprite=` crash of line 67 of ALife2.rb, see World.Init below), the key listener, `draw*`, `to_alpha` and `quit`'s closing of the window: graphics only. `quit` is modelled as a `closed` flag.
- `save_stats`, `write_to_file` and Henry's `report`: file and console output.
- Agent movement, sensors, `rotate_point`, `distance_to` and `directional_vector`: trigonometry and floating point. Distances to objects are a parameter (`Sense.dist`), and SeekingNet's sensor signals are a parameter too.
- `Float#round(3)`: a parameter `round`; `Math.sqrt` in `normalize`: the magnitude is a parameter.
- World.Init: leaves out line 67 of ALife2.rb, `@Henry.sprite = Gosu::Image.new(...)`, which as written raises NoMethodError because the agent classes declare `sprite` with no writer (World.InitAsWritten and "## Findings"). Henry is only reported and drawn, so the model does not pick that agent.
- World.Init: does not call `agent.set_weights` (line 60 of ALife2.rb). For a SeekingAgent that is `@brain.set_weights` (Agents.rb:211-213), which as written raises NoMethodError (NeuralNets.SetWeightsAsWritten). The model keeps agents as counters without brains, so the binding is recorded only as the genome at the agent's index.
- World.Rebind: does not call `agent.set_weights` (line 154 of ALife2.rb), for the same reason; the new chromosome is recorded as the agent's genome.
- Network.Activation: divides reals, exactly (see the Float line below). Ruby's `x/20` floors when the net input is an Integer, which happens when a row holds no Float, as for a layer without weight columns (num_inputs 0): the net input is then the bias 1 and `1/20` is 0, where the model gives 0.05.
- Network.SetWeightsFixed: a list too short for the layers is reported as NoMethodError by the call itself. Ruby would store nil entries silently and raise at the next Matrix#* that reads one.
- NeuralNets.SetWeights: a short list is reported at the call in the same way.
- `NNetProcessingError` and the agent's brain call at the start of each turn (lines 94-99 of ALife2.rb): the agents' `respond_to` lives in Agents.rb, which is not part of this model.
- `BasicNet`'s constructor and `SeekingNet`'s constructor defaults only pass parameters on. `Network.BuildNetwork` and `NeuralNets.Build` take the configuration directly.
- `Genome#each`: Enumerable iteration with nothing to state beyond the weight sequence itself.
- `GenAlg#chromosomes` returns the population as an enumerator. `GenAlg.Chromosomes` returns the sequence, and `next` on it becomes the rebinding in `World.Rebind`.
- Object identity: Ruby objects are shared by reference, and the model uses values. `World.Thing` ids stand for the identity of environment objects, and food supplied by `Food.new` is assumed distinct from everything in the environment (`FreshSupply`). For genomes, sharing has consequences the model does not follow. The elites in new_pop are the very objects of the old population. When `crossover` hands back the parents themselves (equal fitness, chromosome length zero, or a coin above the rate), `mutate` changes them in place through `map!`. So an elite already in new_pop can end up with mutated weights; a later pass can sample a parent mutated by an earlier one; and a parent drawn as both mom and dad is mutated twice, pushed twice, and then bound to two agents.
- GenAlg.Epoch: the elites at the front of the new population are stated to be the old elites unchanged; in Ruby they can carry weights mutated through the sharing above.
- GenAlg.EpochFixed: the same sharing is left out.
- GenAlg.Litters: every pass breeds from the population as it stood when the loop began; in Ruby a pass can read a parent mutated in place by an earlier pass.
- World.Boundary: each agent gets its own genome value; in Ruby two agents can share one genome object, so a later mutation of one would show in the other.
- World.TickAll / World.Tick: deleting from `@agents` while iterating it with `each` makes Ruby skip the agent after a dead one. The model gives every agent its turn and drops the dead after the pass.
- GenAlg.Sort: Ruby's `sort` is not stable and does not say how genomes of equal fitness are ordered. The model uses one particular ascending permutation, so the order of equal-fitness elites is one possible order.
- GenAlg.Average: `@average_fitness` is not stored. It is derived from the total and `@pop_size` when it is read, which gives the same value as the assignment on line 116 of GenAlg.rb. Its product with `@pop_size` is the total in exact reals.
- The draws of epoch's loop are grouped per pass into `Round`s and bred up front (`GenAlg.Litters`). Running out of rounds stands for "has not returned"; it is not a Ruby error.
- GenAlg.Accepts: a `rand(0..1)` draw is an Integer, 0 or 1, and the model only accepts those two draws.
- Matrices.Normalize: does not state that the result has norm 1, because the square root is left out; it states the component-wise quotient (exact in reals) and the zero-vector error.
- Float arithmetic: Ruby Floats are IEEE doubles, and the model computes with exact reals, leaving rounding out. Every contract that states an equality of computed Floats holds in real arithmetic and may be off by rounding in Ruby. The members concerned have their own lines below.
- Agency.StarveLinear: the drop of k times the illness is exact in reals; in doubles, repeated addition of -0.2 accumulates rounding.
- Agency.SurvivesGeneration: `fitness == 15.0` is the exact-real value; in doubles 1800 additions of -0.2 to 375.0 leave a value a rounding error away from 15. That the agent is alive holds either way.
- GenAlg.AverageTimesCount: average times `@pop_size` gives the total back in reals; a double quotient times the count can differ from the total by rounding.
- GenAlg.CalculateStats: the total is the exact sum of the fitnesses; Ruby sums doubles in population order.
- GenAlg.TotalFitnessBounds: the bounds n * lo and n * hi hold for the exact sum.
- GenAlg.AcceptsIsRatioTest: the division-free test agrees with `fitness / divisor` compared in reals; a rounded quotient at the boundary 1 could decide differently.
- Agency.GoalTable: keys are real distances, so two goals at exactly equal distances collide as in Ruby's hash. Float equality is modelled as real equality.
- The Ruby integer `rand(0..@chromo_length - 1)` crossover point and the real-valued draws are constrained to their ranges by `GenAlg.ValidRound`; no distribution is modelled.

## Findings

| source | as written | input that shows it | evidently intended | confidence | as-written member | corrected member |
|---|---|---|---|---|---|---|
| Network.rb:98-100 | `layer = layer.map {...}` rebinds the block variable, so the layers and `@weights` never change | a network with one input, one output and no hidden layer (num_per_hidden 1) has the single layer [[w, 1]]; given the list [v, 1] with v != w it still reports [w, 1] | the layers take the fill and `@weights` reports the new list | high, not executed | Network.SetWeightsDropsFill | Network.SetWeightsFixed |
| NeuralNets.rb:136 | `weights` maps over all three slots of `@layers`, and slot 1 is nil while the net is being built | any `SeekingNet.new` | the weight list skips the empty winner slot | high, not executed | NeuralNets.BuildAsWritten | NeuralNets.Build |
| NeuralNets.rb:194 | `@layer[0]` reads an instance variable that is never assigned, so it is nil | any call of `set_weights` | `@layers[0]` and `@layers[2]`; the corrected member also stores the consumed list in the `@weights` cache, so that `weights` reports it | high, not executed | NeuralNets.BuiltRejectsWeights | NeuralNets.SetWeights |
| NeuralNets.rb:194 | even spelled `@layers`, the layer-0 block reads one weight per entry, zeros included, while `weights` lists only nonzero entries | a two-neuron net with diagonal a, b: the list [a, 1, b, 1, ...] fills row 0 with [a, 1, b] | only nonzero entries are replaced, as for layer 2 | medium, not executed | NeuralNets.FillAsWritten | NeuralNets.SetWeights |
| GenAlg.rb:151-163 | `until new_pop.size == @pop_size` with two children per pass never stops when an odd number of places is left | five survivors with four elites: new_pop goes 4, 6, 8, ... and never equals 5 | stop at the population size, dropping the second child of the last pass | high, not executed | GenAlg.EpochOddNeverReturns | GenAlg.EpochFixedReturns |
| ALife2.rb:67 | `@Henry.sprite = ...` calls `sprite=`, but the agent classes declare only readers (Agents.rb lines 15 and 57) and Agency defines no writer | any world with at least one agent | give the agent chosen as Henry its own sprite, which needs a writer for `sprite` | high, not executed | World.InitAsWritten | World.Init |
| ALife2.rb:162 | `Params::END_OF_THE_WORLD` is defined neither in Params.rb nor in ALife2.rb, Agents.rb, Food.rb or the other files of this model; Goal.rb, which Food.rb requires, is not part of this model and could define it | the first update of a populated world | a configured final generation | low, not executed | World.UpdateNeverCompletes | World.Update |

=== FILE: agency.dfy ===
/** The Agency mixin of Agency.rb: fitness accounting, ageing, death, reset, and the
    search for the closest reachable goal. Positions are abstracted into a distance
    function from the agent to each object. */
module Agency {
  import opened Wrappers
  import Params

  /** An object of the environment: a goal (Food) with its value, or anything else.
      The id stands for object identity. */
  datatype Thing = Goal(id: nat, value: real) | Other(id: nat)

  /** The counters of an agent. */
  datatype Agent = Agent(fitness: real, age: nat, goalsReached: nat, deathlyIllness: real)

  /** A fresh BasicAgent's counters: BASE_FITNESS, age 0, no goals, illness DEATH. */
  const Newborn: Agent := Agent(Params.BASE_FITNESS, 0, 0, Params.DEATH)

  // ---------------------------------------------------------------------------
  // Fitness

  /** slowly_die: add the (negative) illness, then cap at MAX_FITNESS. */
  function SlowlyDie(a: Agent): (r: Agent)
    ensures r.fitness <= Params.MAX_FITNESS
    ensures a.fitness + a.deathlyIllness <= Params.MAX_FITNESS ==>
              r.fitness == a.fitness + a.deathlyIllness
    ensures a.fitness + a.deathlyIllness > Params.MAX_FITNESS ==> r.fitness == Params.MAX_FITNESS
    ensures r == a.(fitness := r.fitness)
  {
    var f := a.fitness + a.deathlyIllness;
    a.(fitness := if f < Params.MAX_FITNESS then f else Params.MAX_FITNESS)
  }

  /** update_fitness(goal): a reached goal adds its value and one to the goal count;
      then the agent slowly dies. Returns the agent and its new fitness. */
  function UpdateFitness(a: Agent, goal: Option<real>): (r: (Agent, real))
    ensures r.1 == r.0.fitness && r.1 <= Params.MAX_FITNESS
    ensures goal.Some? ==> r.0.goalsReached == a.goalsReached + 1
    ensures goal.None? ==> r.0.goalsReached == a.goalsReached
    ensures r.0.age == a.age && r.0.deathlyIllness == a.deathlyIllness
    ensures var f := a.fitness + (if goal.Some? then goal.value else 0.0) + a.deathlyIllness;
            r.1 == if f < Params.MAX_FITNESS then f else Params.MAX_FITNESS
  {
    var b := if goal.Some? then a.(fitness := a.fitness + goal.value,
                                   goalsReached := a.goalsReached + 1)
             else a;
    var c := SlowlyDie(b);
    (c, c.fitness)
  }

  /** dead?: fitness has dropped to zero or below. */
  function Dead(a: Agent): (dead: bool) {
    a.fitness <= 0.0
  }

  /** update_age: one more tick lived. */
  function UpdateAge(a: Agent): (r: Agent)
    ensures r.age == a.age + 1
    ensures r.fitness == a.fitness && r.goalsReached == a.goalsReached
  {
    a.(age := a.age + 1)
  }

  /** reset: the counters return to their starting values (position and angle are
      redrawn, which the model leaves out). */
  function Reset(a: Agent): (r: Agent)
    ensures r.fitness == Params.BASE_FITNESS && r.age == 0 && r.goalsReached == 0
    ensures r.deathlyIllness == a.deathlyIllness
    ensures !Dead(r)
  {
    a.(fitness := Params.BASE_FITNESS, age := 0, goalsReached := 0)
  }

  /** k ticks in which no goal is reached. */
  function Starve(a: Agent, k: nat): Agent
    decreases k
  {
    if k == 0 then a else UpdateAge(UpdateFitness(Starve(a, k - 1), None).0)
  }

  /** Without goals, fitness falls by exactly the illness every tick (in real
      arithmetic; Ruby's doubles round each addition): the cap never bites, because
      the illness is negative and fitness starts at or below the cap. */
  lemma {:induction false} StarveLinear(a: Agent, k: nat)
    requires a.deathlyIllness < 0.0 && a.fitness <= Params.MAX_FITNESS
    ensures Starve(a, k).fitness == a.fitness + (k as real) * a.deathlyIllness
    ensures Starve(a, k).goalsReached == a.goalsReached
    ensures Starve(a, k).age == a.age + k
    ensures Starve(a, k).deathlyIllness == a.deathlyIllness
    decreases k
  {
    if k > 0 {
      StarveLinear(a, k - 1);
      assert (k as real) * a.deathlyIllness == ((k - 1) as real) * a.deathlyIllness + a.deathlyIllness;
    }
  }

  /** A reset agent that reaches no goal survives a whole generation of NUM_TICKS
      ticks: in real arithmetic 375 - 1800 * 0.2 leaves 15, and the rounding of
      Ruby's doubles stays far from the zero that would kill it. */
  lemma SurvivesGeneration(a: Agent)
    requires a.deathlyIllness == Params.DEATH
    ensures !Dead(Starve(Reset(a), Params.NUM_TICKS))
    ensures Starve(Reset(a), Params.NUM_TICKS).fitness == 15.0
  {
    StarveLinear(Reset(a), Params.NUM_TICKS);
  }

  // ---------------------------------------------------------------------------
  // Goals

  /** The DIST => GOAL hash of find_closest: every goal is stored under its distance,
      a later goal overwriting an earlier one at the same distance; other objects are
      skipped. */
  function GoalTable(env: seq<Thing>, dist: Thing -> real): (t: map<real, Thing>)
    ensures forall k :: k in t ==> t[k].Goal? && dist(t[k]) == k
    ensures forall i :: 0 <= i < |env| && env[i].Goal? ==> dist(env[i]) in t
    decreases |env|
  {
    if |env| == 0 then map[]
    else
      var n := |env| - 1;
      var t := GoalTable(env[..n], dist);
      assert forall i :: 0 <= i < n ==> env[..n][i] == env[i];
      if env[n].Goal? then t[dist(env[n]) := env[n]] else t
  }

  /** Every goal in the table is an object of the environment. */
  lemma {:induction false} GoalTableFromEnv(env: seq<Thing>, dist: Thing -> real, d: real)
    requires d in GoalTable(env, dist)
    ensures GoalTable(env, dist)[d] in env
    decreases |env|
  {
    var n := |env| - 1;
    var t := GoalTable(env[..n], dist);
    if !(env[n].Goal? && d == dist(env[n])) {
      GoalTableFromEnv(env[..n], dist, d);
      assert t[d] in env[..n];
    }
  }

  /** Among goals at the same distance the last one in the environment is kept. */
  lemma {:induction false} LaterGoalWins(env: seq<Thing>, dist: Thing -> real, i: nat)
    requires i < |env| && env[i].Goal?
    requires forall j :: i < j < |env| && env[j].Goal? ==> dist(env[j]) != dist(env[i])
    ensures GoalTable(env, dist)[dist(env[i])] == env[i]
    decreases |env|
  {
    var n := |env| - 1;
    if i < n {
      assert forall j :: i < j < n ==> env[..n][j] == env[j];
      assert env[..n][i] == env[i];
      LaterGoalWins(env[..n], dist, i);
      var t := GoalTable(env[..n], dist);
      assert GoalTable(env, dist) == if env[n].Goal? then t[dist(env[n]) := env[n]] else t;
    }
  }

  /** The smallest distance to a goal, None when there is no goal: hash.keys.min. */
  function ClosestDistance(env: seq<Thing>, dist: Thing -> real): (d: Option<real>)
    ensures d.None? <==> forall i :: 0 <= i < |env| ==> !env[i].Goal?
    ensures d.Some? ==> forall i :: 0 <= i < |env| && env[i].Goal? ==> d.value <= dist(env[i])
    ensures d.Some? ==> exists i :: 0 <= i < |env| && env[i].Goal? && dist(env[i]) == d.value
    decreases |env|
  {
    if |env| == 0 then None
    else
      var n := |env| - 1;
      var d := ClosestDistance(env[..n], dist);
      assert forall i :: 0 <= i < n ==> env[..n][i] == env[i];
      if !env[n].Goal? then d
      else if d.None? || dist(env[n]) < d.value then Some(dist(env[n]))
      else d
  }

  /** find_closest: the goal stored under the smallest distance, or nil when the
      environment holds no goal. */
  function FindClosest(env: seq<Thing>, dist: Thing -> real): (r: Option<Thing>)
    ensures r.None? <==> forall i :: 0 <= i < |env| ==> !env[i].Goal?
    ensures r.Some? ==> r.value.Goal? && r.value in env
    ensures r.Some? ==> forall i :: 0 <= i < |env| && env[i].Goal? ==> dist(r.value) <= dist(env[i])
  {
    match ClosestDistance(env, dist)
    case None => None
    case Some(d) =>
      GoalTableFromEnv(env, dist, d);
      Some(GoalTable(env, dist)[d])
  }

  /** within_reach?: an object at distance AGENT_REACH or less; nil never is. */
  function WithinReach(obj: Option<Thing>, dist: Thing -> real): (near: bool)
    ensures obj.None? ==> !near
  {
    obj.Some? && dist(obj.value) <= Params.AGENT_REACH
  }

  /** try_for_goal: the closest goal when it is within reach, otherwise nil. */
  function TryForGoal(env: seq<Thing>, dist: Thing -> real): (r: Option<Thing>)
    ensures r.Some? ==> r.value.Goal? && r.value in env && dist(r.value) <= Params.AGENT_REACH
    ensures r.Some? ==> forall i :: 0 <= i < |env| && env[i].Goal? ==> dist(r.value) <= dist(env[i])
    ensures r.None? <==> !WithinReach(FindClosest(env, dist), dist)
  {
    var closest := FindClosest(env, dist);
    if WithinReach(closest, dist) then closest else None
  }

  /** A goal within reach is collected exactly when some goal is within reach: the
      closest goal is no further away than any reachable one. */
  lemma ReachableGoalIsTaken(env: seq<Thing>, dist: Thing -> real)
    ensures TryForGoal(env, dist).Some? <==>
              exists i :: 0 <= i < |env| && env[i].Goal? && dist(env[i]) <= Params.AGENT_REACH
  {
    var r := TryForGoal(env, dist);
    if r.Some? {
      var i :| 0 <= i < |env| && env[i] == r.value;
    }
  }
}

=== FILE: genalg.dfy ===
/** The genetic algorithm of GenAlg.rb: population initialisation, statistics,
    stochastic-acceptance selection, single-point crossover, per-weight mutation,
    elitism and the epoch loop. Every random draw is an explicit argument. */
module GenAlg {
  import opened Wrappers
  import opened Genomes
  import Params

  /** @worst_fitness starts at -Float::INFINITY. */
  datatype Extended = NegInfinity | Finite(value: real)

  /** The statistics fields of a GenAlg, and @pop_size. @average_fitness is not stored:
      reset_stats and calculate_stats both leave it equal to Average (below), so it is
      derived from the total and @pop_size. */
  datatype Stats = Stats(total: real, best: real, worst: Extended, popSize: nat)

  /** The state of a GenAlg object. */
  datatype GA = GA(mutationRate: real, xoverRate: real, chromoLength: nat,
                   population: seq<Genome>, stats: Stats)

  /** One `@population.sample` followed by one `rand(0..1)`. Because the range has
      Integer bounds, the draw is the Integer 0 or 1, not a Float. */
  datatype Pick = Pick(index: nat, coin: int)

  /** One `rand(0..1.0)` mutation coin and the `rand(-1..MAX_PERTURBATION)` perturbation
      used when the coin comes up below the mutation rate. */
  datatype MutDraw = MutDraw(coin: real, delta: real)

  /** The draws of one pass of the epoch loop: the picks tried for each parent, the
      crossover coin and split point, and the mutation draws for each child. */
  datatype Round = Round(mom: seq<Pick>, dad: seq<Pick>, xoverCoin: real, xoverPoint: nat,
                         fredMut: seq<MutDraw>, georgeMut: seq<MutDraw>)

  predicate ValidPick(p: Pick, size: nat) {
    p.index < size && (p.coin == 0 || p.coin == 1)
  }

  predicate ValidMutDraw(d: MutDraw) {
    0.0 <= d.coin <= 1.0 && -1.0 <= d.delta <= Params.MAX_PERTURBATION
  }

  /** The draws Ruby's rand and sample can produce for a population of `size` genomes of
      `length` weights. */
  predicate ValidRound(r: Round, size: nat, length: nat) {
    && (forall k :: 0 <= k < |r.mom| ==> ValidPick(r.mom[k], size))
    && (forall k :: 0 <= k < |r.dad| ==> ValidPick(r.dad[k], size))
    && 0.0 <= r.xoverCoin <= 1.0
    && (length > 0 ==> r.xoverPoint < length)
    && |r.fredMut| == length && |r.georgeMut| == length
    && (forall k :: 0 <= k < length ==> ValidMutDraw(r.fredMut[k]))
    && (forall k :: 0 <= k < length ==> ValidMutDraw(r.georgeMut[k]))
  }

  predicate UniformLength(pop: seq<Genome>, length: nat) {
    forall i :: 0 <= i < |pop| ==> |pop[i].weights| == length
  }

  // ---------------------------------------------------------------------------
  // Initialisation and statistics

  /** reset_stats(pop): zeroed totals, a worst of -Infinity, and @pop_size = pop.size. */
  function ResetStats(pop: seq<Genome>): (s: Stats)
    ensures s.popSize == |pop| && s.worst == NegInfinity
    ensures s.total == 0.0 && s.best == 0.0
  {
    Stats(0.0, 0.0, NegInfinity, |pop|)
  }

  /** @average_fitness: the total divided by @pop_size (Float division in
      calculate_stats); 0.0 as reset_stats leaves it while nothing has been counted. */
  function Average(s: Stats): (avg: real)
    ensures s.popSize > 0 ==> avg * (s.popSize as real) == s.total
    ensures s.popSize == 0 ==> avg == 0.0
  {
    if s.popSize == 0 then 0.0 else s.total / (s.popSize as real)
  }

  /** reset_stats sets @average_fitness to 0.0, which is what Average gives for its
      zero total. */
  lemma ResetAverage(pop: seq<Genome>)
    ensures Average(ResetStats(pop)) == 0.0
  {
  }

  /** GenAlg.new: popSize genomes whose weights are the supplied draws of rand(-1.0..1),
      each of fitness 0.0, and freshly reset statistics. */
  function Initialize(popSize: nat, mutRate: real, xoverRate: real, numWeights: nat,
                      draws: seq<seq<real>>): (ga: GA)
    requires |draws| == popSize
    requires forall i :: 0 <= i < popSize ==> |draws[i]| == numWeights
    requires forall i, j :: 0 <= i < popSize && 0 <= j < numWeights ==> -1.0 <= draws[i][j] <= 1.0
    ensures |ga.population| == popSize && ga.chromoLength == numWeights
    ensures UniformLength(ga.population, numWeights)
    ensures forall i :: 0 <= i < popSize ==> ga.population[i].fitness == 0.0
    ensures forall i, j :: 0 <= i < popSize && 0 <= j < numWeights ==>
              -1.0 <= ga.population[i].weights[j] <= 1.0
    ensures ga.stats.popSize == popSize && ga.stats.best == 0.0 && ga.stats.worst == NegInfinity
  {
    var pop := seq(popSize, i requires 0 <= i < popSize => Genome(draws[i], 0.0));
    GA(mutRate, xoverRate, numWeights, pop, ResetStats(pop))
  }

  /** The largest fitness: Enumerable#max under Genome#<=>. */
  function MaxFitness(pop: seq<Genome>): (m: real)
    requires |pop| > 0
    ensures forall i :: 0 <= i < |pop| ==> pop[i].fitness <= m
    ensures exists i :: 0 <= i < |pop| && pop[i].fitness == m
    decreases |pop|
  {
    if |pop| == 1 then pop[0].fitness
    else
      var m := MaxFitness(pop[..|pop| - 1]);
      assert forall i :: 0 <= i < |pop| - 1 ==> pop[..|pop| - 1][i] == pop[i];
      if pop[|pop| - 1].fitness > m then pop[|pop| - 1].fitness else m
  }

  /** The smallest fitness: Enumerable#min under Genome#<=>. */
  function MinFitness(pop: seq<Genome>): (m: real)
    requires |pop| > 0
    ensures forall i :: 0 <= i < |pop| ==> m <= pop[i].fitness
    ensures exists i :: 0 <= i < |pop| && pop[i].fitness == m
    decreases |pop|
  {
    if |pop| == 1 then pop[0].fitness
    else
      var m := MinFitness(pop[..|pop| - 1]);
      assert forall i :: 0 <= i < |pop| - 1 ==> pop[..|pop| - 1][i] == pop[i];
      if pop[|pop| - 1].fitness < m then pop[|pop| - 1].fitness else m
  }

  /** inject(0) { |sum, g| sum + g.fitness }, left to right. */
  function TotalFitness(pop: seq<Genome>): (total: real)
    ensures (forall i :: 0 <= i < |pop| ==> pop[i].fitness >= 0.0) ==> total >= 0.0
    ensures (forall i :: 0 <= i < |pop| ==> pop[i].fitness <= 0.0) ==> total <= 0.0
    decreases |pop|
  {
    if |pop| == 0 then 0.0 else TotalFitness(pop[..|pop| - 1]) + pop[|pop| - 1].fitness
  }

  /** n copies of x added up: n * x without a product, so that bounds on a total stay
      linear. */
  function Scale(n: nat, x: real): (r: real)
    ensures x >= 0.0 ==> r >= 0.0
    decreases n
  {
    if n == 0 then 0.0 else Scale(n - 1, x) + x
  }

  lemma {:induction false} ScaleIsProduct(n: nat, x: real)
    ensures Scale(n, x) == (n as real) * x
    decreases n
  {
    if n > 0 {
      ScaleIsProduct(n - 1, x);
      assert (n as real) * x == ((n - 1) as real) * x + x;
    }
  }

  /** The total of a population whose fitnesses all lie in [lo, hi] lies between
      |pop| * lo and |pop| * hi. */
  lemma {:induction false} TotalFitnessBounds(pop: seq<Genome>, lo: real, hi: real)
    requires forall i :: 0 <= i < |pop| ==> lo <= pop[i].fitness <= hi
    ensures Scale(|pop|, lo) <= TotalFitness(pop) <= Scale(|pop|, hi)
    decreases |pop|
  {
    if |pop| > 0 {
      var n := |pop| - 1;
      assert forall i :: 0 <= i < n ==> pop[..n][i] == pop[i];
      TotalFitnessBounds(pop[..n], lo, hi);
    }
  }

  /** calculate_stats: best, worst and total are the max, min and sum of the fitnesses,
      and the average (see Average) follows from the total. On an empty population
      `@population.max` is nil and `nil.fitness` raises NoMethodError. */
  function CalculateStats(ga: GA): (r: Result<GA>)
    requires ga.stats.popSize == |ga.population|
    ensures r.Failure? <==> |ga.population| == 0
    ensures r.Failure? ==> r.error == NoMethodError
    ensures r.Success? ==> r.value.population == ga.population
    ensures r.Success? ==> r.value.stats.popSize == ga.stats.popSize
    ensures r.Success? ==> forall i :: 0 <= i < |ga.population| ==>
              r.value.stats.worst.Finite? &&
              r.value.stats.worst.value <= ga.population[i].fitness <= r.value.stats.best
    ensures r.Success? ==>
              exists i :: 0 <= i < |ga.population| && ga.population[i].fitness == r.value.stats.best
    ensures r.Success? ==>
              exists i :: 0 <= i < |ga.population| && r.value.stats.worst == Finite(ga.population[i].fitness)
    ensures r.Success? ==> r.value.stats.total == TotalFitness(ga.population)
  {
    if |ga.population| == 0 then Failure(NoMethodError)
    else
      var total := TotalFitness(ga.population);
      Success(ga.(stats := Stats(total, MaxFitness(ga.population),
                                 Finite(MinFitness(ga.population)), ga.stats.popSize)))
  }

  /** The average times @pop_size gives back the total. */
  lemma AverageTimesCount(s: Stats)
    requires s.popSize > 0
    ensures Average(s) * (s.popSize as real) == s.total
  {
    QuotientTimes(s.total, s.popSize as real);
  }

  /** The average lies between the worst and the best fitness. */
  lemma AverageBetweenWorstAndBest(ga: GA)
    requires ga.stats.popSize == |ga.population| && |ga.population| > 0
    ensures CalculateStats(ga).Success?
    ensures var s := CalculateStats(ga).value.stats;
            s.worst.value <= Average(s) <= s.best
  {
    var s := CalculateStats(ga).value.stats;
    TotalFitnessBounds(ga.population, s.worst.value, s.best);
    AverageBound(s.total, |ga.population|, s.worst.value, s.best);
  }

  /** A total between count * lo and count * hi averages to between lo and hi. */
  lemma AverageBound(total: real, count: nat, lo: real, hi: real)
    requires count > 0 && Scale(count, lo) <= total <= Scale(count, hi)
    ensures lo <= total / (count as real) <= hi
  {
    ScaleIsProduct(count, lo);
    ScaleIsProduct(count, hi);
    QuotientBound(total, count as real, lo, hi);
  }

  lemma QuotientBound(total: real, n: real, lo: real, hi: real)
    requires n > 0.0 && n * lo <= total <= n * hi
    ensures lo <= total / n <= hi
  {
    QuotientTimes(total, n);
  }

  lemma QuotientTimes(total: real, n: real)
    requires n != 0.0
    ensures (total / n) * n == total
  {
  }

  // ---------------------------------------------------------------------------
  // Selection

  /** The divisor of sample_genome's acceptance test: the best fitness, or 1 when it
      is zero. */
  function Divisor(best: real): (d: real)
    ensures d != 0.0
    ensures best != 0.0 ==> d == best
  {
    if best == 0.0 then 1.0 else best
  }

  /** The acceptance test of sample_genome, draw <= fitness / divisor, stated without
      the division for the two draws rand(0..1) can give: 0 passes a non-negative
      ratio, 1 a ratio of at least one. No other draw occurs, and none passes. */
  function Accepts(g: Genome, best: real, coin: int): (pass: bool)
    ensures pass ==> coin == 0 || coin == 1
  {
    var d := Divisor(best);
    if coin == 0 then (d > 0.0 && g.fitness >= 0.0) || (d < 0.0 && g.fitness <= 0.0)
    else if coin == 1 then (d > 0.0 && g.fitness >= d) || (d < 0.0 && g.fitness <= d)
    else false
  }

  /** The division-free test is the source's comparison of the draw with the ratio. */
  lemma AcceptsIsRatioTest(g: Genome, best: real, coin: int)
    requires coin == 0 || coin == 1
    ensures Accepts(g, best, coin) <==> (coin as real) <= g.fitness / Divisor(best)
  {
    var d := Divisor(best);
    var q := g.fitness / d;
    assert q * d == g.fitness;
    assert (q - 1.0) * d == g.fitness - d;
    ProductSign(q, d);
    ProductSign(q - 1.0, d);
  }

  /** The sign of a product with a nonzero factor follows the other factor. */
  lemma ProductSign(a: real, d: real)
    requires d != 0.0
    ensures d > 0.0 ==> (a >= 0.0 <==> a * d >= 0.0)
    ensures d < 0.0 ==> (a >= 0.0 <==> a * d <= 0.0)
  {
    if a < 0.0 {
      if d > 0.0 { assert a * d < 0.0; } else { assert a * d > 0.0; }
    }
  }

  /** A genome whose fitness is a nonzero best is accepted by either draw. */
  lemma BestAlwaysAccepted(g: Genome, best: real, coin: int)
    requires best != 0.0 && g.fitness == best && (coin == 0 || coin == 1)
    ensures Accepts(g, best, coin)
  {
  }

  /** The draw 0 accepts every genome whose fitness ratio is non-negative. */
  lemma ZeroDrawAccepts(g: Genome, best: real)
    requires g.fitness / Divisor(best) >= 0.0
    ensures Accepts(g, best, 0)
  {
    AcceptsIsRatioTest(g, best, 0);
  }

  /** In a generation whose best fitness is 0, a genome of fitness 0 is accepted exactly
      when the draw is 0: selection does not stall, because the draw is an Integer. */
  lemma ZeroBestZeroFitness(g: Genome, coin: int)
    requires g.fitness == 0.0 && (coin == 0 || coin == 1)
    ensures Accepts(g, 0.0, coin) <==> coin == 0
  {
  }

  /** The position in `picks` at which sample_genome's until-loop stops: the first pick
      whose genome passes the acceptance test; None when the supplied picks run out
      before one does. */
  function FirstAccepted(pop: seq<Genome>, best: real, picks: seq<Pick>): (r: Option<nat>)
    requires forall k :: 0 <= k < |picks| ==> picks[k].index < |pop|
    ensures r.Some? ==> r.value < |picks| && Accepts(pop[picks[r.value].index], best, picks[r.value].coin)
    ensures r.Some? ==> forall j :: 0 <= j < r.value ==> !Accepts(pop[picks[j].index], best, picks[j].coin)
    ensures r.None? ==> forall j :: 0 <= j < |picks| ==> !Accepts(pop[picks[j].index], best, picks[j].coin)
    decreases |picks|
  {
    if |picks| == 0 then None
    else if Accepts(pop[picks[0].index], best, picks[0].coin) then Some(0)
    else
      match FirstAccepted(pop, best, picks[1..])
      case None => None
      case Some(k) => Some(k + 1)
  }

  /** sample_genome: the genome of the first accepted pick. */
  function SampleGenome(pop: seq<Genome>, best: real, picks: seq<Pick>): (r: Option<Genome>)
    requires forall k :: 0 <= k < |picks| ==> picks[k].index < |pop|
    ensures r.Some? <==> FirstAccepted(pop, best, picks).Some?
    ensures r.Some? ==> r.value == pop[picks[FirstAccepted(pop, best, picks).value].index]
    ensures r.Some? ==> r.value in pop
  {
    match FirstAccepted(pop, best, picks)
    case None => None
    case Some(k) => Some(pop[picks[k].index])
  }

  // ---------------------------------------------------------------------------
  // Crossover and mutation

  /** The short-circuit test of crossover. `mom == dad` is Comparable#==, which compares
      fitness only. The rand(0..1.0) coin is drawn only when the first two tests fail,
      so its value matters only then. */
  predicate CrossoverSkipped(mom: Genome, dad: Genome, length: nat, rate: real, coin: real) {
    Same(mom, dad) || length == 0 || coin > rate
  }

  /** One child of a crossover: the head of one parent before the split point followed
      by the tail of the other from it, with the fitness 0.0 of `Genome.new`. */
  function Child(head: Genome, tail: Genome, length: nat, point: nat): (c: Genome)
    requires |head.weights| == length && |tail.weights| == length && point <= length
    ensures |c.weights| == length && c.fitness == 0.0
    ensures forall i :: 0 <= i < point ==> c.weights[i] == head.weights[i]
    ensures forall i :: point <= i < length ==> c.weights[i] == tail.weights[i]
  {
    Genome(head.weights[..point] + tail.weights[point..], 0.0)
  }

  /** The child is what crossover builds: `Genome.new.concat(head[0...point])
      .concat(tail[point..-1])`. */
  lemma ChildFromRanges(head: Genome, tail: Genome, length: nat, point: nat)
    requires |head.weights| == length && |tail.weights| == length && point <= length
    ensures Range(head, 0, point, true).Some? && Range(tail, point, -1, false).Some?
    ensures Concat(Concat(Fresh, Range(head, 0, point, true).value), Range(tail, point, -1, false).value)
            == Child(head, tail, length, point)
  {
    SliceHead(head.weights, point);
    SliceTail(tail.weights, point);
    assert [] + head.weights[..point] == head.weights[..point];
  }

  /** crossover(mom, dad): the parents themselves when skipped; otherwise fred is mom's
      head before the split point followed by dad's tail, george the other way round,
      both built from Genome.new and so of fitness 0.0. */
  function Crossover(length: nat, rate: real, mom: Genome, dad: Genome, coin: real, point: nat)
    : (r: (Genome, Genome))
    requires |mom.weights| == length && |dad.weights| == length
    requires length > 0 ==> point < length
    ensures CrossoverSkipped(mom, dad, length, rate, coin) ==> r == (mom, dad)
    ensures !CrossoverSkipped(mom, dad, length, rate, coin) ==>
              r.0.fitness == 0.0 && r.1.fitness == 0.0
    ensures |r.0.weights| == length && |r.1.weights| == length
    ensures !CrossoverSkipped(mom, dad, length, rate, coin) ==>
              (forall i :: 0 <= i < point ==>
                 r.0.weights[i] == mom.weights[i] && r.1.weights[i] == dad.weights[i]) &&
              (forall i :: point <= i < length ==>
                 r.0.weights[i] == dad.weights[i] && r.1.weights[i] == mom.weights[i])
  {
    if CrossoverSkipped(mom, dad, length, rate, coin) then (mom, dad)
    else (Child(mom, dad, length, point), Child(dad, mom, length, point))
  }

  /** At every position the two children hold the two parents' weights, in some order:
      crossover moves genes but never invents or loses one. */
  lemma CrossoverKeepsGenes(length: nat, rate: real, mom: Genome, dad: Genome, coin: real,
                            point: nat, i: nat)
    requires |mom.weights| == length && |dad.weights| == length
    requires length > 0 ==> point < length
    requires i < length
    ensures var r := Crossover(length, rate, mom, dad, coin, point);
            multiset{r.0.weights[i], r.1.weights[i]} == multiset{mom.weights[i], dad.weights[i]}
  {
  }

  /** mutate(genome): each weight whose coin falls below the mutation rate is perturbed
      by its delta; the others are kept. */
  function Mutate(rate: real, g: Genome, draws: seq<MutDraw>): (r: Genome)
    requires |draws| == |g.weights|
    ensures |r.weights| == |g.weights| && r.fitness == g.fitness
    ensures forall i :: 0 <= i < |g.weights| ==>
              r.weights[i] == (if draws[i].coin < rate then g.weights[i] + draws[i].delta
                               else g.weights[i])
  {
    Genome(seq(|g.weights|, i requires 0 <= i < |g.weights| =>
             if draws[i].coin < rate then g.weights[i] + draws[i].delta else g.weights[i]),
           g.fitness)
  }

  /** Every weight is kept or moved by an amount in [-1, MAX_PERTURBATION]. */
  lemma MutationBounded(rate: real, g: Genome, draws: seq<MutDraw>, i: nat)
    requires |draws| == |g.weights| && i < |g.weights|
    requires forall k :: 0 <= k < |draws| ==> ValidMutDraw(draws[k])
    ensures var w := Mutate(rate, g, draws).weights[i];
            w == g.weights[i] ||
            (g.weights[i] - 1.0 <= w <= g.weights[i] + Params.MAX_PERTURBATION)
  {
  }

  /** With a mutation rate of 0 no coin from rand(0..1.0) falls below it. */
  lemma ZeroRateIsIdentity(g: Genome, draws: seq<MutDraw>)
    requires |draws| == |g.weights|
    requires forall k :: 0 <= k < |draws| ==> ValidMutDraw(draws[k])
    ensures Mutate(0.0, g, draws) == g
  {
    assert Mutate(0.0, g, draws).weights == g.weights;
  }

  // ---------------------------------------------------------------------------
  // Elitism

  predicate SortedByFitness(s: seq<Genome>) {
    forall i, j :: 0 <= i < j < |s| ==> s[i].fitness <= s[j].fitness
  }

  /** Inserts g into a fitness-sorted sequence, after the genomes less fit than it. */
  function Insert(s: seq<Genome>, g: Genome): (r: seq<Genome>)
    requires SortedByFitness(s)
    ensures |r| == |s| + 1
    ensures r[0] == g || (|s| > 0 && r[0] == s[0])
    ensures SortedByFitness(r)
    ensures multiset(r) == multiset(s) + multiset{g}
    decreases |s|
  {
    if |s| == 0 then [g]
    else if g.fitness <= s[0].fitness then
      ConsSorted(g, s);
      [g] + s
    else
      var t := Insert(s[1..], g);
      assert s == [s[0]] + s[1..];
      ConsSorted(s[0], t);
      [s[0]] + t
  }

  /** A genome no fitter than the head of a sorted sequence can go in front of it. */
  lemma ConsSorted(x: Genome, t: seq<Genome>)
    requires SortedByFitness(t)
    requires |t| > 0 ==> x.fitness <= t[0].fitness
    ensures SortedByFitness([x] + t)
  {
    var r := [x] + t;
    forall i, j | 0 <= i < j < |r| ensures r[i].fitness <= r[j].fitness {
      if i > 0 { assert r[i] == t[i - 1] && r[j] == t[j - 1]; }
      else { assert r[j] == t[j - 1]; }
    }
  }

  /** @population.sort under Genome#<=>: ascending by fitness. Ruby's sort does not say
      how it orders equal fitnesses; this one keeps them in input order. */
  function Sort(s: seq<Genome>): (r: seq<Genome>)
    ensures SortedByFitness(r)
    ensures multiset(r) == multiset(s)
    ensures |r| == |s|
    decreases |s|
  {
    if |s| == 0 then []
    else
      assert s == [s[0]] + s[1..];
      Insert(Sort(s[1..]), s[0])
  }

  /** Array#last(n): the final n elements, or all of them when there are fewer. */
  function Last(s: seq<Genome>, n: nat): (r: seq<Genome>)
    ensures |r| == if n < |s| then n else |s|
    ensures r == s[|s| - |r|..]
  {
    if n < |s| then s[|s| - n..] else s
  }

  /** `num_copies.times { pop.push *elites }` */
  function Repeat(s: seq<Genome>, copies: nat): seq<Genome>
    decreases copies
  {
    if copies == 0 then [] else Repeat(s, copies - 1) + s
  }

  /** num_copies copies of s hold num_copies times as many genomes. */
  lemma {:induction false} RepeatLength(s: seq<Genome>, copies: nat)
    ensures |Repeat(s, copies)| == copies * |s|
    decreases copies
  {
    if copies > 0 {
      RepeatLength(s, copies - 1);
      assert copies * |s| == (copies - 1) * |s| + |s|;
    }
  }

  /** Every genome of the copies is one of s. */
  lemma {:induction false} RepeatMembers(s: seq<Genome>, copies: nat)
    ensures forall i :: 0 <= i < |Repeat(s, copies)| ==> Repeat(s, copies)[i] in s
    decreases copies
  {
    if copies > 0 {
      RepeatMembers(s, copies - 1);
      var r, p := Repeat(s, copies), Repeat(s, copies - 1);
      forall i | 0 <= i < |r| ensures r[i] in s {
        if i < |p| { assert r[i] == p[i]; } else { assert r[i] == s[i - |p|]; }
      }
    }
  }

  /** The elites: the n fittest genomes, last of the sorted population. */
  function Elites(pop: seq<Genome>, n: nat): (e: seq<Genome>)
    ensures |e| == if n < |pop| then n else |pop|
    ensures multiset(e) <= multiset(pop)
  {
    var s := Sort(pop);
    var e := Last(s, n);
    assert s == s[..|s| - |e|] + e;
    assert multiset(s) == multiset(s[..|s| - |e|]) + multiset(e);
    e
  }

  /** Every elite is a genome of the population. */
  lemma ElitesFromPopulation(pop: seq<Genome>, n: nat)
    ensures forall i :: 0 <= i < |Elites(pop, n)| ==> Elites(pop, n)[i] in pop
  {
    var e := Elites(pop, n);
    forall i | 0 <= i < |e| ensures e[i] in pop {
      assert e[i] in multiset(e);
    }
  }

  /** clone_n_best(n, num_copies, acc): acc followed by num_copies copies of the elites. */
  function CloneNBest(pop: seq<Genome>, n: nat, copies: nat, acc: seq<Genome>): (r: seq<Genome>)
    ensures |acc| <= |r| && r[..|acc|] == acc
    ensures copies == 1 ==> r[|acc|..] == Elites(pop, n)
  {
    var e := Repeat(Elites(pop, n), copies);
    assert (acc + e)[..|acc|] == acc;
    assert (acc + e)[|acc|..] == e;
    assert copies == 1 ==> e == [] + Elites(pop, n);
    acc + e
  }

  /** What clone_n_best appends: num_copies copies of the elites, every one a genome of
      the population. */
  lemma CloneNBestContents(pop: seq<Genome>, n: nat, copies: nat, acc: seq<Genome>)
    ensures |CloneNBest(pop, n, copies, acc)| == |acc| + copies * |Elites(pop, n)|
    ensures forall i :: |acc| <= i < |CloneNBest(pop, n, copies, acc)| ==>
              CloneNBest(pop, n, copies, acc)[i] in pop
  {
    var e := Elites(pop, n);
    var r := CloneNBest(pop, n, copies, acc);
    RepeatLength(e, copies);
    RepeatMembers(e, copies);
    ElitesFromPopulation(pop, n);
    assert r == acc + Repeat(e, copies);
    forall i | |acc| <= i < |r| ensures r[i] in pop {
      assert r[i] == Repeat(e, copies)[i - |acc|];
    }
  }

  /** Every elite is at least as fit as every genome left out of the elites. */
  lemma ElitesDominate(pop: seq<Genome>, n: nat)
    ensures var e := Elites(pop, n);
            forall x, y :: x in e && y in multiset(pop) - multiset(e) ==> y.fitness <= x.fitness
  {
    var s := Sort(pop);
    var e := Elites(pop, n);
    var cut := |s| - |e|;
    assert e == s[cut..];
    assert s == s[..cut] + e;
    MultisetSplit(s[..cut], e);
    SortedSplit(s, cut);
  }

  /** In a sorted sequence, everything after a cut is at least as fit as everything
      before it. */
  lemma SortedSplit(s: seq<Genome>, cut: nat)
    requires SortedByFitness(s) && cut <= |s|
    ensures forall x, y :: x in s[cut..] && y in multiset(s[..cut]) ==> y.fitness <= x.fitness
  {
    forall x: Genome, y: Genome | x in s[cut..] && y in multiset(s[..cut])
      ensures y.fitness <= x.fitness
    {
      var j :| 0 <= j < cut && s[..cut][j] == y;
      var i :| 0 <= i < |s| - cut && s[cut..][i] == x;
      assert s[j] == y && s[cut + i] == x;
    }
  }

  lemma MultisetSplit(a: seq<Genome>, b: seq<Genome>)
    ensures multiset(a + b) - multiset(b) == multiset(a)
  {
    assert multiset(a + b) == multiset(a) + multiset(b);
  }

  // ---------------------------------------------------------------------------
  // The epoch loop

  /** [@pop_size, NUM_ELITE].min: how many distinct elites epoch keeps. */
  function EliteNumber(k: nat): nat {
    if k < Params.NUM_ELITE then k else Params.NUM_ELITE
  }

  /** One pass of the loop body: two samples, crossover, and mutation of both children.
      Failure(DrawsExhausted) stands for a sample_genome loop that has not stopped
      within the supplied picks. */
  function Breed(ga: GA, rd: Round): (r: Result<(Genome, Genome)>)
    requires UniformLength(ga.population, ga.chromoLength)
    requires ValidRound(rd, |ga.population|, ga.chromoLength)
    ensures r.Success? ==> |r.value.0.weights| == ga.chromoLength
    ensures r.Success? ==> |r.value.1.weights| == ga.chromoLength
    ensures r.Success? <==> SampleGenome(ga.population, ga.stats.best, rd.mom).Some? &&
                            SampleGenome(ga.population, ga.stats.best, rd.dad).Some?
  {
    match (SampleGenome(ga.population, ga.stats.best, rd.mom),
           SampleGenome(ga.population, ga.stats.best, rd.dad))
    case (Some(mom), Some(dad)) =>
      assert |mom.weights| == ga.chromoLength;
      assert |dad.weights| == ga.chromoLength;
      var kids := Crossover(ga.chromoLength, ga.xoverRate, mom, dad, rd.xoverCoin, rd.xoverPoint);
      Success((Mutate(ga.mutationRate, kids.0, rd.fredMut),
               Mutate(ga.mutationRate, kids.1, rd.georgeMut)))
    case _ => Failure(DrawsExhausted)
  }

  /** The children of every pass, in order: Breed on each round, each from the
      population as it stood when the loop began. The loop rebinds neither @population
      nor @best_fitness and changes no fitness, so the sampling odds stay the same; the
      weights of a parent that crossover hands back unchanged are mutated in place in
      Ruby, which values here do not follow. */
  function Litters(ga: GA, rounds: seq<Round>): (ls: seq<Result<(Genome, Genome)>>)
    requires UniformLength(ga.population, ga.chromoLength)
    requires forall k :: 0 <= k < |rounds| ==> ValidRound(rounds[k], |ga.population|, ga.chromoLength)
    ensures |ls| == |rounds|
    ensures Fits(ls, ga.chromoLength)
    decreases |rounds|
  {
    if |rounds| == 0 then []
    else
      var rest := Litters(ga, rounds[1..]);
      var ls := [Breed(ga, rounds[0])] + rest;
      assert forall k :: 1 <= k < |ls| ==> ls[k] == rest[k - 1];
      ls
  }

  /** Every child of the litters has the chromosome length. */
  predicate Fits(litters: seq<Result<(Genome, Genome)>>, length: nat) {
    forall k :: 0 <= k < |litters| && litters[k].Success? ==>
      |litters[k].value.0.weights| == length && |litters[k].value.1.weights| == length
  }

  /** Pass j of the loop breeds from round j. */
  lemma {:induction false} LittersAreBreeds(ga: GA, rounds: seq<Round>, j: nat)
    requires UniformLength(ga.population, ga.chromoLength)
    requires forall k :: 0 <= k < |rounds| ==> ValidRound(rounds[k], |ga.population|, ga.chromoLength)
    requires j < |rounds|
    ensures Litters(ga, rounds)[j] == Breed(ga, rounds[j])
    decreases |rounds|
  {
    if j > 0 {
      assert rounds[1..][j - 1] == rounds[j];
      LittersAreBreeds(ga, rounds[1..], j - 1);
    }
  }

  /** `until new_pop.size == @pop_size`: each pass pushes both children, and the loop
      stops only on exact equality. Running out of supplied litters stands for a loop
      that has not stopped. */
  function Fill(ga: GA, newPop: seq<Genome>, litters: seq<Result<(Genome, Genome)>>)
    : (r: Result<seq<Genome>>)
    requires Fits(litters, ga.chromoLength)
    ensures r.Success? ==> |newPop| <= |r.value| == ga.stats.popSize
    ensures r.Success? ==> r.value[..|newPop|] == newPop
    ensures r.Success? && UniformLength(newPop, ga.chromoLength) ==>
              UniformLength(r.value, ga.chromoLength)
    decreases |litters|
  {
    if |newPop| == ga.stats.popSize then Success(newPop)
    else if |litters| == 0 then Failure(DrawsExhausted)
    else
      match litters[0]
      case Failure(e) => Failure(e)
      case Success(kids) =>
        var next := newPop + [kids.0, kids.1];
        var r := Fill(ga, next, litters[1..]);
        if r.Success? then
          assert r.value[..|newPop|] == next[..|newPop|];
          r
        else r
  }

  /** The working state epoch breeds from: the survivors as the population, with
      reset_stats (so @pop_size becomes their count) followed by calculate_stats. */
  function Prepare(ga: GA, oldPop: seq<Genome>): (r: Result<GA>)
    ensures r.Failure? <==> |oldPop| == 0
    ensures r.Failure? ==> r.error == NoMethodError
    ensures r.Success? ==> r.value.population == oldPop && r.value.stats.popSize == |oldPop|
    ensures r.Success? ==> r.value.chromoLength == ga.chromoLength
    ensures r.Success? ==> r.value.stats.best == MaxFitness(oldPop)
  {
    CalculateStats(ga.(population := oldPop, stats := ResetStats(oldPop)))
  }

  /** The elite copies new_pop starts from: with NUM_COPIES_ELITE at 1, exactly the
      elites. */
  function Seed(oldPop: seq<Genome>, length: nat): (seed: seq<Genome>)
    requires UniformLength(oldPop, length)
    ensures seed == Elites(oldPop, EliteNumber(|oldPop|))
    ensures |seed| == EliteNumber(|oldPop|) <= |oldPop|
    ensures UniformLength(seed, length)
  {
    var seed := CloneNBest(oldPop, EliteNumber(|oldPop|), Params.NUM_COPIES_ELITE, []);
    ElitesFromPopulation(oldPop, EliteNumber(|oldPop|));
    assert seed == seed[0..];
    forall i | 0 <= i < |seed| ensures |seed[i].weights| == length {
      assert seed[i] in oldPop;
    }
    seed
  }

  /** epoch(old_pop) as written: prepare, seed with the elites, then run the breeding
      loop that stops only on exact size equality. Returns the new GA state and its
      chromosomes. */
  function Epoch(ga: GA, oldPop: seq<Genome>, rounds: seq<Round>): (r: Result<(GA, seq<Genome>)>)
    requires UniformLength(oldPop, ga.chromoLength)
    requires forall k :: 0 <= k < |rounds| ==> ValidRound(rounds[k], |oldPop|, ga.chromoLength)
    ensures |oldPop| == 0 ==> r == Failure(NoMethodError)
    ensures r.Success? ==> |r.value.1| == |oldPop|
    ensures r.Success? ==> r.value.0.population == r.value.1
    ensures r.Success? ==> r.value.0.stats.popSize == |oldPop| && r.value.0.chromoLength == ga.chromoLength
    ensures r.Success? ==> UniformLength(r.value.1, ga.chromoLength)
    ensures r.Success? ==> r.value.1[..EliteNumber(|oldPop|)] == Seed(oldPop, ga.chromoLength)
  {
    match Prepare(ga, oldPop)
    case Failure(e) => Failure(e)
    case Success(ga2) =>
      var seed := Seed(oldPop, ga.chromoLength);
      match Fill(ga2, seed, Litters(ga2, rounds))
      case Failure(e) => Failure(e)
      case Success(pop) => Success((ga2.(population := pop), pop))
  }

  /** new_pop is past the population size, or an odd number of places is left. */
  predicate OddGap(size: nat, filled: nat) {
    filled > size || (size - filled) % 2 == 1
  }

  /** When an odd number of places is left (or new_pop is already too large), the
      as-written loop never stops: each pass adds two genomes, so the size steps over
      @pop_size. */
  lemma {:induction false} FillOddNeverStops(ga: GA, newPop: seq<Genome>,
                                             litters: seq<Result<(Genome, Genome)>>)
    requires Fits(litters, ga.chromoLength)
    requires OddGap(ga.stats.popSize, |newPop|)
    ensures Fill(ga, newPop, litters).Failure?
    decreases |litters|
  {
    if |litters| > 0 && litters[0].Success? {
      var kids := litters[0].value;
      FillOddNeverStops(ga, newPop + [kids.0, kids.1], litters[1..]);
    }
  }

  /** epoch never returns when the survivors outnumber the elites by an odd count: with
      7 survivors, 4 elites leave 3 places to fill two at a time. */
  lemma EpochOddNeverReturns(ga: GA, oldPop: seq<Genome>, rounds: seq<Round>)
    requires UniformLength(oldPop, ga.chromoLength)
    requires forall k :: 0 <= k < |rounds| ==> ValidRound(rounds[k], |oldPop|, ga.chromoLength)
    requires (|oldPop| - EliteNumber(|oldPop|)) % 2 == 1
    ensures Epoch(ga, oldPop, rounds).Failure?
  {
    assert |oldPop| > 0;
    var ga2 := Prepare(ga, oldPop).value;
    var seed := Seed(oldPop, ga.chromoLength);
    var litters := Litters(ga2, rounds);
    assert OddGap(|oldPop|, EliteNumber(|oldPop|));
    assert ga2.stats.popSize == |oldPop| && |seed| == EliteNumber(|oldPop|);
    FillOddNeverStops(ga2, seed, litters);
    EpochFailsWithFill(ga, oldPop, rounds);
  }

  /** Once the survivors are prepared and the elites seeded, epoch fails exactly when
      its breeding loop does. */
  lemma EpochFailsWithFill(ga: GA, oldPop: seq<Genome>, rounds: seq<Round>)
    requires UniformLength(oldPop, ga.chromoLength) && |oldPop| > 0
    requires forall k :: 0 <= k < |rounds| ==> ValidRound(rounds[k], |oldPop|, ga.chromoLength)
    ensures var ga2 := Prepare(ga, oldPop).value;
            Epoch(ga, oldPop, rounds).Failure? <==>
              Fill(ga2, Seed(oldPop, ga.chromoLength), Litters(ga2, rounds)).Failure?
  {
    var ga2 := Prepare(ga, oldPop).value;
    var f := Fill(ga2, Seed(oldPop, ga.chromoLength), Litters(ga2, rounds));
    assert Epoch(ga, oldPop, rounds).Failure? == f.Failure?;
  }

  /** Every one of the first k rounds yields two parents. */
  predicate Breeds(ga: GA, rounds: seq<Round>, k: nat)
    requires UniformLength(ga.population, ga.chromoLength)
    requires forall j :: 0 <= j < |rounds| ==> ValidRound(rounds[j], |ga.population|, ga.chromoLength)
  {
    k <= |rounds| && forall j :: 0 <= j < k ==> Breed(ga, rounds[j]).Success?
  }

  /** Each of the first k litters holds two children. */
  predicate Yields(litters: seq<Result<(Genome, Genome)>>, k: nat) {
    k <= |litters| && forall j :: 0 <= j < k ==> litters[j].Success?
  }

  /** Rounds that yield parents give litters that hold children. */
  lemma BreedsYield(ga: GA, rounds: seq<Round>, k: nat)
    requires UniformLength(ga.population, ga.chromoLength)
    requires forall j :: 0 <= j < |rounds| ==> ValidRound(rounds[j], |ga.population|, ga.chromoLength)
    requires Breeds(ga, rounds, k)
    ensures Yields(Litters(ga, rounds), k)
  {
    forall j | 0 <= j < k ensures Litters(ga, rounds)[j].Success? {
      LittersAreBreeds(ga, rounds, j);
    }
  }

  /** With an even number of places left and enough litters, the as-written loop stops
      with the population full. */
  lemma {:induction false} FillEvenStops(ga: GA, newPop: seq<Genome>,
                                         litters: seq<Result<(Genome, Genome)>>, pairs: nat)
    requires Fits(litters, ga.chromoLength)
    requires |newPop| + 2 * pairs == ga.stats.popSize
    requires Yields(litters, pairs)
    ensures Fill(ga, newPop, litters).Success?
    decreases pairs
  {
    if pairs > 0 {
      var kids := litters[0].value;
      assert Yields(litters[1..], pairs - 1) by {
        forall j | 0 <= j < pairs - 1
          ensures litters[1..][j].Success?
        {
          assert litters[1..][j] == litters[j + 1];
        }
      }
      FillEvenStops(ga, newPop + [kids.0, kids.1], litters[1..], pairs - 1);
    }
  }

  /** The breeding loop as evidently intended: the second child is pushed only when
      there is room for it, so the loop stops whatever the parity. */
  function FillFixed(ga: GA, newPop: seq<Genome>, litters: seq<Result<(Genome, Genome)>>)
    : (r: Result<seq<Genome>>)
    requires Fits(litters, ga.chromoLength)
    requires |newPop| <= ga.stats.popSize
    ensures r.Success? ==> |r.value| == ga.stats.popSize
    ensures r.Success? ==> r.value[..|newPop|] == newPop
    ensures r.Success? && UniformLength(newPop, ga.chromoLength) ==>
              UniformLength(r.value, ga.chromoLength)
    decreases |litters|
  {
    if |newPop| == ga.stats.popSize then Success(newPop)
    else if |litters| == 0 then Failure(DrawsExhausted)
    else
      match litters[0]
      case Failure(e) => Failure(e)
      case Success(kids) =>
        var next := if |newPop| + 1 < ga.stats.popSize then newPop + [kids.0, kids.1]
                    else newPop + [kids.0];
        var r := FillFixed(ga, next, litters[1..]);
        if r.Success? then
          assert r.value[..|newPop|] == next[..|newPop|];
          r
        else r
  }

  /** The corrected loop stops with the population full as soon as enough litters hold
      children, on either parity. */
  lemma {:induction false} FillFixedStops(ga: GA, newPop: seq<Genome>,
                                          litters: seq<Result<(Genome, Genome)>>)
    requires Fits(litters, ga.chromoLength)
    requires |newPop| <= ga.stats.popSize
    requires Yields(litters, (ga.stats.popSize - |newPop| + 1) / 2)
    ensures FillFixed(ga, newPop, litters).Success?
    decreases |litters|
  {
    if |newPop| != ga.stats.popSize {
      var kids := litters[0].value;
      var next := if |newPop| + 1 < ga.stats.popSize then newPop + [kids.0, kids.1]
                  else newPop + [kids.0];
      assert Yields(litters[1..], (ga.stats.popSize - |next| + 1) / 2) by {
        forall j | 0 <= j < (ga.stats.popSize - |next| + 1) / 2
          ensures litters[1..][j].Success?
        {
          assert litters[1..][j] == litters[j + 1];
        }
      }
      FillFixedStops(ga, next, litters[1..]);
    }
  }

  /** With an even number of places left after the elites, 2 * pairs, and parents for
      each pair of them, epoch as written returns. */
  lemma EpochEvenReturns(ga: GA, oldPop: seq<Genome>, rounds: seq<Round>, pairs: nat)
    requires UniformLength(oldPop, ga.chromoLength) && |oldPop| > 0
    requires forall k :: 0 <= k < |rounds| ==> ValidRound(rounds[k], |oldPop|, ga.chromoLength)
    requires |oldPop| == EliteNumber(|oldPop|) + 2 * pairs
    requires Breeds(Prepare(ga, oldPop).value, rounds, pairs)
    ensures Epoch(ga, oldPop, rounds).Success?
  {
    var ga2 := Prepare(ga, oldPop).value;
    BreedsYield(ga2, rounds, pairs);
    FillEvenStops(ga2, Seed(oldPop, ga.chromoLength), Litters(ga2, rounds), pairs);
  }

  /** epoch with the corrected breeding loop. */
  function EpochFixed(ga: GA, oldPop: seq<Genome>, rounds: seq<Round>): (r: Result<(GA, seq<Genome>)>)
    requires UniformLength(oldPop, ga.chromoLength)
    requires forall k :: 0 <= k < |rounds| ==> ValidRound(rounds[k], |oldPop|, ga.chromoLength)
    ensures |oldPop| == 0 ==> r == Failure(NoMethodError)
    ensures r.Success? ==> |r.value.1| == |oldPop|
    ensures r.Success? ==> r.value.0.population == r.value.1
    ensures r.Success? ==> r.value.0.stats.popSize == |oldPop| && r.value.0.chromoLength == ga.chromoLength
    ensures r.Success? ==> UniformLength(r.value.1, ga.chromoLength)
    ensures r.Success? ==> r.value.1[..EliteNumber(|oldPop|)] == Seed(oldPop, ga.chromoLength)
  {
    match Prepare(ga, oldPop)
    case Failure(e) => Failure(e)
    case Success(ga2) =>
      var seed := Seed(oldPop, ga.chromoLength);
      match FillFixed(ga2, seed, Litters(ga2, rounds))
      case Failure(e) => Failure(e)
      case Success(pop) => Success((ga2.(population := pop), pop))
  }

  /** The corrected epoch returns for every non-empty population, odd or even, once
      enough rounds yield parents. */
  lemma EpochFixedReturns(ga: GA, oldPop: seq<Genome>, rounds: seq<Round>)
    requires UniformLength(oldPop, ga.chromoLength) && |oldPop| > 0
    requires forall k :: 0 <= k < |rounds| ==> ValidRound(rounds[k], |oldPop|, ga.chromoLength)
    requires Breeds(Prepare(ga, oldPop).value, rounds, (|oldPop| - EliteNumber(|oldPop|) + 1) / 2)
    ensures EpochFixed(ga, oldPop, rounds).Success?
  {
    var ga2 := Prepare(ga, oldPop).value;
    BreedsYield(ga2, rounds, (|oldPop| - EliteNumber(|oldPop|) + 1) / 2);
    FillFixedStops(ga2, Seed(oldPop, ga.chromoLength), Litters(ga2, rounds));
  }

  /** epoch with the breeding loop as written (fixedLoop false) or corrected (true):
      both keep the population size, the chromosome length and the elites in front. */
  function EpochWith(ga: GA, oldPop: seq<Genome>, rounds: seq<Round>, fixedLoop: bool)
    : (r: Result<(GA, seq<Genome>)>)
    requires UniformLength(oldPop, ga.chromoLength)
    requires forall k :: 0 <= k < |rounds| ==> ValidRound(rounds[k], |oldPop|, ga.chromoLength)
    ensures |oldPop| == 0 ==> r == Failure(NoMethodError)
    ensures r.Success? ==> |r.value.1| == |oldPop|
    ensures r.Success? ==> r.value.0.population == r.value.1
    ensures r.Success? ==> r.value.0.stats.popSize == |oldPop| && r.value.0.chromoLength == ga.chromoLength
    ensures r.Success? ==> UniformLength(r.value.1, ga.chromoLength)
    ensures r.Success? ==> r.value.1[..EliteNumber(|oldPop|)] == Seed(oldPop, ga.chromoLength)
  {
    if fixedLoop then EpochFixed(ga, oldPop, rounds) else Epoch(ga, oldPop, rounds)
  }

  /** chromosomes: the population, which epoch returns as an enumerator. */
  function Chromosomes(ga: GA): (pop: seq<Genome>) {
    ga.population
  }
}

=== FILE: genomes.dfy ===
/** A genome of the genetic algorithm: a weight vector and a fitness score, ordered by
    fitness alone (Genome.rb mixes in Comparable and defines <=> on fitness). */
module Genomes {
  import opened Wrappers

  datatype Genome = Genome(weights: seq<real>, fitness: real)

  /** Genome.new with both defaults: no weights and a fitness of 0.0. */
  const Fresh: Genome := Genome([], 0.0)

  /** Genome#<=>: -1, 0 or +1 as the receiver's fitness is below, equal to or above
      the other's. */
  function Compare(a: Genome, b: Genome): (c: int)
    ensures c == -1 || c == 0 || c == 1
    ensures c < 0 <==> a.fitness < b.fitness
    ensures c > 0 <==> a.fitness > b.fitness
  {
    if a.fitness < b.fitness then -1 else if a.fitness > b.fitness then 1 else 0
  }

  /** Comparable#==: true when <=> answers 0, that is exactly when the two fitnesses
      agree, whatever the weights. */
  function Same(a: Genome, b: Genome): (same: bool)
    ensures same <==> a.fitness == b.fitness
  {
    Compare(a, b) == 0
  }

  /** Comparable#== ignores weights: genomes with different weights are == as soon as
      their fitnesses agree. */
  lemma SameIgnoresWeights(a: Genome, w: seq<real>)
    ensures Same(a, Genome(w, a.fitness))
  {
  }

  /** Genome#<<: appends one weight, keeping the earlier ones and the fitness. */
  function Push(g: Genome, w: real): (r: Genome)
    ensures |r.weights| == |g.weights| + 1
    ensures r.weights[..|g.weights|] == g.weights && r.weights[|g.weights|] == w
    ensures r.fitness == g.fitness
  {
    Genome(g.weights + [w], g.fitness)
  }

  /** Genome#concat: the old weights followed by the given ones; the same genome
      (same fitness) is returned. */
  function Concat(g: Genome, a: seq<real>): (r: Genome)
    ensures |r.weights| == |g.weights| + |a|
    ensures forall i :: 0 <= i < |g.weights| ==> r.weights[i] == g.weights[i]
    ensures forall j :: 0 <= j < |a| ==> r.weights[|g.weights| + j] == a[j]
    ensures r.fitness == g.fitness
  {
    Genome(g.weights + a, g.fitness)
  }

  /** Array#[] with an Integer index: negative indices count from the end, and an index
      outside the array gives nil. */
  function Index(s: seq<real>, i: int): (r: Option<real>)
    ensures r.Some? <==> -|s| <= i < |s|
    ensures 0 <= i < |s| ==> r == Some(s[i])
    ensures -|s| <= i < 0 ==> r == Some(s[|s| + i])
  {
    var j := if i < 0 then i + |s| else i;
    if 0 <= j < |s| then Some(s[j]) else None
  }

  /** Array#[] with a Range lo..hi (or lo...hi when exclusive), following Ruby's
      rb_range_beg_len: negative bounds count from the end, a start beyond the array
      gives nil, and the end is clipped to the array. */
  function Slice(s: seq<real>, lo: int, hi: int, exclusive: bool): (r: Option<seq<real>>)
    ensures r.Some? <==> -|s| <= lo <= |s|
  {
    var n := |s|;
    var b := if lo < 0 then lo + n else lo;
    if b < 0 || b > n then None
    else
      var e0 := if hi < 0 then hi + n else hi;
      var e1 := if exclusive then e0 else e0 + 1;
      var e := if e1 > n then n else e1;
      var len := if e - b < 0 then 0 else e - b;
      Some(s[b..b + len])
  }

  /** s[0...p] is the prefix of length p, for every p from 0 to |s|. */
  lemma SliceHead(s: seq<real>, p: nat)
    requires p <= |s|
    ensures Slice(s, 0, p, true) == Some(s[..p])
  {
  }

  /** s[p..-1] is the suffix from p, for every p from 0 to |s|; at p == |s| it is the
      empty array, not nil. */
  lemma SliceTail(s: seq<real>, p: nat)
    requires p <= |s|
    ensures Slice(s, p, -1, false) == Some(s[p..])
  {
    assert s[p..p + (|s| - p)] == s[p..];
  }

  /** Genome#[] with an index: delegates to the weight array. */
  function At(g: Genome, i: int): (r: Option<real>)
    ensures r.Some? <==> -|g.weights| <= i < |g.weights|
    ensures 0 <= i < |g.weights| ==> r == Some(g.weights[i])
    ensures -|g.weights| <= i < 0 ==> r == Some(g.weights[|g.weights| + i])
  {
    Index(g.weights, i)
  }

  /** Genome#[] with a range: delegates to the weight array. */
  function Range(g: Genome, lo: int, hi: int, exclusive: bool): (r: Option<seq<real>>)
    ensures r.Some? <==> -|g.weights| <= lo <= |g.weights|
    ensures r.Some? ==> |r.value| <= |g.weights|
    ensures 0 <= lo <= hi < |g.weights| && !exclusive ==> r == Some(g.weights[lo..hi + 1])
    ensures 0 <= lo <= hi <= |g.weights| && exclusive ==> r == Some(g.weights[lo..hi])
  {
    Slice(g.weights, lo, hi, exclusive)
  }

  /** Genome#map!: applies f at every position, keeping the length and the fitness. */
  function MapWeights(g: Genome, f: real -> real): (r: Genome)
    ensures |r.weights| == |g.weights|
    ensures forall i :: 0 <= i < |g.weights| ==> r.weights[i] == f(g.weights[i])
    ensures r.fitness == g.fitness
  {
    Genome(seq(|g.weights|, i requires 0 <= i < |g.weights| => f(g.weights[i])), g.fitness)
  }
}

=== FILE: matrices.dfy ===
/** Dense real matrices and vectors: the parts of Ruby's Matrix and Vector that the
    networks use, and the extensions Params.rb patches onto Matrix, Vector and Array. */
module Matrices {
  import opened Wrappers

  /** A Ruby Matrix. The dimensions are stored explicitly because a matrix with no
      rows still has a column count. */
  datatype Matrix = Matrix(rows: nat, cols: nat, data: seq<seq<real>>) {
    /** Every Ruby Matrix is rectangular. */
    predicate Valid() {
      |data| == rows && forall i :: 0 <= i < rows ==> |data[i]| == cols
    }
  }

  /** A matrix of the given shape holding the given rows. */
  predicate Shaped(m: Matrix, rows: nat, cols: nat) {
    m.Valid() && m.rows == rows && m.cols == cols
  }

  /** Matrix.build(m, n) { 1 } */
  function Ones(m: nat, n: nat): (r: Matrix)
    ensures Shaped(r, m, n)
    ensures forall i, j :: 0 <= i < m && 0 <= j < n ==> r.data[i][j] == 1.0
  {
    Matrix(m, n, seq(m, i => seq(n, j => 1.0)))
  }

  /** Matrix.column_vector(x): one row per component. */
  function ColumnVector(x: seq<real>): (r: Matrix)
    ensures Shaped(r, |x|, 1)
    ensures forall i :: 0 <= i < |x| ==> r.data[i][0] == x[i]
  {
    Matrix(|x|, 1, seq(|x|, i requires 0 <= i < |x| => [x[i]]))
  }

  /** Matrix.row_vector(x): a single row. */
  function RowVector(x: seq<real>): (r: Matrix)
    ensures Shaped(r, 1, |x|)
    ensures r.data[0] == x
  {
    Matrix(1, |x|, [x])
  }

  /** Matrix.diagonal(*d): the square matrix with d on the diagonal and 0 elsewhere. */
  function Diagonal(d: seq<real>): (r: Matrix)
    ensures Shaped(r, |d|, |d|)
    ensures forall i, j :: 0 <= i < |d| && 0 <= j < |d| ==>
              r.data[i][j] == if i == j then d[i] else 0.0
  {
    Matrix(|d|, |d|, seq(|d|, i requires 0 <= i < |d| =>
                       seq(|d|, j requires 0 <= j < |d| => if i == j then d[i] else 0.0)))
  }

  /** The j-th column of a matrix, top to bottom. */
  function Column(m: Matrix, j: nat): (c: seq<real>)
    requires m.Valid() && j < m.cols
    ensures |c| == m.rows
    ensures forall i :: 0 <= i < m.rows ==> c[i] == m.data[i][j]
  {
    seq(m.rows, i requires 0 <= i < m.rows => m.data[i][j])
  }

  /** Matrix#horiz_concat: the columns of a followed by the columns of b. On a row
      mismatch it calls `Matrix.raise`, Kernel's private raise with an explicit
      receiver, which itself raises NoMethodError. */
  function HorizConcat(a: Matrix, b: Matrix): (r: Result<Matrix>)
    requires a.Valid() && b.Valid()
    ensures r.Success? <==> a.rows == b.rows
    ensures r.Failure? ==> r.error == NoMethodError
    ensures r.Success? ==> Shaped(r.value, a.rows, a.cols + b.cols)
    ensures r.Success? ==> forall i, j :: 0 <= i < a.rows && 0 <= j < a.cols ==>
              r.value.data[i][j] == a.data[i][j]
    ensures r.Success? ==> forall i, j :: 0 <= i < a.rows && 0 <= j < b.cols ==>
              r.value.data[i][a.cols + j] == b.data[i][j]
  {
    if a.rows != b.rows then Failure(NoMethodError)
    else
      var n := a.cols + b.cols;
      var r := Matrix(a.rows, n, seq(a.rows, i requires 0 <= i < a.rows =>
                 seq(n, j requires 0 <= j < n =>
                   if j < a.cols then a.data[i][j] else b.data[i][j - a.cols])));
      assert forall i, j :: 0 <= i < a.rows && 0 <= j < b.cols ==>
        r.data[i][a.cols + j] == b.data[i][j];
      Success(r)
  }

  /** Matrix#vert_extend: the rows of a stacked on top of the rows of b. A column
      mismatch reaches `Matrix.raise` and so raises NoMethodError. */
  function VertExtend(a: Matrix, b: Matrix): (r: Result<Matrix>)
    requires a.Valid() && b.Valid()
    ensures r.Success? <==> a.cols == b.cols
    ensures r.Failure? ==> r.error == NoMethodError
    ensures r.Success? ==> Shaped(r.value, a.rows + b.rows, a.cols)
    ensures r.Success? ==> forall i :: 0 <= i < a.rows ==> r.value.data[i] == a.data[i]
    ensures r.Success? ==> forall i :: 0 <= i < b.rows ==> r.value.data[a.rows + i] == b.data[i]
  {
    if a.cols != b.cols then Failure(NoMethodError)
    else Success(Matrix(a.rows + b.rows, a.cols, a.data + b.data))
  }

  /** Matrix#hadamult: the entry-wise product of two matrices of the same shape. It is
      the one extension spelling `Matrix.Raise`, so a mismatch raises
      ErrDimensionMismatch. */
  function Hadamult(a: Matrix, b: Matrix): (r: Result<Matrix>)
    requires a.Valid() && b.Valid()
    ensures r.Success? <==> a.rows == b.rows && a.cols == b.cols
    ensures r.Failure? ==> r.error == DimensionMismatch
    ensures r.Success? ==> Shaped(r.value, a.rows, a.cols)
    ensures r.Success? ==> forall i, j :: 0 <= i < a.rows && 0 <= j < a.cols ==>
              r.value.data[i][j] == a.data[i][j] * b.data[i][j]
  {
    if a.rows != b.rows || a.cols != b.cols then Failure(DimensionMismatch)
    else
      Success(Matrix(a.rows, a.cols, seq(a.rows, i requires 0 <= i < a.rows =>
                seq(a.cols, j requires 0 <= j < a.cols => a.data[i][j] * b.data[i][j]))))
  }

  /** Matrix#kronemult: the outer product of a column vector and a row vector. Other
      shapes reach `Matrix.raise` and so raise NoMethodError. */
  function Kronemult(a: Matrix, b: Matrix): (r: Result<Matrix>)
    requires a.Valid() && b.Valid()
    ensures r.Success? <==> a.cols == 1 && b.rows == 1
    ensures r.Failure? ==> r.error == NoMethodError
    ensures r.Success? ==> Shaped(r.value, a.rows, b.cols)
    ensures r.Success? ==> forall i, j :: 0 <= i < a.rows && 0 <= j < b.cols ==>
              r.value.data[i][j] == a.data[i][0] * b.data[0][j]
  {
    if a.cols != 1 || b.rows != 1 then Failure(NoMethodError)
    else
      Success(Matrix(a.rows, b.cols, seq(a.rows, i requires 0 <= i < a.rows =>
                seq(b.cols, j requires 0 <= j < b.cols => a.data[i][0] * b.data[0][j]))))
  }

  /** Matrix#size: the number of entries. */
  function Size(m: Matrix): (n: nat)
    requires m.Valid()
    ensures n == |Flatten(m)|
  {
    FlattenLength(m.data, m.cols);
    m.rows * m.cols
  }

  /** Matrix#dimensions: [row_size, column_size]. */
  function Dimensions(m: Matrix): (d: seq<nat>)
    requires m.Valid()
    ensures |d| == 2 && d[0] == m.rows && d[1] == m.cols
    ensures d[0] * d[1] == Size(m)
  {
    [m.rows, m.cols]
  }

  /** The dot product, accumulated from the first index up as Ruby's Matrix#* does. */
  function Dot(u: seq<real>, v: seq<real>): real
    requires |u| == |v|
    decreases |u|
  {
    if |u| == 0 then 0.0 else Dot(u[..|u| - 1], v[..|v| - 1]) + u[|u| - 1] * v[|v| - 1]
  }

  /** Matrix#*: the matrix product, raising when the inner dimensions differ. */
  function MatMul(a: Matrix, b: Matrix): (r: Result<Matrix>)
    requires a.Valid() && b.Valid()
    ensures r.Success? <==> a.cols == b.rows
    ensures r.Failure? ==> r.error == DimensionMismatch
    ensures r.Success? ==> Shaped(r.value, a.rows, b.cols)
    ensures r.Success? ==> forall i, j :: 0 <= i < a.rows && 0 <= j < b.cols ==>
              r.value.data[i][j] == Dot(a.data[i], Column(b, j))
  {
    if a.cols != b.rows then Failure(DimensionMismatch)
    else
      Success(Matrix(a.rows, b.cols, seq(a.rows, i requires 0 <= i < a.rows =>
                seq(b.cols, j requires 0 <= j < b.cols => Dot(a.data[i], Column(b, j))))))
  }

  /** The dot product with a vector extended by a trailing 1 splits into the dot
      product with the vector plus the last coefficient: the bias term. */
  lemma {:induction false} DotWithBias(u: seq<real>, x: seq<real>)
    requires |u| == |x| + 1
    ensures Dot(u, x + [1.0]) == Dot(u[..|x|], x) + u[|x|]
  {
    assert (x + [1.0])[..|x|] == x;
  }

  /** A zero row contributes nothing to a product. */
  lemma {:induction false} DotZero(u: seq<real>, v: seq<real>)
    requires |u| == |v|
    requires forall k :: 0 <= k < |u| ==> u[k] == 0.0
    ensures Dot(u, v) == 0.0
    decreases |u|
  {
    if |u| > 0 {
      DotZero(u[..|u| - 1], v[..|v| - 1]);
    }
  }

  /** A row with a single nonzero coefficient picks out one component. */
  lemma {:induction false} DotSingle(u: seq<real>, v: seq<real>, w: nat)
    requires |u| == |v| && w < |u|
    requires forall k :: 0 <= k < |u| && k != w ==> u[k] == 0.0
    ensures Dot(u, v) == u[w] * v[w]
    decreases |u|
  {
    var n := |u| - 1;
    if w == n {
      DotZero(u[..n], v[..n]);
    } else {
      DotSingle(u[..n], v[..n], w);
    }
  }

  /** The rows of a matrix laid end to end: Ruby's to_a.flatten, row-major. */
  function FlattenRows(rows: seq<seq<real>>): seq<real>
    decreases |rows|
  {
    if |rows| == 0 then [] else rows[0] + FlattenRows(rows[1..])
  }

  /** Matrix#to_a.flatten */
  function Flatten(m: Matrix): (flat: seq<real>) {
    FlattenRows(m.data)
  }

  lemma {:induction false} FlattenLength(rows: seq<seq<real>>, cols: nat)
    requires forall i :: 0 <= i < |rows| ==> |rows[i]| == cols
    ensures |FlattenRows(rows)| == |rows| * cols
    decreases |rows|
  {
    if |rows| > 0 {
      FlattenLength(rows[1..], cols);
    }
  }

  /** Row-major layout: entry (r, c) sits at flat position r * cols + c. */
  lemma {:induction false} FlattenIndex(rows: seq<seq<real>>, cols: nat, r: nat, c: nat)
    requires forall i :: 0 <= i < |rows| ==> |rows[i]| == cols
    requires r < |rows| && c < cols
    ensures r * cols + c < |FlattenRows(rows)|
    ensures FlattenRows(rows)[r * cols + c] == rows[r][c]
    decreases r
  {
    FlattenLength(rows, cols);
    if r > 0 {
      FlattenIndex(rows[1..], cols, r - 1, c);
      assert r * cols + c == cols + ((r - 1) * cols + c);
    }
  }

  /** Row-major positions of a rows x cols matrix stay below rows * cols. */
  lemma RowMajorBound(rows: nat, cols: nat, i: nat, j: nat)
    requires i < rows && j < cols
    ensures i * cols + j < rows * cols
  {
    MulMonotone(i + 1, rows, cols);
    assert (i + 1) * cols == i * cols + cols;
  }

  /** Multiplication by a natural number is monotone. */
  lemma {:induction false} MulMonotone(a: nat, b: nat, c: nat)
    requires a <= b
    ensures a * c <= b * c
    decreases b - a
  {
    if a < b {
      MulMonotone(a + 1, b, c);
      assert (a + 1) * c == a * c + c;
    }
  }

  /** Rebuilds a rows x cols matrix from a row-major flat sequence. */
  function Unflatten(rows: nat, cols: nat, flat: seq<real>): (m: Matrix)
    requires |flat| == rows * cols
    ensures Shaped(m, rows, cols)
  {
    Matrix(rows, cols, seq(rows, i requires 0 <= i < rows =>
             seq(cols, j requires 0 <= j < cols =>
               RowMajorBound(rows, cols, i, j); flat[i * cols + j])))
  }

  lemma UnflattenAt(rows: nat, cols: nat, flat: seq<real>, i: nat, j: nat)
    requires |flat| == rows * cols && i < rows && j < cols
    ensures i * cols + j < |flat|
    ensures Unflatten(rows, cols, flat).data[i][j] == flat[i * cols + j]
  {
    RowMajorBound(rows, cols, i, j);
  }

  /** Unflatten undoes Flatten. */
  lemma UnflattenFlatten(m: Matrix)
    requires m.Valid()
    ensures |Flatten(m)| == m.rows * m.cols
    ensures Unflatten(m.rows, m.cols, Flatten(m)) == m
  {
    FlattenLength(m.data, m.cols);
    var u := Unflatten(m.rows, m.cols, Flatten(m));
    forall i, j | 0 <= i < m.rows && 0 <= j < m.cols
      ensures u.data[i][j] == m.data[i][j]
    {
      FlattenIndex(m.data, m.cols, i, j);
      UnflattenAt(m.rows, m.cols, Flatten(m), i, j);
    }
    assert forall i :: 0 <= i < m.rows ==> u.data[i] == m.data[i];
  }

  // ---------------------------------------------------------------------------
  // How the extensions relate to one another and to the plain operations

  /** Flattening distributes over stacking rows. */
  lemma {:induction false} FlattenRowsAppend(x: seq<seq<real>>, y: seq<seq<real>>)
    ensures FlattenRows(x + y) == FlattenRows(x) + FlattenRows(y)
    decreases |x|
  {
    if |x| > 0 {
      assert (x + y)[1..] == x[1..] + y;
      FlattenRowsAppend(x[1..], y);
    } else {
      assert x + y == y;
    }
  }

  /** vert_extend lays b's entries after a's in the row-major list, so stacking and
      flattening commute, and the sizes add up. */
  lemma VertExtendFlatten(a: Matrix, b: Matrix)
    requires a.Valid() && b.Valid() && a.cols == b.cols
    ensures VertExtend(a, b).Success?
    ensures Flatten(VertExtend(a, b).value) == Flatten(a) + Flatten(b)
    ensures Size(VertExtend(a, b).value) == Size(a) + Size(b)
  {
    FlattenRowsAppend(a.data, b.data);
  }

  /** horiz_concat splits back: every row is a's row followed by b's, so the first
      a.cols columns give a and the rest give b, and the sizes add up. */
  lemma HorizConcatSplit(a: Matrix, b: Matrix)
    requires a.Valid() && b.Valid() && a.rows == b.rows
    ensures HorizConcat(a, b).Success?
    ensures forall i :: 0 <= i < a.rows ==>
              HorizConcat(a, b).value.data[i] == a.data[i] + b.data[i]
    ensures forall i :: 0 <= i < a.rows ==>
              HorizConcat(a, b).value.data[i][..a.cols] == a.data[i] &&
              HorizConcat(a, b).value.data[i][a.cols..] == b.data[i]
    ensures Size(HorizConcat(a, b).value) == Size(a) + Size(b)
  {
    var h := HorizConcat(a, b).value;
    forall i | 0 <= i < a.rows
      ensures h.data[i] == a.data[i] + b.data[i]
      ensures h.data[i][..a.cols] == a.data[i] && h.data[i][a.cols..] == b.data[i]
    {
      assert forall j :: 0 <= j < b.cols ==> h.data[i][a.cols + j] == b.data[i][j];
      assert forall j :: 0 <= j < a.cols + b.cols ==> h.data[i][j] == (a.data[i] + b.data[i])[j];
    }
    calc {
      Size(h);
      a.rows * (a.cols + b.cols);
      { MulDistributes(a.rows, a.cols, b.cols); }
      a.rows * a.cols + b.rows * b.cols;
    }
  }

  lemma MulDistributes(a: nat, b: nat, c: nat)
    ensures a * (b + c) == a * b + a * c
  {
  }

  /** The entry-wise product with a matrix of ones is the identity. */
  lemma HadamultOnes(m: Matrix)
    requires m.Valid()
    ensures Hadamult(m, Ones(m.rows, m.cols)) == Success(m)
  {
    var h := Hadamult(m, Ones(m.rows, m.cols)).value;
    forall i | 0 <= i < m.rows
      ensures h.data[i] == m.data[i]
    {
      assert forall j :: 0 <= j < m.cols ==> h.data[i][j] == m.data[i][j] * 1.0;
    }
    assert h.data == m.data;
  }

  /** The entry-wise product does not depend on the order of its operands, in its
      error as well as in its value. */
  lemma HadamultCommutes(a: Matrix, b: Matrix)
    requires a.Valid() && b.Valid()
    ensures Hadamult(a, b) == Hadamult(b, a)
  {
    if a.rows == b.rows && a.cols == b.cols {
      var x := Hadamult(a, b).value;
      var y := Hadamult(b, a).value;
      forall i | 0 <= i < a.rows
        ensures x.data[i] == y.data[i]
      {
        assert forall j :: 0 <= j < a.cols ==> x.data[i][j] == y.data[i][j];
      }
      assert x.data == y.data;
    }
  }

  /** kronemult of a column and a row is the ordinary matrix product of the two: each
      entry is a one-term dot product. */
  lemma KronemultIsMatMul(a: Matrix, b: Matrix)
    requires a.Valid() && b.Valid() && a.cols == 1 && b.rows == 1
    ensures Kronemult(a, b).Success? && MatMul(a, b).Success?
    ensures Kronemult(a, b).value == MatMul(a, b).value
  {
    var k := Kronemult(a, b).value;
    var p := MatMul(a, b).value;
    forall i, j | 0 <= i < a.rows && 0 <= j < b.cols
      ensures k.data[i][j] == p.data[i][j]
    {
      DotSingle(a.data[i], Column(b, j), 0);
    }
    assert forall i :: 0 <= i < a.rows ==> k.data[i] == p.data[i];
  }

  /** Vector#error_vector: 1 where the components differ, 0 where they agree. Vector#each2
      raises when the sizes differ. */
  function ErrorVector(a: seq<real>, b: seq<real>): (r: Result<seq<int>>)
    ensures r.Success? <==> |a| == |b|
    ensures r.Failure? ==> r.error == DimensionMismatch
    ensures r.Success? ==> |r.value| == |a|
    ensures r.Success? ==> forall i :: 0 <= i < |a| ==>
              (r.value[i] == 1 <==> a[i] != b[i]) && (r.value[i] == 0 <==> a[i] == b[i])
  {
    if |a| != |b| then Failure(DimensionMismatch)
    else Success(seq(|a|, i requires 0 <= i < |a| => if a[i] == b[i] then 0 else 1))
  }

  /** Two vectors of one size have an all-zero error vector exactly when they are equal. */
  lemma ErrorVectorZeroIffEqual(a: seq<real>, b: seq<real>)
    requires |a| == |b|
    ensures (forall i :: 0 <= i < |a| ==> ErrorVector(a, b).value[i] == 0) <==> a == b
  {
    var e := ErrorVector(a, b).value;
    if forall i :: 0 <= i < |a| ==> e[i] == 0 {
      forall i | 0 <= i < |a| ensures a[i] == b[i] {
        assert e[i] == 0;
      }
    }
  }

  /** The sum of squares, accumulated from the first component as Array#inject does. */
  function SumSquares(v: seq<real>): real
    decreases |v|
  {
    if |v| == 0 then 0.0 else SumSquares(v[..|v| - 1]) + v[|v| - 1] * v[|v| - 1]
  }

  /** The zero vector has a zero sum of squares. */
  lemma {:induction false} ZeroVectorSumSquares(v: seq<real>)
    ensures (forall i :: 0 <= i < |v| ==> v[i] == 0.0) ==> SumSquares(v) == 0.0
    decreases |v|
  {
    if |v| > 0 && forall i :: 0 <= i < |v| ==> v[i] == 0.0 {
      var n := |v| - 1;
      assert forall i :: 0 <= i < n ==> v[..n][i] == v[i];
      ZeroVectorSumSquares(v[..n]);
    }
  }

  /** Array#normalize. The magnitude Math.sqrt(sum of squares) is supplied by the caller,
      which must honour the one property of the square root the guard depends on: it is
      zero exactly when its argument is. Raises ZeroDivisionError exactly when the sum of
      squares is zero, in particular for the zero vector, and otherwise scales by
      1/magnitude. */
  function Normalize(v: seq<real>, magnitude: real): (r: Result<seq<real>>)
    requires magnitude == 0.0 <==> SumSquares(v) == 0.0
    ensures r.Failure? <==> SumSquares(v) == 0.0
    ensures (forall i :: 0 <= i < |v| ==> v[i] == 0.0) ==> r.Failure?
    ensures r.Failure? ==> r.error == ZeroDivisionError
    ensures r.Success? ==> |r.value| == |v|
    ensures r.Success? ==> forall i :: 0 <= i < |v| ==> r.value[i] * magnitude == v[i]
  {
    ZeroVectorSumSquares(v);
    if magnitude == 0.0 then Failure(ZeroDivisionError)
    else Success(seq(|v|, i requires 0 <= i < |v| => v[i] / magnitude))
  }
}

=== FILE: network.dfy ===
/** The Network mixin of Network.rb: dense layers with a bias column, the feed-forward
    pass, the clamped output conversion, the memoised flat weight list, and set_weights. */
module Network {
  import opened Wrappers
  import opened Matrices
  import Params

  /** ACTIVATION_FN: scales a net input down by 20. */
  function Activation(x: real): (y: real)
    ensures y * Params.ACTIVATION_SCALE == x
    ensures (x < 0.0 <==> y < 0.0) && (x == 0.0 <==> y == 0.0)
  {
    x / Params.ACTIVATION_SCALE
  }

  /** A network: its configuration, its layers, the memoised @weights (None until first
      computed) and @num_weights. */
  datatype Net = Net(numInputs: nat, numHidden: nat, numPerHidden: nat, numOutputs: nat,
                     maxWeight: real, layers: seq<Matrix>, cache: Option<seq<real>>,
                     numWeights: nat)

  predicate AllValid(layers: seq<Matrix>) {
    forall k :: 0 <= k < |layers| ==> layers[k].Valid()
  }

  /** Every entry of m lies in [-bound, bound]. */
  predicate Bounded(m: Matrix, bound: real)
    requires m.Valid()
  {
    forall i, j :: 0 <= i < m.rows && 0 <= j < m.cols ==> -bound <= m.data[i][j] <= bound
  }

  // ---------------------------------------------------------------------------
  // Construction

  /** build_layer(max_weight, m, n): the drawn m x n weights with a column of 1s
      concatenated on the right. */
  function BuildLayer(maxWeight: real, m: nat, n: nat, draws: Matrix): (w: Matrix)
    requires Shaped(draws, m, n) && Bounded(draws, maxWeight)
    ensures Shaped(w, m, n + 1)
    ensures forall i :: 0 <= i < m ==> w.data[i][n] == 1.0
    ensures forall i, j :: 0 <= i < m && 0 <= j < n ==>
              w.data[i][j] == draws.data[i][j] && -maxWeight <= w.data[i][j] <= maxWeight
  {
    HorizConcat(draws, Ones(m, 1)).value
  }

  /** The shape a built network's layer k has: num_per_hidden x (num_inputs + 1) for the
      hidden layers, num_outputs x (num_per_hidden + 1) for the last. */
  predicate LayerShapes(net: Net) {
    && |net.layers| == net.numHidden + 1
    && (forall k :: 0 <= k < net.numHidden ==>
          Shaped(net.layers[k], net.numPerHidden, net.numInputs + 1))
    && Shaped(net.layers[net.numHidden], net.numOutputs, net.numPerHidden + 1)
  }

  /** @layers.map { |layer| layer.to_a }.flatten: layer after layer, each row-major. */
  function FlattenLayers(layers: seq<Matrix>): (flat: seq<real>)
    decreases |layers|
  {
    if |layers| == 0 then [] else Flatten(layers[0]) + FlattenLayers(layers[1..])
  }

  /** The total number of entries: the sum of rows * cols over the layers. */
  function TotalEntries(layers: seq<Matrix>): nat
    decreases |layers|
  {
    if |layers| == 0 then 0 else layers[0].rows * layers[0].cols + TotalEntries(layers[1..])
  }

  lemma {:induction false} FlattenLayersLength(layers: seq<Matrix>)
    requires AllValid(layers)
    ensures |FlattenLayers(layers)| == TotalEntries(layers)
    decreases |layers|
  {
    if |layers| > 0 {
      FlattenLength(layers[0].data, layers[0].cols);
      FlattenLayersLength(layers[1..]);
    }
  }

  /** build_network: num_hidden_layers hidden layers, then the output layer, then the
      weights computed once and counted. */
  function BuildNetwork(numInputs: nat, numHidden: nat, numPerHidden: nat, numOutputs: nat,
                        maxWeight: real, draws: seq<Matrix>): (net: Net)
    requires |draws| == numHidden + 1
    requires forall k :: 0 <= k < numHidden ==>
               Shaped(draws[k], numPerHidden, numInputs) && Bounded(draws[k], maxWeight)
    requires Shaped(draws[numHidden], numOutputs, numPerHidden)
    requires Bounded(draws[numHidden], maxWeight)
    ensures LayerShapes(net)
    ensures net.numInputs == numInputs && net.numHidden == numHidden
    ensures net.numPerHidden == numPerHidden && net.numOutputs == numOutputs
    ensures net.numWeights == TotalEntries(net.layers)
    ensures net.numWeights == numHidden * (numPerHidden * (numInputs + 1)) +
                              numOutputs * (numPerHidden + 1)
    ensures net.cache == Some(FlattenLayers(net.layers))
  {
    var layers := BuildLayers(numInputs, numHidden, numPerHidden, numOutputs, maxWeight, draws);
    var w := FlattenLayers(layers);
    FlattenLayersLength(layers);
    LayerEntries(layers, numInputs, numHidden, numPerHidden, numOutputs);
    Net(numInputs, numHidden, numPerHidden, numOutputs, maxWeight, layers, Some(w), |w|)
  }

  /** The layers of build_network: build_layer on each hidden draw, then on the output
      draw. */
  function BuildLayers(numInputs: nat, numHidden: nat, numPerHidden: nat, numOutputs: nat,
                       maxWeight: real, draws: seq<Matrix>): (layers: seq<Matrix>)
    requires |draws| == numHidden + 1
    requires forall k :: 0 <= k < numHidden ==>
               Shaped(draws[k], numPerHidden, numInputs) && Bounded(draws[k], maxWeight)
    requires Shaped(draws[numHidden], numOutputs, numPerHidden)
    requires Bounded(draws[numHidden], maxWeight)
    ensures |layers| == numHidden + 1 && AllValid(layers)
    ensures forall k :: 0 <= k < numHidden ==> Shaped(layers[k], numPerHidden, numInputs + 1)
    ensures Shaped(layers[numHidden], numOutputs, numPerHidden + 1)
  {
    seq(numHidden + 1, k requires 0 <= k < numHidden + 1 =>
      if k < numHidden then BuildLayer(maxWeight, numPerHidden, numInputs, draws[k])
      else BuildLayer(maxWeight, numOutputs, numPerHidden, draws[k]))
  }

  /** The entry count of layers shaped as build_network shapes them. */
  lemma LayerEntries(layers: seq<Matrix>, numInputs: nat, numHidden: nat, numPerHidden: nat,
                     numOutputs: nat)
    requires |layers| == numHidden + 1
    requires forall k :: 0 <= k < numHidden ==> Shaped(layers[k], numPerHidden, numInputs + 1)
    requires Shaped(layers[numHidden], numOutputs, numPerHidden + 1)
    ensures TotalEntries(layers) == numHidden * (numPerHidden * (numInputs + 1)) +
                                    numOutputs * (numPerHidden + 1)
  {
    HiddenEntries(layers, numHidden, numPerHidden, numInputs + 1);
    var last := layers[numHidden];
    assert layers[numHidden..] == [last];
    assert TotalEntries([last]) == last.rows * last.cols;
  }

  /** The first h layers, each rows x cols, hold h * (rows * cols) entries; the rest add
      their own. */
  lemma {:induction false} HiddenEntries(layers: seq<Matrix>, h: nat, rows: nat, cols: nat)
    requires h <= |layers|
    requires forall k :: 0 <= k < h ==> layers[k].rows == rows && layers[k].cols == cols
    ensures TotalEntries(layers) == h * (rows * cols) + TotalEntries(layers[h..])
    decreases h
  {
    if h > 0 {
      HiddenEntries(layers[1..], h - 1, rows, cols);
      assert layers[1..][h - 1..] == layers[h..];
      var area := rows * cols;
      assert layers[0].rows * layers[0].cols == area;
      MulSucc(h - 1, area);
    }
  }

  lemma MulSucc(h: nat, a: nat)
    ensures (h + 1) * a == h * a + a
  {
  }

  // ---------------------------------------------------------------------------
  // Feed-forward

  /** activate(matrix): ACTIVATION_FN applied to every entry. */
  function Activate(m: Matrix): (r: Matrix)
    requires m.Valid()
    ensures Shaped(r, m.rows, m.cols)
    ensures forall i, j :: 0 <= i < m.rows && 0 <= j < m.cols ==>
              r.data[i][j] * Params.ACTIVATION_SCALE == m.data[i][j]
  {
    Matrix(m.rows, m.cols, seq(m.rows, i requires 0 <= i < m.rows =>
             seq(m.cols, j requires 0 <= j < m.cols => Activation(m.data[i][j]))))
  }

  /** activate_layer(inputs, weights): weights * inputs.vert_extend(bias), activated,
      where the bias is Matrix.build(inputs.column_size, 1) { 1 }. Returns the output
      and the net input. */
  function ActivateLayer(inputs: Matrix, w: Matrix): (r: Result<(Matrix, Matrix)>)
    requires inputs.Valid() && w.Valid()
    ensures r.Success? <==> inputs.cols == 1 && w.cols == inputs.rows + 1
    ensures r.Failure? ==> r.error == if inputs.cols != 1 then NoMethodError else DimensionMismatch
    ensures r.Success? ==> Shaped(r.value.0, w.rows, 1) && Shaped(r.value.1, w.rows, 1)
    ensures r.Success? ==> forall i :: 0 <= i < w.rows ==>
              r.value.1.data[i][0] ==
                Dot(w.data[i][..inputs.rows], Column(inputs, 0)) + w.data[i][inputs.rows] &&
              r.value.0.data[i][0] * Params.ACTIVATION_SCALE == r.value.1.data[i][0]
  {
    match VertExtend(inputs, Ones(inputs.cols, 1))
    case Failure(e) => Failure(e)
    case Success(ext) =>
      match MatMul(w, ext)
      case Failure(e) => Failure(e)
      case Success(net) =>
        assert Column(ext, 0) == Column(inputs, 0) + [1.0];
        forall i | 0 <= i < w.rows
          ensures net.data[i][0] ==
                    Dot(w.data[i][..inputs.rows], Column(inputs, 0)) + w.data[i][inputs.rows]
        {
          DotWithBias(w.data[i], Column(inputs, 0));
        }
        Success((Activate(net), net))
  }

  /** The layers can be fed one after another starting from an n-vector: each layer
      takes one more column than the previous output has rows. */
  predicate Chains(layers: seq<Matrix>, n: nat)
    decreases |layers|
  {
    |layers| == 0 || (layers[0].cols == n + 1 && Chains(layers[1..], layers[0].rows))
  }

  /** The loop of respond_to: each layer's output becomes the next layer's input. */
  function Feed(layers: seq<Matrix>, x: Matrix): (r: Result<Matrix>)
    requires AllValid(layers) && x.Valid()
    ensures r.Success? ==> r.value.Valid() && r.value.cols == x.cols
    ensures r.Success? && |layers| > 0 ==> r.value.rows == layers[|layers| - 1].rows
    ensures |layers| == 0 ==> r == Success(x)
    ensures |layers| == 1 ==> (r.Success? <==> ActivateLayer(x, layers[0]).Success?)
    ensures |layers| == 1 && r.Success? ==> r == Success(ActivateLayer(x, layers[0]).value.0)
    decreases |layers|
  {
    if |layers| == 0 then Success(x)
    else
      match ActivateLayer(x, layers[0])
      case Failure(e) => Failure(e)
      case Success(out) =>
        var r := Feed(layers[1..], out.0);
        assert |layers| > 1 ==> layers[1..][|layers[1..]| - 1] == layers[|layers| - 1];
        r
  }

  /** Feeding a list of layers is feeding its first part and then, from that output,
      the rest: with the one-layer case of Feed this pins down every feed. */
  lemma {:induction false} FeedAppend(a: seq<Matrix>, b: seq<Matrix>, x: Matrix)
    requires AllValid(a) && AllValid(b) && x.Valid()
    ensures AllValid(a + b)
    ensures Feed(a + b, x) == match Feed(a, x)
                              case Failure(e) => Failure(e)
                              case Success(y) => Feed(b, y)
    decreases |a|
  {
    if |a| == 0 {
      assert a + b == b;
    } else {
      assert (a + b)[0] == a[0] && (a + b)[1..] == a[1..] + b;
      match ActivateLayer(x, a[0])
      case Failure(_) =>
      case Success(out) => FeedAppend(a[1..], b, out.0);
    }
  }

  /** Three layers whose activations chain feed through to the last output. */
  lemma FeedThree(l0: Matrix, l1: Matrix, l2: Matrix, x: Matrix, a: Matrix, b: Matrix, c: Matrix)
    requires l0.Valid() && l1.Valid() && l2.Valid() && x.Valid()
    requires ActivateLayer(x, l0).Success? && ActivateLayer(x, l0).value.0 == a
    requires ActivateLayer(a, l1).Success? && ActivateLayer(a, l1).value.0 == b
    requires ActivateLayer(b, l2).Success? && ActivateLayer(b, l2).value.0 == c
    ensures AllValid([l0, l1, l2]) && Feed([l0, l1, l2], x) == Success(c)
  {
    assert Feed([l2], b) == Success(c) by {
      FeedCons(l2, [], b);
      assert [l2] + [] == [l2];
    }
    assert Feed([l1, l2], a) == Success(c) by {
      FeedCons(l1, [l2], a);
      assert [l1] + [l2] == [l1, l2];
    }
    assert Feed([l0, l1, l2], x) == Success(c) by {
      FeedCons(l0, [l1, l2], x);
      assert [l0] + [l1, l2] == [l0, l1, l2];
    }
  }

  /** A layer that accepts the input hands its output on to the rest. */
  lemma FeedCons(l: Matrix, rest: seq<Matrix>, x: Matrix)
    requires l.Valid() && AllValid(rest) && x.Valid() && ActivateLayer(x, l).Success?
    ensures AllValid([l] + rest)
    ensures Feed([l] + rest, x) == Feed(rest, ActivateLayer(x, l).value.0)
  {
    assert ([l] + rest)[0] == l && ([l] + rest)[1..] == rest;
  }

  /** Feeding a column vector succeeds exactly when the layer shapes chain; otherwise
      Matrix#* raises ErrDimensionMismatch (vert_extend never fails on a column). */
  lemma {:induction false} FeedSucceedsIffChains(layers: seq<Matrix>, x: Matrix)
    requires AllValid(layers) && x.Valid() && x.cols == 1
    ensures Feed(layers, x).Success? <==> Chains(layers, x.rows)
    ensures Feed(layers, x).Failure? ==> Feed(layers, x).error == DimensionMismatch
    decreases |layers|
  {
    if |layers| > 0 {
      var out := ActivateLayer(x, layers[0]);
      if out.Success? {
        FeedSucceedsIffChains(layers[1..], out.value.0);
      }
    }
  }

  /** median of [-MAX_TURN_ANGLE, v, MAX_TURN_ANGLE] after sorting. */
  function Median3(lo: real, v: real, hi: real): (r: real)
    requires lo <= hi
    ensures lo <= r <= hi
    ensures r == lo || r == v || r == hi
    ensures lo <= v <= hi ==> r == v
    ensures v < lo ==> r == lo
    ensures v > hi ==> r == hi
  {
    if v < lo then lo else if v > hi then hi else v
  }

  /** convert(output_matrix): the first column, each value rounded to three places and
      clamped to the turn-angle bounds. Float#round(3) is the parameter `round`. A matrix
      without columns has no first column: `[0]` is nil and the splat gives []. */
  function Convert(m: Matrix, round: real -> real): (r: seq<real>)
    requires m.Valid()
    ensures m.cols == 0 ==> r == []
    ensures m.cols > 0 ==> |r| == m.rows
    ensures forall i :: 0 <= i < |r| ==>
              -Params.MAX_TURN_ANGLE <= r[i] <= Params.MAX_TURN_ANGLE &&
              r[i] == Median3(-Params.MAX_TURN_ANGLE, round(m.data[i][0]), Params.MAX_TURN_ANGLE)
  {
    if m.cols == 0 then []
    else seq(m.rows, i requires 0 <= i < m.rows =>
           Median3(-Params.MAX_TURN_ANGLE, round(m.data[i][0]), Params.MAX_TURN_ANGLE))
  }

  /** respond_to(inputs): the inputs as a column vector fed through every layer, then
      converted. */
  function RespondTo(net: Net, inputs: seq<real>, round: real -> real): (r: Result<seq<real>>)
    requires AllValid(net.layers)
    ensures r.Success? <==> Chains(net.layers, |inputs|)
    ensures r.Failure? ==> r.error == DimensionMismatch
    ensures r.Success? ==> (Feed(net.layers, ColumnVector(inputs)).Success? &&
                            r.value == Convert(Feed(net.layers, ColumnVector(inputs)).value, round))
    ensures r.Success? && |net.layers| > 0 ==> |r.value| == net.layers[|net.layers| - 1].rows
    ensures r.Success? ==> forall i :: 0 <= i < |r.value| ==>
              -Params.MAX_TURN_ANGLE <= r.value[i] <= Params.MAX_TURN_ANGLE
  {
    FeedSucceedsIffChains(net.layers, ColumnVector(inputs));
    match Feed(net.layers, ColumnVector(inputs))
    case Failure(e) => Failure(e)
    case Success(out) => Success(Convert(out, round))
  }

  /** Identical rows x (cols + 1) layers chain from a cols-vector exactly when there is
      at most one of them or rows == cols. */
  lemma {:induction false} HiddenChain(layers: seq<Matrix>, h: nat, rows: nat, cols: nat, next: nat)
    requires h <= |layers|
    requires forall k :: 0 <= k < h ==> layers[k].rows == rows && layers[k].cols == cols + 1
    ensures h > 0 ==> (Chains(layers, cols) <==>
                       (h == 1 || rows == cols) && Chains(layers[h..], rows))
    decreases h
  {
    if h > 1 {
      HiddenChain(layers[1..], h - 1, rows, cols, next);
      assert layers[1..][h - 1..] == layers[h..];
      if rows == cols {
        assert Chains(layers, cols) == Chains(layers[1..], rows);
      }
    } else if h == 1 {
      assert layers[1..] == layers[h..];
    }
  }

  /** A built network responds exactly when its input count matches and consecutive
      layers fit: with no hidden layer the inputs feed the output layer directly; with
      two or more hidden layers num_per_hidden must equal num_inputs. The flat answer
      then holds num_outputs values. */
  lemma RespondShapes(net: Net, inputs: seq<real>, round: real -> real)
    requires LayerShapes(net)
    ensures AllValid(net.layers)
    ensures RespondTo(net, inputs, round).Success? <==>
              if net.numHidden == 0 then |inputs| == net.numPerHidden
              else |inputs| == net.numInputs &&
                   (net.numHidden == 1 || net.numPerHidden == net.numInputs)
    ensures RespondTo(net, inputs, round).Success? ==>
              |RespondTo(net, inputs, round).value| == net.numOutputs
  {
    var h := net.numHidden;
    var last := net.layers[h..];
    assert last == [net.layers[h]];
    assert Chains(last, net.numPerHidden);
    if h > 0 {
      HiddenChain(net.layers, h, net.numPerHidden, net.numInputs, 0);
    }
  }

  // ---------------------------------------------------------------------------
  // Weights

  /** weights: `@weights ||= ...`. The first call flattens the layers and stores the
      result; later calls return the stored list whatever the layers now hold. Returns
      the list and the network with its cache filled. */
  function Weights(net: Net): (r: (seq<real>, Net))
    ensures r.1 == net.(cache := Some(r.0))
    ensures net.cache.Some? ==> r.0 == net.cache.value
    ensures net.cache.None? ==> r.0 == FlattenLayers(net.layers)
  {
    match net.cache
    case Some(w) => (w, net)
    case None =>
      var w := FlattenLayers(net.layers);
      (w, net.(cache := Some(w)))
  }

  /** Once computed, the weight list never changes on later calls. */
  lemma WeightsMemoised(net: Net)
    ensures Weights(Weights(net).1) == Weights(net)
  {
  }

  /** The fill set_weights computes: layer after layer, entry (r, c) of a rows x cols
      layer takes the next flat weight, so it reads weights[offset + r * cols + c].
      None when the flat list is too short (`weights[index]` would be nil). */
  function Fill(layers: seq<Matrix>, w: seq<real>): (r: Option<seq<Matrix>>)
    requires AllValid(layers)
    ensures r.Some? <==> |w| >= TotalEntries(layers)
    ensures r.Some? ==> |r.value| == |layers| && AllValid(r.value)
    ensures r.Some? ==> forall k :: 0 <= k < |layers| ==>
              r.value[k].rows == layers[k].rows && r.value[k].cols == layers[k].cols
    decreases |layers|
  {
    if |layers| == 0 then Some([])
    else
      var n := layers[0].rows * layers[0].cols;
      if |w| < n then None
      else
        match Fill(layers[1..], w[n..])
        case None => None
        case Some(rest) => Some([Unflatten(layers[0].rows, layers[0].cols, w[..n])] + rest)
  }

  /** The fill places flat entry offset + r * cols + c of the list at (r, c) of the first
      layer, offset being zero there, and continues with the remainder. */
  lemma FillFirstLayer(layers: seq<Matrix>, w: seq<real>, r: nat, c: nat)
    requires AllValid(layers) && |layers| > 0 && |w| >= TotalEntries(layers)
    requires r < layers[0].rows && c < layers[0].cols
    ensures r * layers[0].cols + c < |w|
    ensures Fill(layers, w).value[0].data[r][c] == w[r * layers[0].cols + c]
  {
    FillHead(layers, w);
    UnflattenPrefixAt(layers[0].rows, layers[0].cols, w, r, c);
  }

  lemma UnflattenPrefixAt(rows: nat, cols: nat, w: seq<real>, r: nat, c: nat)
    requires rows * cols <= |w| && r < rows && c < cols
    ensures r * cols + c < |w|
    ensures Unflatten(rows, cols, w[..rows * cols]).data[r][c] == w[r * cols + c]
  {
    UnflattenAt(rows, cols, w[..rows * cols], r, c);
  }

  lemma FillHead(layers: seq<Matrix>, w: seq<real>)
    requires AllValid(layers) && |layers| > 0 && |w| >= TotalEntries(layers)
    ensures layers[0].rows * layers[0].cols <= |w|
    ensures Fill(layers, w).value[0] ==
              Unflatten(layers[0].rows, layers[0].cols, w[..layers[0].rows * layers[0].cols])
  {
  }

  /** Filling the layers with their own flat weights gives the layers back. */
  lemma {:induction false} FillFlattenIdentity(layers: seq<Matrix>)
    requires AllValid(layers)
    ensures |FlattenLayers(layers)| == TotalEntries(layers)
    ensures Fill(layers, FlattenLayers(layers)) == Some(layers)
    decreases |layers|
  {
    FlattenLayersLength(layers);
    if |layers| > 0 {
      var w := FlattenLayers(layers);
      var n := layers[0].rows * layers[0].cols;
      FlattenLength(layers[0].data, layers[0].cols);
      assert w[..n] == Flatten(layers[0]);
      assert w[n..] == FlattenLayers(layers[1..]);
      FillFlattenIdentity(layers[1..]);
      UnflattenFlatten(layers[0]);
      assert [layers[0]] + layers[1..] == layers;
    }
  }

  /** Flattening a fill gives back the prefix of the list it consumed. */
  lemma {:induction false} FlattenFill(layers: seq<Matrix>, w: seq<real>)
    requires AllValid(layers) && |w| >= TotalEntries(layers)
    ensures FlattenLayers(Fill(layers, w).value) == w[..TotalEntries(layers)]
    decreases |layers|
  {
    if |layers| > 0 {
      var n := layers[0].rows * layers[0].cols;
      var f := Fill(layers, w).value;
      FlattenFill(layers[1..], w[n..]);
      var m := Unflatten(layers[0].rows, layers[0].cols, w[..n]);
      assert f[0] == m && f[1..] == Fill(layers[1..], w[n..]).value;
      FlattenUnflatten(layers[0].rows, layers[0].cols, w[..n]);
      assert w[..TotalEntries(layers)] == w[..n] + w[n..][..TotalEntries(layers[1..])];
    }
  }

  /** Flatten undoes Unflatten. */
  lemma FlattenUnflatten(rows: nat, cols: nat, flat: seq<real>)
    requires |flat| == rows * cols
    ensures Flatten(Unflatten(rows, cols, flat)) == flat
  {
    var m := Unflatten(rows, cols, flat);
    FlattenLength(m.data, m.cols);
    forall i | 0 <= i < |flat| ensures Flatten(m)[i] == flat[i] {
      FlattenAt(rows, cols, flat, i);
    }
  }

  lemma FlattenAt(rows: nat, cols: nat, flat: seq<real>, i: nat)
    requires |flat| == rows * cols && i < |flat|
    ensures i < |Flatten(Unflatten(rows, cols, flat))|
    ensures Flatten(Unflatten(rows, cols, flat))[i] == flat[i]
  {
    var m := Unflatten(rows, cols, flat);
    FlattenLength(m.data, m.cols);
    var r, c := RowMajorSplit(rows, cols, i);
    FlattenIndex(m.data, m.cols, r, c);
    UnflattenAt(rows, cols, flat, r, c);
  }

  /** Every position below rows * cols is r * cols + c for some cell (r, c). */
  lemma RowMajorSplit(rows: nat, cols: nat, i: nat) returns (r: nat, c: nat)
    requires i < rows * cols
    ensures r < rows && c < cols && i == r * cols + c
  {
    r := i / cols;
    c := i % cols;
  }

  /** set_weights as written: inside `@layers.each do |layer|` the assignment
      `layer = layer.map { ... }` rebinds the block variable, so the fill is computed
      and dropped. Matrix#map stores a nil read past the end of the list without
      complaint, so no list makes the call fail. */
  function SetWeightsAsWritten(net: Net, w: seq<real>): (r: Net)
    requires AllValid(net.layers)
    ensures r.layers == net.layers && r.cache == net.cache
    ensures Weights(r).0 == Weights(net).0
  {
    var dropped := Fill(net.layers, w);
    net
  }

  /** Whenever the list differs from what weights reports, the as-written set_weights
      and the intended one leave the network reporting different weights; they agree
      exactly when the list starts with the reported weights. */
  lemma SetWeightsDropsFill(net: Net, w: seq<real>)
    requires AllValid(net.layers) && |w| >= TotalEntries(net.layers)
    requires net.cache == Some(FlattenLayers(net.layers))
    ensures SetWeightsFixed(net, w).Success?
    ensures (Weights(SetWeightsAsWritten(net, w)).0 == Weights(SetWeightsFixed(net, w).value).0)
              <==> (w[..TotalEntries(net.layers)] == Weights(net).0)
  {
  }

  /** set_weights as evidently intended: the layers take the fill, and the memoised
      list is refreshed so that weights reports what the layers now hold. A list too
      short for every entry leaves nil entries, and the next Matrix#* calls * on one of
      them; the model reports that NoMethodError at the call that stored the nil. */
  function SetWeightsFixed(net: Net, w: seq<real>): (r: Result<Net>)
    requires AllValid(net.layers)
    ensures r.Success? <==> |w| >= TotalEntries(net.layers)
    ensures r.Failure? ==> r.error == NoMethodError
    ensures r.Success? ==> AllValid(r.value.layers) && |r.value.layers| == |net.layers|
    ensures r.Success? ==> forall k :: 0 <= k < |net.layers| ==>
              r.value.layers[k].rows == net.layers[k].rows &&
              r.value.layers[k].cols == net.layers[k].cols
    ensures r.Success? ==> Weights(r.value).0 == w[..TotalEntries(net.layers)]
    ensures r.Success? ==> r.value.numWeights == net.numWeights
  {
    match Fill(net.layers, w)
    case None => Failure(NoMethodError)
    case Some(layers) =>
      FlattenFill(net.layers, w);
      Success(net.(layers := layers, cache := Some(FlattenLayers(layers))))
  }

  /** Setting a network's own weights leaves its layers as they were. */
  lemma SetOwnWeights(net: Net)
    requires AllValid(net.layers) && net.cache == Some(FlattenLayers(net.layers))
    ensures SetWeightsFixed(net, Weights(net).0) == Success(net)
  {
    FillFlattenIdentity(net.layers);
  }
}

=== FILE: neuralnets.dfy ===
/** SeekingNet of NeuralNets.rb: a three-layer net whose first layer is diagonal, whose
    middle layer is rebuilt on every response as a winner-take-all diagonal, and whose
    weight list holds only the nonzero entries. */
module NeuralNets {
  import opened Wrappers
  import opened Matrices
  import Network
  import Params
  import Genomes

  /** A SeekingNet: @layers is Array.new(3), so a slot holds nil until assigned.
      `layer` is the separate instance variable @layer that set_weights reads: nothing
      assigns it, so it is nil in every net. Were it an Array, each slot would hold a
      layer's entries row-major, any of them possibly nil. */
  datatype SeekingNet = SeekingNet(numInputs: nat, numPerHidden: nat, maxWeight: real,
                                   layers: seq<Option<Matrix>>, cache: Option<seq<real>>,
                                   numWeights: nat, layer: Option<seq<Option<seq<Option<real>>>>>)

  /** The two evolvable layers are present and rectangular, and the output layer has
      a neuron (SeekingNet.new makes it 1 x 7), so `convert(output)[0]` is a turn. */
  predicate Built(net: SeekingNet) {
    && |net.layers| == 3
    && net.layers[0].Some? && net.layers[0].value.Valid()
    && net.layers[2].Some? && net.layers[2].value.Valid() && net.layers[2].value.rows > 0
  }

  // ---------------------------------------------------------------------------
  // Nonzero entries

  /** Enumerable#reject { |w| w.zero? } over a flat list. */
  function NonZero(s: seq<real>): (r: seq<real>)
    ensures |r| <= |s|
    ensures forall i :: 0 <= i < |r| ==> r[i] != 0.0
    ensures (forall i :: 0 <= i < |s| ==> s[i] != 0.0) ==> r == s
    ensures (forall i :: 0 <= i < |s| ==> s[i] == 0.0) ==> r == []
    decreases |s|
  {
    if |s| == 0 then []
    else if s[0] == 0.0 then NonZero(s[1..])
    else [s[0]] + NonZero(s[1..])
  }

  lemma {:induction false} NonZeroAppend(a: seq<real>, b: seq<real>)
    ensures NonZero(a + b) == NonZero(a) + NonZero(b)
    decreases |a|
  {
    if |a| > 0 {
      assert (a + b)[1..] == a[1..] + b;
      NonZeroAppend(a[1..], b);
    } else {
      assert a + b == b;
    }
  }

  /** layer.reject { |w| w.zero? }.to_a: the nonzero entries, row-major. */
  function LayerNonZero(m: Matrix): (r: seq<real>)
    ensures |r| <= |Flatten(m)|
    ensures forall i :: 0 <= i < |r| ==> r[i] != 0.0
  {
    NonZero(Flatten(m))
  }

  // ---------------------------------------------------------------------------
  // Construction

  /** SeekingNet#build_layer(max_weight, m, n): the diagonal of drawn weights with a
      column of 1s on the right. The n argument is ignored: the layer is always
      m x (m + 1). */
  function BuildLayer(maxWeight: real, m: nat, n: nat, diag: seq<real>): (w: Matrix)
    requires |diag| == m
    requires forall i :: 0 <= i < m ==> -maxWeight <= diag[i] <= maxWeight
    ensures Shaped(w, m, m + 1)
    ensures forall i :: 0 <= i < m ==> w.data[i][i] == diag[i] && w.data[i][m] == 1.0
    ensures forall i, j :: 0 <= i < m && 0 <= j < m && i != j ==> w.data[i][j] == 0.0
    ensures forall i, j :: 0 <= i < m && 0 <= j <= m ==> -maxWeight <= w.data[i][j] <= maxWeight || j == m
  {
    HorizConcat(Diagonal(diag), Ones(m, 1)).value
  }

  /** The output layer: six drawn weights as a row, then the bias 1, whatever
      num_per_hidden is. */
  function OutputLayer(maxWeight: real, draws: seq<real>): (w: Matrix)
    requires |draws| == 6
    requires forall i :: 0 <= i < 6 ==> -maxWeight <= draws[i] <= maxWeight
    ensures Shaped(w, 1, 7)
    ensures forall j :: 0 <= j < 6 ==> w.data[0][j] == draws[j]
    ensures w.data[0][6] == 1.0
  {
    HorizConcat(RowVector(draws), Matrix(1, 1, [[1.0]])).value
  }

  /** The weight list as written: every layer is asked for its nonzero entries, and a
      nil layer raises NoMethodError. */
  function WeightsAsWritten(layers: seq<Option<Matrix>>): (r: Result<seq<real>>)
    ensures r.Failure? <==> exists k :: 0 <= k < |layers| && layers[k].None?
    ensures r.Failure? ==> r.error == NoMethodError
    decreases |layers|
  {
    if |layers| == 0 then Success([])
    else
      match layers[0]
      case None => Failure(NoMethodError)
      case Some(m) =>
        var rest := WeightsAsWritten(layers[1..]);
        assert forall k :: 1 <= k < |layers| ==> layers[k] == layers[1..][k - 1];
        if rest.Failure? then rest
        else Success(LayerNonZero(m) + rest.value)
  }

  /** SeekingNet.new as written: layers 0 and 2 are built, layer 1 is still nil, and
      the weights call that ends build_network raises. */
  function BuildAsWritten(numInputs: nat, numPerHidden: nat, maxWeight: real,
                          diag: seq<real>, out: seq<real>): (r: Result<SeekingNet>)
    requires |diag| == numPerHidden && |out| == 6
    requires forall i :: 0 <= i < numPerHidden ==> -maxWeight <= diag[i] <= maxWeight
    requires forall i :: 0 <= i < 6 ==> -maxWeight <= out[i] <= maxWeight
    ensures r == Failure(NoMethodError)
  {
    var layers := [Some(BuildLayer(maxWeight, numPerHidden, numInputs, diag)), None,
                   Some(OutputLayer(maxWeight, out))];
    assert layers[1].None?;
    match WeightsAsWritten(layers)
    case Failure(e) => Failure(e)
    case Success(_) => assert false; Failure(NoMethodError)
  }

  /** The weight list as evidently intended: the nonzero entries of the two evolvable
      layers, skipping the winner-take-all slot, which set_weights skips too. */
  function Weights(net: SeekingNet): (r: seq<real>)
    requires Built(net)
    ensures forall i :: 0 <= i < |r| ==> r[i] != 0.0
  {
    LayerNonZero(net.layers[0].value) + LayerNonZero(net.layers[2].value)
  }

  /** SeekingNet.new with the weight list skipping the empty slot. */
  function Build(numInputs: nat, numPerHidden: nat, maxWeight: real,
                 diag: seq<real>, out: seq<real>): (net: SeekingNet)
    requires |diag| == numPerHidden && |out| == 6
    requires forall i :: 0 <= i < numPerHidden ==> -maxWeight <= diag[i] <= maxWeight
    requires forall i :: 0 <= i < 6 ==> -maxWeight <= out[i] <= maxWeight
    ensures Built(net) && net.layers[1].None? && net.layer.None?
    ensures Shaped(net.layers[0].value, numPerHidden, numPerHidden + 1)
    ensures Shaped(net.layers[2].value, 1, 7)
    ensures net.cache == Some(Weights(net)) && net.numWeights == |Weights(net)|
  {
    var layers := [Some(BuildLayer(maxWeight, numPerHidden, numInputs, diag)), None,
                   Some(OutputLayer(maxWeight, out))];
    var net := SeekingNet(numInputs, numPerHidden, maxWeight, layers, None, 0, None);
    var w := Weights(net);
    net.(cache := Some(w), numWeights := |w|)
  }

  // ---------------------------------------------------------------------------
  // The winner-take-all layer

  /** inputs.find_index(inputs.min)[0] on a column: the first position of the minimum.
      On an empty column min is nil, find_index gives nil and `[0]` raises. */
  function ArgMin(x: seq<real>): (r: Result<nat>)
    ensures r.Failure? <==> |x| == 0
    ensures r.Failure? ==> r.error == NoMethodError
    ensures r.Success? ==> r.value < |x|
    ensures r.Success? ==> forall j :: 0 <= j < |x| ==> x[r.value] <= x[j]
    ensures r.Success? ==> forall j :: 0 <= j < r.value ==> x[r.value] < x[j]
    decreases |x|
  {
    if |x| == 0 then Failure(NoMethodError)
    else if |x| == 1 then Success(0)
    else
      var k := ArgMin(x[..|x| - 1]).value;
      assert forall j :: 0 <= j < |x| - 1 ==> x[..|x| - 1][j] == x[j];
      if x[|x| - 1] < x[k] then Success(|x| - 1) else Success(k)
  }

  /** build_winning_layer(inputs): a diagonal that is zero except for the drawn weight
      at the winner, with a column of 1s on the right. Returns the layer and the
      winner's index. */
  function BuildWinningLayer(x: seq<real>, draw: real): (r: Result<(Matrix, nat)>)
    ensures r.Failure? <==> |x| == 0
    ensures r.Failure? ==> r.error == NoMethodError
    ensures r.Success? ==> r.value == (r.value.0, ArgMin(x).value)
    ensures r.Success? ==> Shaped(r.value.0, |x|, |x| + 1)
    ensures r.Success? ==> forall i, j :: 0 <= i < |x| && 0 <= j < |x| ==>
              r.value.0.data[i][j] == (if i == j == r.value.1 then draw else 0.0)
    ensures r.Success? ==> forall i :: 0 <= i < |x| ==> r.value.0.data[i][|x|] == 1.0
  {
    match ArgMin(x)
    case Failure(e) => Failure(e)
    case Success(w) =>
      var diags := seq(|x|, i requires 0 <= i < |x| => if i == w then draw else 0.0);
      Success((HorizConcat(Diagonal(diags), Ones(|x|, 1)).value, w))
  }

  /** A row of the winner layer against the inputs: the drawn weight times the
      winner's input on the winning row, nothing on the others. */
  lemma WinnerRowDot(row: seq<real>, x: seq<real>, draw: real, i: nat, win: nat)
    requires |row| == |x| && i < |x| && win < |x|
    requires forall k :: 0 <= k < |x| ==> row[k] == (if i == k == win then draw else 0.0)
    ensures Dot(row, x) == (if i == win then draw * x[win] else 0.0)
  {
    if i == win {
      DotSingle(row, x, win);
    } else {
      DotZero(row, x);
    }
  }

  /** Multiplying the winner layer by [x; 1]: every losing row is the bias alone, 1, and
      the winning row is the drawn weight times the winner's input plus 1. */
  lemma WinnerTakesAll(x: seq<real>, draw: real, w: Matrix, win: nat, i: nat)
    requires BuildWinningLayer(x, draw) == Success((w, win)) && i < |x|
    ensures Network.ActivateLayer(ColumnVector(x), w).Success?
    ensures Network.ActivateLayer(ColumnVector(x), w).value.1.data[i][0] ==
              (if i == win then draw * x[win] else 0.0) + 1.0
  {
    ActivateColumn(x, w, i);
    WinnerRowDot(w.data[i][..|x|], x, draw, i, win);
  }

  /** A square layer with a bias column applied to a column vector: row i of the net
      input is the row's dot product with the vector plus its bias. */
  lemma ActivateColumn(x: seq<real>, w: Matrix, i: nat)
    requires Shaped(w, |x|, |x| + 1) && i < |x|
    ensures Network.ActivateLayer(ColumnVector(x), w).Success?
    ensures Network.ActivateLayer(ColumnVector(x), w).value.1.data[i][0] ==
              Dot(w.data[i][..|x|], x) + w.data[i][|x|]
  {
    var v := ColumnVector(x);
    assert v.cols == 1 && v.rows == |x| && Column(v, 0) == x;
  }

  // ---------------------------------------------------------------------------
  // Responding

  /** respond_to(env): with nothing in view the turn is the supplied draw of
      rand(-MAX_TURN_ANGLE..MAX_TURN_ANGLE); otherwise the sensor signals pass through
      the first layer, a freshly built winner layer (stored in slot 1) and the output
      layer, and the first converted output is the turn. */
  function RespondTo(net: SeekingNet, envEmpty: bool, signals: seq<real>, fallback: real,
                     winDraw: real, round: real -> real): (r: Result<(real, SeekingNet)>)
    requires Built(net)
    requires -Params.MAX_TURN_ANGLE <= fallback <= Params.MAX_TURN_ANGLE
    ensures envEmpty ==> r == Success((fallback, net))
    ensures r.Success? ==> -Params.MAX_TURN_ANGLE <= r.value.0 <= Params.MAX_TURN_ANGLE
    ensures r.Success? ==>
              Built(r.value.1) && r.value.1.layers[0] == net.layers[0] &&
              r.value.1.layers[2] == net.layers[2] && r.value.1.cache == net.cache
    ensures !envEmpty && r.Success? ==>
              var a := Network.ActivateLayer(ColumnVector(signals), net.layers[0].value);
              a.Success? && BuildWinningLayer(Column(a.value.0, 0), winDraw).Success? &&
              r.value.1.layers[1] == Some(BuildWinningLayer(Column(a.value.0, 0), winDraw).value.0)
    ensures !envEmpty && r.Success? ==>
              var layers := [net.layers[0].value, r.value.1.layers[1].value, net.layers[2].value];
              Network.AllValid(layers) && Network.Feed(layers, ColumnVector(signals)).Success? &&
              var out := Network.Convert(Network.Feed(layers, ColumnVector(signals)).value, round);
              |out| > 0 && r.value.0 == out[0]
  {
    if envEmpty then Success((fallback, net))
    else
      var first := net.layers[0].value;
      var last := net.layers[2].value;
      match Network.ActivateLayer(ColumnVector(signals), first)
      case Failure(e) => Failure(e)
      case Success(a) =>
        match BuildWinningLayer(Column(a.0, 0), winDraw)
        case Failure(e) => Failure(e)
        case Success(hidden) =>
          match Network.ActivateLayer(a.0, hidden.0)
          case Failure(e) => Failure(e)
          case Success(b) =>
            match Network.ActivateLayer(b.0, last)
            case Failure(e) => Failure(e)
            case Success(c) =>
              Network.FeedThree(first, hidden.0, last, ColumnVector(signals), a.0, b.0, c.0);
              var out := Network.Convert(c.0, round);
              Success((out[0], net.(layers := net.layers[1 := Some(hidden.0)])))
  }

  /** A built SeekingNet with something in view responds exactly when there is one
      signal per first-layer neuron, num_per_hidden is positive, and the winner layer's
      num_per_hidden outputs (plus the bias) fit the 1 x 7 output layer, which needs
      num_per_hidden == 6. */
  lemma RespondShapes(numInputs: nat, numPerHidden: nat, maxWeight: real, diag: seq<real>,
                      out: seq<real>, signals: seq<real>, fallback: real, winDraw: real,
                      round: real -> real)
    requires |diag| == numPerHidden && |out| == 6
    requires forall i :: 0 <= i < numPerHidden ==> -maxWeight <= diag[i] <= maxWeight
    requires forall i :: 0 <= i < 6 ==> -maxWeight <= out[i] <= maxWeight
    requires -Params.MAX_TURN_ANGLE <= fallback <= Params.MAX_TURN_ANGLE
    ensures var net := Build(numInputs, numPerHidden, maxWeight, diag, out);
            RespondTo(net, false, signals, fallback, winDraw, round).Success? <==>
              |signals| == numPerHidden && numPerHidden == 6
  {
  }

  // ---------------------------------------------------------------------------
  // set_weights

  /** set_weights as written: it reads @layer, not @layers. `@layer[0]` calls [] on
      nil; were @layer an Array, a missing slot 0 or 2 would call map on nil, and so
      would `w.zero?` on a nil entry of slot 2. Otherwise slot 0 takes one list
      position per entry and slot 2 continues the count, keeping its zeros. The
      layers the net responds with are never touched. No code assigns @layer, so every
      net reaches the first branch (BuiltRejectsWeights); the Array branches say what
      the method would do were @layer ever set, and are otherwise unreachable. */
  function SetWeightsAsWritten(net: SeekingNet, w: seq<real>): (r: Result<SeekingNet>)
    ensures net.layer.None? ==> r == Failure(NoMethodError)
    ensures r.Failure? ==> r.error == NoMethodError
    ensures r.Success? ==> r.value == net.(layer := r.value.layer)
    ensures r.Success? ==> (net.layer.Some? && |net.layer.value| >= 3 &&
                            r.value.layer.Some? && |r.value.layer.value| == |net.layer.value| &&
                            forall k :: 0 <= k < |net.layer.value| && k != 0 && k != 2 ==>
                              r.value.layer.value[k] == net.layer.value[k])
  {
    match net.layer
    case None => Failure(NoMethodError)
    case Some(slots) =>
      if |slots| == 0 || slots[0].None? then Failure(NoMethodError)
      else
        var n0 := |slots[0].value|;
        var first := seq(n0, p => Genomes.Index(w, p));
        if |slots| < 3 || slots[2].None? then Failure(NoMethodError)
        else
          var s2 := slots[2].value;
          if exists p :: 0 <= p < |s2| && s2[p].None? then Failure(NoMethodError)
          else
            var last := seq(|s2|, p requires 0 <= p < |s2| =>
                          if s2[p] == Some(0.0) then s2[p] else Genomes.Index(w, n0 + p));
            Success(net.(layer := Some(slots[0 := Some(first)][2 := Some(last)])))
  }

  /** Every net SeekingNet.new builds rejects every weight list. */
  lemma BuiltRejectsWeights(numInputs: nat, numPerHidden: nat, maxWeight: real,
                            diag: seq<real>, out: seq<real>, w: seq<real>)
    requires |diag| == numPerHidden && |out| == 6
    requires forall i :: 0 <= i < numPerHidden ==> -maxWeight <= diag[i] <= maxWeight
    requires forall i :: 0 <= i < 6 ==> -maxWeight <= out[i] <= maxWeight
    ensures SetWeightsAsWritten(Build(numInputs, numPerHidden, maxWeight, diag, out), w) ==
              Failure(NoMethodError)
  {
  }

  /** What each entry of layers 0 and 2 would receive, row-major, were @layers spelled
      correctly in set_weights: layer 0 reads one flat position per entry, zeros
      included; layer 2 continues the count on every entry but keeps its zero entries.
      A position past the end of the list reads nil. */
  function FillAsWritten(net: SeekingNet, w: seq<real>): (r: (seq<Option<real>>, seq<Option<real>>))
    requires Built(net)
    ensures |r.0| == |Flatten(net.layers[0].value)| && |r.1| == |Flatten(net.layers[2].value)|
    ensures forall p :: 0 <= p < |r.0| ==> r.0[p] == Genomes.Index(w, p)
    ensures forall p :: 0 <= p < |r.1| ==>
              r.1[p] == if Flatten(net.layers[2].value)[p] == 0.0 then Some(0.0)
                        else Genomes.Index(w, |r.0| + p)
  {
    var flat0 := Flatten(net.layers[0].value);
    var flat2 := Flatten(net.layers[2].value);
    (seq(|flat0|, p => Genomes.Index(w, p)),
     seq(|flat2|, p requires 0 <= p < |flat2| =>
       if flat2[p] == 0.0 then Some(0.0) else Genomes.Index(w, |flat0| + p)))
  }

  /** The layer-0 fill reads one weight per entry while the weight list holds only the
      nonzero ones, so refilling a two-neuron net with its own weights scrambles it:
      the zero at row 0, column 1 receives the bias weight 1, and the output layer's
      bias reads past the end of the list and receives nil. */
  lemma FillMisaligned(a: real, b: real, out: seq<real>)
    requires a != 0.0 && b != 0.0 && -0.5 <= a <= 0.5 && -0.5 <= b <= 0.5
    requires |out| == 6 && forall i :: 0 <= i < 6 ==> -0.5 <= out[i] <= 0.5
    ensures var net := Build(2, 2, 0.5, [a, b], out);
            var f := FillAsWritten(net, Weights(net));
            Flatten(net.layers[0].value)[1] == 0.0 && f.0[1] == Some(1.0) &&
            f.1[6] == None
  {
    var net := Build(2, 2, 0.5, [a, b], out);
    TwoNeuronFirstLayer(a, b, out);
    TwoNeuronNonZero(a, b);
    var m2 := net.layers[2].value;
    assert |Flatten(m2)| == 7 by {
      FlattenLength(m2.data, m2.cols);
    }
    var w := Weights(net);
    assert |w| <= 11;
  }

  /** The first layer of a two-neuron net, read row by row. */
  lemma TwoNeuronFirstLayer(a: real, b: real, out: seq<real>)
    requires a != 0.0 && b != 0.0 && -0.5 <= a <= 0.5 && -0.5 <= b <= 0.5
    requires |out| == 6 && forall i :: 0 <= i < 6 ==> -0.5 <= out[i] <= 0.5
    ensures Flatten(Build(2, 2, 0.5, [a, b], out).layers[0].value) == [a, 0.0, 1.0, 0.0, b, 1.0]
  {
    var m0 := Build(2, 2, 0.5, [a, b], out).layers[0].value;
    assert m0.data[0][0] == a && m0.data[0][1] == 0.0 && m0.data[0][2] == 1.0;
    assert m0.data[1][0] == 0.0 && m0.data[1][1] == b && m0.data[1][2] == 1.0;
    assert m0.data[0] == [a, 0.0, 1.0];
    assert m0.data[1] == [0.0, b, 1.0];
    assert m0.data[1..][1..] == [];
    assert FlattenRows(m0.data[1..]) == m0.data[1] + FlattenRows([]);
  }

  /** The nonzero entries of that layer: the two diagonal weights and the two biases. */
  lemma TwoNeuronNonZero(a: real, b: real)
    requires a != 0.0 && b != 0.0
    ensures NonZero([a, 0.0, 1.0, 0.0, b, 1.0]) == [a, 1.0, b, 1.0]
  {
    var flat0 := [a, 0.0, 1.0, 0.0, b, 1.0];
    assert NonZero(flat0[5..]) == [1.0];
    assert NonZero(flat0[4..]) == [b, 1.0];
    assert NonZero(flat0[3..]) == [b, 1.0];
    assert NonZero(flat0[2..]) == [1.0, b, 1.0];
    assert NonZero(flat0[1..]) == [1.0, b, 1.0];
  }

  /** Replaces the nonzero entries of a flat list, in order, by successive weights; the
      zero entries stay zero. */
  function ReplaceNonZero(s: seq<real>, w: seq<real>): (r: seq<real>)
    requires |w| >= |NonZero(s)|
    ensures |r| == |s|
    ensures forall i :: 0 <= i < |s| && s[i] == 0.0 ==> r[i] == 0.0
    decreases |s|
  {
    if |s| == 0 then []
    else if s[0] == 0.0 then [0.0] + ReplaceNonZero(s[1..], w)
    else [w[0]] + ReplaceNonZero(s[1..], w[1..])
  }

  /** Replacing the nonzero entries by themselves changes nothing. */
  lemma {:induction false} ReplaceOwnNonZero(s: seq<real>)
    ensures ReplaceNonZero(s, NonZero(s)) == s
    decreases |s|
  {
    if |s| > 0 {
      ReplaceOwnNonZero(s[1..]);
      if s[0] != 0.0 {
        assert NonZero(s)[1..] == NonZero(s[1..]);
      }
    }
  }

  /** Replacing by nonzero weights hands them back as the nonzero entries. */
  lemma {:induction false} NonZeroOfReplace(s: seq<real>, w: seq<real>)
    requires |w| >= |NonZero(s)|
    requires forall i :: 0 <= i < |w| ==> w[i] != 0.0
    ensures NonZero(ReplaceNonZero(s, w)) == w[..|NonZero(s)|]
    decreases |s|
  {
    if |s| > 0 {
      if s[0] == 0.0 {
        NonZeroOfReplace(s[1..], w);
      } else {
        NonZeroOfReplace(s[1..], w[1..]);
        assert w[..|NonZero(s)|] == [w[0]] + w[1..][..|NonZero(s[1..])|];
      }
    }
  }

  /** The layer with its nonzero entries replaced, row-major. */
  function ReplaceLayer(m: Matrix, w: seq<real>): (r: Matrix)
    requires m.Valid() && |w| >= |LayerNonZero(m)|
    ensures Shaped(r, m.rows, m.cols)
    ensures Flatten(r) == ReplaceNonZero(Flatten(m), w)
  {
    FlattenLength(m.data, m.cols);
    var flat := ReplaceNonZero(Flatten(m), w);
    Network.FlattenUnflatten(m.rows, m.cols, flat);
    Unflatten(m.rows, m.cols, flat)
  }

  /** set_weights as evidently intended: the nonzero entries of layer 0 and then of
      layer 2 take the weights in order, the winner slot is skipped, and the weight list
      is refreshed. A list too short leaves nil entries, and the next Matrix#* calls *
      on one of them; the model reports that NoMethodError at the call that stored the
      nil. */
  function SetWeights(net: SeekingNet, w: seq<real>): (r: Result<SeekingNet>)
    requires Built(net)
    ensures r.Success? <==> |w| >= |Weights(net)|
    ensures r.Failure? ==> r.error == NoMethodError
    ensures r.Success? ==> Built(r.value) && r.value.layers[1] == net.layers[1]
    ensures r.Success? ==> Shaped(r.value.layers[0].value, net.layers[0].value.rows, net.layers[0].value.cols)
    ensures r.Success? ==> Shaped(r.value.layers[2].value, net.layers[2].value.rows, net.layers[2].value.cols)
    ensures r.Success? ==> r.value.cache == Some(Weights(r.value))
  {
    var m0 := net.layers[0].value;
    var m2 := net.layers[2].value;
    var n0 := |LayerNonZero(m0)|;
    if |w| < n0 + |LayerNonZero(m2)| then Failure(NoMethodError)
    else
      var next := net.(layers := [Some(ReplaceLayer(m0, w)), net.layers[1],
                                  Some(ReplaceLayer(m2, w[n0..]))]);
      Success(next.(cache := Some(Weights(next))))
  }

  /** Setting nonzero weights and reading the weights back gives the list (up to the
      count the net holds). */
  lemma SetThenWeights(net: SeekingNet, w: seq<real>)
    requires Built(net) && |w| >= |Weights(net)|
    requires forall i :: 0 <= i < |w| ==> w[i] != 0.0
    ensures Weights(SetWeights(net, w).value) == w[..|Weights(net)|]
  {
    ReplacePairNonZero(net.layers[0].value, net.layers[2].value, w);
  }

  /** Replacing the nonzero entries of two layers in turn from one list of nonzero
      weights, then reading the nonzero entries back, gives the list's prefix. */
  lemma ReplacePairNonZero(m0: Matrix, m2: Matrix, w: seq<real>)
    requires m0.Valid() && m2.Valid()
    requires |w| >= |LayerNonZero(m0)| + |LayerNonZero(m2)|
    requires forall i :: 0 <= i < |w| ==> w[i] != 0.0
    ensures LayerNonZero(ReplaceLayer(m0, w)) +
            LayerNonZero(ReplaceLayer(m2, w[|LayerNonZero(m0)|..])) ==
              w[..|LayerNonZero(m0)| + |LayerNonZero(m2)|]
  {
    var n0 := |LayerNonZero(m0)|;
    var n2 := |LayerNonZero(m2)|;
    NonZeroOfReplace(Flatten(m0), w);
    NonZeroOfReplace(Flatten(m2), w[n0..]);
    assert w[..n0 + n2] == w[..n0] + w[n0..][..n2];
  }

  /** Setting a net's own weights gives the same net back. */
  lemma SetOwnWeights(net: SeekingNet)
    requires Built(net) && net.cache == Some(Weights(net))
    ensures SetWeights(net, Weights(net)) == Success(net)
  {
    var m0 := net.layers[0].value;
    var m2 := net.layers[2].value;
    var w := Weights(net);
    var n0 := |LayerNonZero(m0)|;
    assert w[n0..] == LayerNonZero(m2);
    ReplaceIdentity(m0, w);
    ReplaceIdentity(m2, w[n0..]);
    assert [Some(m0), net.layers[1], Some(m2)] == net.layers;
  }

  /** A layer keeps its entries when its nonzero entries are replaced by themselves
      (followed by anything). */
  lemma ReplaceIdentity(m: Matrix, w: seq<real>)
    requires m.Valid() && |w| >= |LayerNonZero(m)|
    requires w[..|LayerNonZero(m)|] == LayerNonZero(m)
    ensures ReplaceLayer(m, w) == m
  {
    ReplacePrefix(Flatten(m), w);
    ReplaceOwnNonZero(Flatten(m));
    UnflattenFlatten(m);
  }

  /** Only the first |NonZero(s)| weights are read. */
  lemma {:induction false} ReplacePrefix(s: seq<real>, w: seq<real>)
    requires |w| >= |NonZero(s)|
    ensures ReplaceNonZero(s, w) == ReplaceNonZero(s, w[..|NonZero(s)|])
    decreases |s|
  {
    if |s| > 0 {
      if s[0] == 0.0 {
        ReplacePrefix(s[1..], w);
      } else {
        ReplacePrefix(s[1..], w[1..]);
        ReplacePrefix(s[1..], w[..|NonZero(s)|][1..]);
        assert w[..|NonZero(s)|][1..][..|NonZero(s[1..])|] == w[1..][..|NonZero(s[1..])|];
      }
    }
  }
}

=== FILE: params.dfy ===
/** The constants of Params.rb that the modelled core uses. */
module Params {
  /** PI/40 as the IEEE double Ruby computes it. */
  const MAX_TURN_ANGLE: real := 0.07853981633974483
  /** 1/sqrt(NUM_INPUTS) with NUM_INPUTS = 4. */
  const MAX_WEIGHT: real := 0.5
  const NUM_INPUTS: nat := 4
  const NUM_OUTPUTS: nat := 2
  const NUM_HIDDEN: nat := 1
  const NEURONS_PER_HIDDEN_LAYER: nat := 6
  const NUM_GOALS: nat := 40
  const NUM_AGENTS: nat := 30
  const NUM_TICKS: nat := 1800
  const BASE_FITNESS: real := 375.0
  const MAX_FITNESS: real := 800.0
  const DEATH: real := -0.2
  /** FOOD_SCALE * FOOD_WIDTH = 0.5 * 30. */
  const AGENT_REACH: real := 15.0
  const AGENT_NUM_SENSORS: nat := 6
  const XOVER_RATE: real := 0.7
  const MUTATION_RATE: real := 0.1
  const MAX_PERTURBATION: real := 0.3
  const NUM_ELITE: nat := 4
  const NUM_COPIES_ELITE: nat := 1
  /** Ruby's ACTIVATION_FN divides by this. */
  const ACTIVATION_SCALE: real := 20.0
}

=== FILE: world.dfy ===
/** The bookkeeping of the ALife2 controller (ALife2.rb): the reverse look-up table of
    the environment, the consumption of goals, the per-tick update of every agent with
    the removal of the dead, and the generation boundary at which the genetic algorithm
    breeds a new population and hands one genome to each surviving agent.

    The agent's brain and movement are abstracted: what an agent perceives in a tick is
    a distance function to the objects of the environment, and the food created when a
    goal is eaten is supplied with it. */
module World {
  import opened Wrappers
  import opened Genomes
  import opened Agency
  import GenAlg
  import Params

  // ---------------------------------------------------------------------------
  // The environment and its reverse look-up table

  /** No object occurs twice in the environment (every Food.new is a new object). */
  predicate Distinct(env: seq<Thing>) {
    forall i, j :: 0 <= i < j < |env| ==> env[i] != env[j]
  }

  /** Every index stored in the table points into the environment. */
  predicate InRange(env: seq<Thing>, table: map<Thing, nat>) {
    forall g :: g in table ==> table[g] < |env|
  }

  /** The table is the inverse of environment indexing: it maps exactly the objects of
      the environment, each to its own index. */
  predicate Inverse(env: seq<Thing>, table: map<Thing, nat>) {
    && (forall i :: 0 <= i < |env| ==> env[i] in table && table[env[i]] == i)
    && (forall g :: g in table ==> table[g] < |env| && env[table[g]] == g)
  }

  /** @ENV_TABLE as built by each_with_index: every object is stored under its index, a
      later occurrence of the same object overwriting an earlier one. */
  function BuildTable(env: seq<Thing>): (t: map<Thing, nat>)
    ensures InRange(env, t)
    ensures forall g :: g in t ==> env[t[g]] == g
    ensures forall i :: 0 <= i < |env| ==> env[i] in t && i <= t[env[i]]
    decreases |env|
  {
    if |env| == 0 then map[]
    else
      var n := |env| - 1;
      assert forall i :: 0 <= i < n ==> env[..n][i] == env[i];
      BuildTable(env[..n])[env[n] := n]
  }

  /** The table built from the environment is its inverse exactly when no object occurs
      twice. */
  lemma BuildTableInverse(env: seq<Thing>)
    ensures Inverse(env, BuildTable(env)) <==> Distinct(env)
  {
    var t := BuildTable(env);
    if Distinct(env) {
      forall i | 0 <= i < |env|
        ensures t[env[i]] == i
      {
        var j := t[env[i]];
        assert env[j] == env[i];
      }
    }
    if Inverse(env, t) {
      forall i, j | 0 <= i < j < |env|
        ensures env[i] != env[j]
      {
        assert t[env[i]] == i && t[env[j]] == j;
      }
    }
  }

  /** consume(goal): a new goal takes the eaten goal's index, in the environment and in
      the table. An object the table does not hold gives nil as the index, and
      @env[nil] = raises TypeError. */
  function Consume(env: seq<Thing>, table: map<Thing, nat>, goal: Thing, food: Thing)
    : (r: Result<(seq<Thing>, map<Thing, nat>)>)
    requires InRange(env, table)
    ensures r.Failure? <==> goal !in table
    ensures r.Failure? ==> r.error == TypeError
    ensures r.Success? ==> |r.value.0| == |env| && InRange(r.value.0, r.value.1)
    ensures r.Success? ==> food in r.value.1
    ensures r.Success? ==> r.value.0[table[goal]] == food && r.value.1[food] == table[goal]
    ensures r.Success? ==> forall j :: 0 <= j < |env| && j != table[goal] ==> r.value.0[j] == env[j]
    ensures r.Success? ==> forall x :: x in r.value.0 ==> x in env || x == food
  {
    if goal !in table then Failure(TypeError)
    else
      var i := table[goal];
      var env' := env[i := food];
      assert forall x :: x in env' ==> x in env || x == food by {
        forall x | x in env' ensures x in env || x == food {
          var j :| 0 <= j < |env'| && env'[j] == x;
          if j != i { assert env[j] == x; }
        }
      }
      Success((env', (table - {goal})[food := i]))
  }

  /** Consuming a goal of the environment for food not yet in it keeps the table the
      inverse of the environment, and the eaten goal is gone. */
  lemma ConsumeKeepsInverse(env: seq<Thing>, table: map<Thing, nat>, goal: Thing, food: Thing)
    requires Inverse(env, table) && goal in env && food !in env
    ensures Consume(env, table, goal, food).Success?
    ensures var r := Consume(env, table, goal, food).value;
            Inverse(r.0, r.1) && goal !in r.0 && food in r.0
  {
    var i := table[goal];
    var r := Consume(env, table, goal, food).value;
    assert r.0 == env[i := food];
    assert r.1 == (table - {goal})[food := i];
    forall j | 0 <= j < |r.0|
      ensures r.0[j] in r.1 && r.1[r.0[j]] == j
    {
      if j != i {
        assert r.0[j] == env[j] && table[env[j]] == j;
        assert env[j] != food && env[j] != goal;
      }
    }
    forall g | g in r.1
      ensures r.1[g] < |r.0| && r.0[r.1[g]] == g
    {
      if g != food {
        assert g in table && g != goal;
        assert table[g] != i;
      }
    }
  }

  // ---------------------------------------------------------------------------
  // One tick

  /** What one agent meets in one tick: its distance to every object, and the food that
      replaces a goal it eats. */
  datatype Sense = Sense(dist: Thing -> real, food: Thing)

  /** The supplied food is new: none of it is in the environment and no two are the
      same object. */
  predicate FreshSupply(env: seq<Thing>, senses: seq<Sense>) {
    && (forall k :: 0 <= k < |senses| ==> senses[k].food !in env)
    && (forall k, l :: 0 <= k < l < |senses| ==> senses[k].food != senses[l].food)
  }

  /** The relation between an agent and its genome before and after its tick: one year
      older, fitness updated with at most one goal and capped, the genome carrying the
      agent's new fitness and its old weights. */
  predicate Stepped(a: Agent, g: Genome, o: (Agent, Genome)) {
    && o.0.age == a.age + 1
    && o.0.deathlyIllness == a.deathlyIllness
    && o.0.fitness <= Params.MAX_FITNESS
    && o.1 == g.(fitness := o.0.fitness)
    && (o.0.goalsReached == a.goalsReached || o.0.goalsReached == a.goalsReached + 1)
    && (o.0.goalsReached == a.goalsReached ==> o.0 == UpdateAge(UpdateFitness(a, None).0))
  }

  /** The body of the @agents.each loop for one agent: try for the closest goal in
      reach; on success add its value to the fitness and consume it, otherwise only
      decay; the genome takes the new fitness; the agent ages by one. */
  function TickAgent(a: Agent, g: Genome, env: seq<Thing>, table: map<Thing, nat>, s: Sense)
    : (r: Result<((Agent, Genome), seq<Thing>, map<Thing, nat>)>)
    requires InRange(env, table)
    ensures r.Success? ==> Stepped(a, g, r.value.0)
    ensures r.Success? ==> |r.value.1| == |env| && InRange(r.value.1, r.value.2)
    ensures r.Success? ==> forall x :: x in r.value.1 ==> x in env || x == s.food
    ensures TryForGoal(env, s.dist).None? ==>
              r.Success? && r.value.1 == env && r.value.2 == table &&
              r.value.0.0.goalsReached == a.goalsReached
    ensures TryForGoal(env, s.dist).Some? && r.Success? ==>
              r.value.0.0.goalsReached == a.goalsReached + 1
    ensures TryForGoal(env, s.dist).Some? && Inverse(env, table) && s.food !in env ==>
              r.Success? && TryForGoal(env, s.dist).value !in r.value.1
    ensures Inverse(env, table) ==> r.Success?
    ensures Inverse(env, table) && s.food !in env && r.Success? ==> Inverse(r.value.1, r.value.2)
  {
    match TryForGoal(env, s.dist)
    case None =>
      var a' := UpdateFitness(a, None);
      Success(((UpdateAge(a'.0), g.(fitness := a'.1)), env, table))
    case Some(goal) =>
      var a' := UpdateFitness(a, Some(goal.value));
      if Inverse(env, table) && s.food !in env then
        ConsumeKeepsInverse(env, table, goal, s.food);
        var c := Consume(env, table, goal, s.food).value;
        Success(((UpdateAge(a'.0), g.(fitness := a'.1)), c.0, c.1))
      else
        match Consume(env, table, goal, s.food)
        case Failure(e) => Failure(e)
        case Success(c) =>
          Success(((UpdateAge(a'.0), g.(fitness := a'.1)), c.0, c.1))
  }

  /** Every agent in turn, front to back, each seeing the environment as the agents
      before it left it. The results are kept for all agents, dead or alive. */
  function TickAll(agents: seq<Agent>, genomes: seq<Genome>, env: seq<Thing>,
                   table: map<Thing, nat>, senses: seq<Sense>)
    : (r: Result<(seq<(Agent, Genome)>, seq<Thing>, map<Thing, nat>)>)
    requires |genomes| == |agents| == |senses|
    requires InRange(env, table)
    ensures r.Success? ==> |r.value.0| == |agents|
    ensures r.Success? ==> forall k :: 0 <= k < |agents| ==> Stepped(agents[k], genomes[k], r.value.0[k])
    ensures r.Success? ==> |r.value.1| == |env| && InRange(r.value.1, r.value.2)
    ensures Inverse(env, table) && FreshSupply(env, senses) ==>
              r.Success? && Inverse(r.value.1, r.value.2)
    decreases |agents|
  {
    if |agents| == 0 then Success(([], env, table))
    else
      var first :- TickAgent(agents[0], genomes[0], env, table, senses[0]);
      FreshAfterFirst(env, senses, first.1);
      var rest :- TickAll(agents[1..], genomes[1..], first.1, first.2, senses[1..]);
      SteppedCons(agents, genomes, first.0, rest.0);
      Success(([first.0] + rest.0, rest.1, rest.2))
  }

  /** The food not yet supplied stays new after the first agent's tick, which adds only
      the first food to the environment. */
  lemma FreshAfterFirst(env: seq<Thing>, senses: seq<Sense>, env': seq<Thing>)
    requires |senses| > 0
    requires forall x :: x in env' ==> x in env || x == senses[0].food
    ensures FreshSupply(env, senses) ==> FreshSupply(env', senses[1..])
  {
    if FreshSupply(env, senses) {
      forall k | 0 <= k < |senses[1..]| ensures senses[1..][k].food !in env' {
        assert senses[1..][k] == senses[k + 1];
        assert senses[k + 1].food != senses[0].food;
      }
      forall k, l | 0 <= k < l < |senses[1..]|
        ensures senses[1..][k].food != senses[1..][l].food
      {
        assert senses[1..][k] == senses[k + 1] && senses[1..][l] == senses[l + 1];
      }
    }
  }

  /** The first agent's step in front of the others' steps. */
  lemma SteppedCons(agents: seq<Agent>, genomes: seq<Genome>, o: (Agent, Genome),
                    rest: seq<(Agent, Genome)>)
    requires |agents| > 0 && |genomes| == |agents| && |rest| == |agents| - 1
    requires Stepped(agents[0], genomes[0], o)
    requires forall k :: 0 <= k < |rest| ==> Stepped(agents[1..][k], genomes[1..][k], rest[k])
    ensures forall k :: 0 <= k < |agents| ==> Stepped(agents[k], genomes[k], ([o] + rest)[k])
  {
    forall k | 0 <= k < |agents| ensures Stepped(agents[k], genomes[k], ([o] + rest)[k]) {
      if k > 0 {
        assert agents[1..][k - 1] == agents[k] && genomes[1..][k - 1] == genomes[k];
        assert ([o] + rest)[k] == rest[k - 1];
      }
    }
  }

  /** The pairs whose agent is still alive, in order. */
  function Survivors(outcomes: seq<(Agent, Genome)>): (s: seq<(Agent, Genome)>)
    ensures |s| <= |outcomes|
    ensures forall k :: 0 <= k < |s| ==> !Dead(s[k].0) && s[k] in outcomes
    decreases |outcomes|
  {
    if |outcomes| == 0 then []
    else
      var rest := Survivors(outcomes[1..]);
      if Dead(outcomes[0].0) then rest else [outcomes[0]] + rest
  }

  /** Every living outcome is kept by Survivors. */
  lemma {:induction false} LivingSurvive(outcomes: seq<(Agent, Genome)>, j: nat)
    requires j < |outcomes| && !Dead(outcomes[j].0)
    ensures outcomes[j] in Survivors(outcomes)
    decreases |outcomes|
  {
    if j > 0 {
      assert outcomes[j] == outcomes[1..][j - 1];
      LivingSurvive(outcomes[1..], j - 1);
    }
  }

  /** The agents of a sequence of pairs (the keys of @population). */
  function AgentsOf(s: seq<(Agent, Genome)>): (r: seq<Agent>)
    ensures |r| == |s| && forall k :: 0 <= k < |s| ==> r[k] == s[k].0
  {
    seq(|s|, k requires 0 <= k < |s| => s[k].0)
  }

  /** The genomes of a sequence of pairs (the values of @population). */
  function GenomesOf(s: seq<(Agent, Genome)>): (r: seq<Genome>)
    ensures |r| == |s| && forall k :: 0 <= k < |s| ==> r[k] == s[k].1
  {
    seq(|s|, k requires 0 <= k < |s| => s[k].1)
  }

  /** An agent found dead is dropped from @agents and @population together: an agent
      and its genome remain, at the same position of both, exactly when the agent is
      alive. */
  lemma RemovedFromBoth(outcomes: seq<(Agent, Genome)>, a: Agent, g: Genome)
    requires (a, g) in outcomes
    ensures (exists k :: 0 <= k < |Survivors(outcomes)| &&
              AgentsOf(Survivors(outcomes))[k] == a && GenomesOf(Survivors(outcomes))[k] == g)
            <==> !Dead(a)
  {
    var s := Survivors(outcomes);
    var agents, genomes := AgentsOf(s), GenomesOf(s);
    if !Dead(a) {
      var j :| 0 <= j < |outcomes| && outcomes[j] == (a, g);
      LivingSurvive(outcomes, j);
      var k :| 0 <= k < |s| && s[k] == (a, g);
      assert agents[k] == a && genomes[k] == g;
    } else {
      forall k | 0 <= k < |s|
        ensures agents[k] != a
      {
        assert agents[k] == s[k].0;
        assert !Dead(s[k].0);
      }
      assert !exists k :: 0 <= k < |s| && agents[k] == a && genomes[k] == g;
    }
  }

  // ---------------------------------------------------------------------------
  // The world

  /** The state of the ALife2 window: @agents and @population (the pairs, in key
      order, as two parallel sequences), @env and @ENV_TABLE, the GA, the tick and
      generation counters, the recorded statistics, and whether the window is closed. */
  datatype World = World(agents: seq<Agent>, genomes: seq<Genome>, env: seq<Thing>,
                         table: map<Thing, nat>, ga: GenAlg.GA, ticks: nat, generation: nat,
                         averages: seq<real>, hallOfFame: seq<real>, closed: bool)

  /** What every update keeps: one genome per agent, all of the GA's chromosome length,
      and a table pointing into the environment. */
  predicate Consistent(w: World) {
    && |w.agents| == |w.genomes|
    && GenAlg.UniformLength(w.genomes, w.ga.chromoLength)
    && InRange(w.env, w.table)
  }

  /** ALife2#initialize: the table of the environment, a GA of one genome per agent
      drawn from the supplied weights, each agent bound to the next chromosome in
      order, and both counters at zero. Without agents, `@agents[0].num_weights`
      (line 50) is a call on nil and raises NoMethodError. Otherwise the world is the
      one the constructor builds up to line 66; InitAsWritten adds line 67. */
  function Init(agents: seq<Agent>, env: seq<Thing>, numWeights: nat, draws: seq<seq<real>>)
    : (r: Result<World>)
    requires |draws| == |agents|
    requires forall i :: 0 <= i < |agents| ==> |draws[i]| == numWeights
    requires forall i, j :: 0 <= i < |agents| && 0 <= j < numWeights ==> -1.0 <= draws[i][j] <= 1.0
    ensures r.Failure? <==> |agents| == 0
    ensures r.Failure? ==> r.error == NoMethodError
    ensures r.Success? ==> Consistent(r.value) && !r.value.closed
    ensures r.Success? ==> (r.value.ticks == 0 && r.value.generation == 0
                            && r.value.averages == [] && r.value.hallOfFame == [])
    ensures r.Success? ==> (r.value.agents == agents && r.value.env == env
                            && r.value.ga.chromoLength == numWeights)
    ensures r.Success? ==> forall i :: 0 <= i < |agents| ==> r.value.genomes[i].weights == draws[i]
    ensures r.Success? && Distinct(env) ==> Inverse(r.value.env, r.value.table)
  {
    if |agents| == 0 then Failure(NoMethodError)
    else
      BuildTableInverse(env);
      var ga := GenAlg.Initialize(|agents|, Params.MUTATION_RATE, Params.XOVER_RATE, numWeights, draws);
      Success(World(agents, ga.population, env, BuildTable(env), ga, 0, 0, [], [], false))
  }

  /** ALife2#initialize as written. After the agents are bound, line 67 assigns
      `@Henry.sprite =`, but the agent classes declare `sprite` with no writer
      (attr_reader only, and Agency defines none), so every construction that gets
      that far raises NoMethodError; one without agents stops earlier, at line 50.
      Init is the constructor with that graphics line removed. */
  function InitAsWritten(agents: seq<Agent>, env: seq<Thing>, numWeights: nat,
                         draws: seq<seq<real>>): (r: Result<World>)
    requires |draws| == |agents|
    requires forall i :: 0 <= i < |agents| ==> |draws[i]| == numWeights
    requires forall i, j :: 0 <= i < |agents| && 0 <= j < numWeights ==> -1.0 <= draws[i][j] <= 1.0
    ensures r.Failure? && r.error == NoMethodError
    ensures Init(agents, env, numWeights, draws).Failure? ==> r == Init(agents, env, numWeights, draws)
  {
    var w :- Init(agents, env, numWeights, draws);
    Failure(NoMethodError)
  }

  /** The draws one update needs: a sense per agent for a tick, GA rounds for a
      generation boundary. */
  predicate ValidDraws(w: World, senses: seq<Sense>, rounds: seq<GenAlg.Round>) {
    && |senses| == |w.agents|
    && forall k :: 0 <= k < |rounds| ==> GenAlg.ValidRound(rounds[k], |w.genomes|, w.ga.chromoLength)
  }

  /** A tick below NUM_TICKS (lines 90-123 and 160 of update): every agent in turn,
      then the dead are dropped from @agents and @population together. */
  function Tick(w: World, senses: seq<Sense>): (r: Result<World>)
    requires Consistent(w) && |senses| == |w.agents|
    ensures r.Success? ==> Consistent(r.value)
    ensures r.Success? ==> r.value.ticks == w.ticks + 1 && r.value.generation == w.generation
    ensures r.Success? ==> r.value.ga == w.ga && r.value.closed == w.closed && |r.value.env| == |w.env|
    ensures r.Success? ==> |r.value.agents| <= |w.agents|
    ensures r.Success? ==> forall k :: 0 <= k < |r.value.agents| ==>
              !Dead(r.value.agents[k]) && r.value.genomes[k].fitness == r.value.agents[k].fitness
    ensures Inverse(w.env, w.table) && FreshSupply(w.env, senses) ==>
              r.Success? && Inverse(r.value.env, r.value.table)
  {
    var t :- TickAll(w.agents, w.genomes, w.env, w.table, senses);
    var alive := Survivors(t.0);
    assert forall k :: 0 <= k < |alive| ==>
             |GenomesOf(alive)[k].weights| == w.ga.chromoLength &&
             GenomesOf(alive)[k].fitness == AgentsOf(alive)[k].fitness by {
      forall k | 0 <= k < |alive|
        ensures |GenomesOf(alive)[k].weights| == w.ga.chromoLength
        ensures GenomesOf(alive)[k].fitness == AgentsOf(alive)[k].fitness
      {
        var j :| 0 <= j < |t.0| && t.0[j] == alive[k];
        assert Stepped(w.agents[j], w.genomes[j], t.0[j]);
      }
    }
    Success(w.(agents := AgentsOf(alive), genomes := GenomesOf(alive), env := t.1, table := t.2,
               ticks := w.ticks + 1))
  }

  /** The rebinding loop of a generation boundary: @population.keys.each takes the next
      chromosome for each agent in key order and resets the agent; the generation is
      counted, the rounded average and best fitness recorded, and the tick counter
      restarts at 0 and is then counted. */
  function Rebind(w: World, ga: GenAlg.GA, pop: seq<Genome>, round: real -> real): (r: World)
    requires |pop| == |w.agents|
    ensures r.generation == w.generation + 1 && r.ticks == 1
    ensures |r.agents| == |w.agents| && r.genomes == pop
    ensures forall k :: 0 <= k < |w.agents| ==> r.agents[k] == Reset(w.agents[k])
    ensures r.env == w.env && r.table == w.table && r.ga == ga && r.closed == w.closed
    ensures r.averages == w.averages + [round(GenAlg.Average(ga.stats))]
    ensures r.hallOfFame == w.hallOfFame + [round(ga.stats.best)]
  {
    var agents := seq(|w.agents|, k requires 0 <= k < |w.agents| => Reset(w.agents[k]));
    w.(agents := agents, genomes := pop, ga := ga, ticks := 1,
       generation := w.generation + 1,
       averages := w.averages + [round(GenAlg.Average(ga.stats))],
       hallOfFame := w.hallOfFame + [round(ga.stats.best)])
  }

  /** A generation boundary (lines 124-158 and 160 of update): breed a new population
      from @population.values and rebind it to the agents. Every agent receives a
      chromosome, the elites going to the first agents. With `fixedLoop` false the
      breeding is epoch as written, whose loop never stops on an odd number of places;
      with it true, epoch with the corrected loop. */
  function Boundary(w: World, rounds: seq<GenAlg.Round>, round: real -> real, fixedLoop: bool)
    : (r: Result<World>)
    requires Consistent(w)
    requires forall k :: 0 <= k < |rounds| ==> GenAlg.ValidRound(rounds[k], |w.genomes|, w.ga.chromoLength)
    ensures |w.agents| == 0 ==> r == Failure(NoMethodError)
    ensures r.Success? ==> Consistent(r.value) && r.value.closed == w.closed
    ensures r.Success? ==> r.value.generation == w.generation + 1 && r.value.ticks == 1
    ensures r.Success? ==> |r.value.agents| == |w.agents| == |r.value.genomes|
    ensures r.Success? ==> forall k :: 0 <= k < |w.agents| ==> r.value.agents[k] == Reset(w.agents[k])
    ensures r.Success? ==> r.value.genomes[..GenAlg.EliteNumber(|w.genomes|)] ==
                             GenAlg.Seed(w.genomes, w.ga.chromoLength)
    ensures r.Success? ==> r.value.env == w.env && r.value.table == w.table
    ensures r.Success? ==> |r.value.averages| == |w.averages| + 1 &&
                             |r.value.hallOfFame| == |w.hallOfFame| + 1
  {
    var e :- GenAlg.EpochWith(w.ga, w.genomes, rounds, fixedLoop);
    Success(Rebind(w, e.0, e.1, round))
  }

  /** Lines 83-160 of update: ExtinctionEvent on an empty world, then a tick below
      NUM_TICKS or a generation boundary at it, bred as `fixedLoop` selects. */
  function Step(w: World, senses: seq<Sense>, rounds: seq<GenAlg.Round>, round: real -> real,
                fixedLoop: bool): (r: Result<World>)
    requires Consistent(w) && ValidDraws(w, senses, rounds)
    ensures |w.agents| == 0 ==> r == Failure(ExtinctionEvent)
    ensures r.Success? ==> Consistent(r.value) && r.value.closed == w.closed
    ensures r.Success? ==> 1 <= r.value.ticks
    ensures r.Success? && w.ticks <= Params.NUM_TICKS ==> r.value.ticks <= Params.NUM_TICKS
    ensures |w.agents| > 0 && w.ticks < Params.NUM_TICKS ==> r == Tick(w, senses)
    ensures |w.agents| > 0 && w.ticks >= Params.NUM_TICKS ==>
              r == Boundary(w, rounds, round, fixedLoop)
  {
    if |w.agents| == 0 then Failure(ExtinctionEvent)
    else if w.ticks < Params.NUM_TICKS then Tick(w, senses)
    else Boundary(w, rounds, round, fixedLoop)
  }

  /** update as evidently intended: the end of the world is supplied, the breeding loop
      is the corrected one, and after the step the window closes once the generation
      count reaches endOfWorld. */
  function Update(w: World, senses: seq<Sense>, rounds: seq<GenAlg.Round>, round: real -> real,
                  endOfWorld: nat): (r: Result<World>)
    requires Consistent(w) && ValidDraws(w, senses, rounds)
    ensures r.Failure? <==> Step(w, senses, rounds, round, true).Failure?
    ensures r.Success? ==> Consistent(r.value)
    ensures r.Success? ==> r.value.closed == (w.closed || r.value.generation >= endOfWorld)
    ensures r.Success? ==> r.value.(closed := w.closed) == Step(w, senses, rounds, round, true).value
  {
    var w' :- Step(w, senses, rounds, round, true);
    Success(w'.(closed := w'.closed || w'.generation >= endOfWorld))
  }

  /** update as written: the step breeds with epoch as written, and the quit test reads
      Params::END_OF_THE_WORLD, a constant none of the modelled files defines, so every
      update that gets past the step raises NameError. */
  function UpdateAsWritten(w: World, senses: seq<Sense>, rounds: seq<GenAlg.Round>,
                           round: real -> real): (r: Result<World>)
    requires Consistent(w) && ValidDraws(w, senses, rounds)
    ensures r.Failure?
    ensures Step(w, senses, rounds, round, false).Success? ==> r.error == NameError
    ensures Step(w, senses, rounds, round, false).Failure? ==>
              r == Step(w, senses, rounds, round, false)
  {
    var _ :- Step(w, senses, rounds, round, false);
    Failure(NameError)
  }

  /** No update of a populated world ever completes as written, while the corrected
      update completes every tick of a world whose table is the inverse of its
      environment. */
  lemma UpdateNeverCompletes(w: World, senses: seq<Sense>, rounds: seq<GenAlg.Round>,
                             round: real -> real, endOfWorld: nat)
    requires Consistent(w) && ValidDraws(w, senses, rounds)
    requires Inverse(w.env, w.table) && FreshSupply(w.env, senses)
    requires |w.agents| > 0 && w.ticks < Params.NUM_TICKS
    ensures UpdateAsWritten(w, senses, rounds, round) == Failure(NameError)
    ensures Update(w, senses, rounds, round, endOfWorld).Success?
  {
    assert Tick(w, senses).Success?;
  }

  /** With the corrected breeding loop, a generation boundary of a populated world
      always completes when the draws let the GA fill its population: the enumerator of
      epoch never runs dry, since it holds one genome per agent. */
  lemma BoundaryCompletes(w: World, senses: seq<Sense>, rounds: seq<GenAlg.Round>,
                          round: real -> real)
    requires Consistent(w) && ValidDraws(w, senses, rounds)
    requires |w.agents| > 0 && w.ticks >= Params.NUM_TICKS
    requires GenAlg.Breeds(GenAlg.Prepare(w.ga, w.genomes).value, rounds,
                           (|w.genomes| - GenAlg.EliteNumber(|w.genomes|) + 1) / 2)
    ensures Step(w, senses, rounds, round, true).Success?
    ensures |Step(w, senses, rounds, round, true).value.genomes| == |w.agents|
  {
    GenAlg.EpochFixedReturns(w.ga, w.genomes, rounds);
  }

  /** As written, a generation boundary with an odd number of places left after the
      elites never completes: update fails with the breeding loop's failure and never
      reaches the quit test. */
  lemma BoundaryOddStalls(w: World, senses: seq<Sense>, rounds: seq<GenAlg.Round>,
                          round: real -> real)
    requires Consistent(w) && ValidDraws(w, senses, rounds)
    requires |w.agents| > 0 && w.ticks >= Params.NUM_TICKS
    requires (|w.genomes| - GenAlg.EliteNumber(|w.genomes|)) % 2 == 1
    ensures Step(w, senses, rounds, round, false).Failure?
    ensures UpdateAsWritten(w, senses, rounds, round) == Step(w, senses, rounds, round, false)
  {
    GenAlg.EpochOddNeverReturns(w.ga, w.genomes, rounds);
    assert GenAlg.EpochWith(w.ga, w.genomes, rounds, false).Failure?;
  }

  /** As written, a generation boundary with an even number of places left, 2 * pairs,
      and parents for every pair completes, and update then raises NameError. */
  lemma BoundaryEvenRaises(w: World, senses: seq<Sense>, rounds: seq<GenAlg.Round>,
                           round: real -> real, pairs: nat)
    requires Consistent(w) && ValidDraws(w, senses, rounds)
    requires |w.agents| > 0 && w.ticks >= Params.NUM_TICKS
    requires |w.genomes| == GenAlg.EliteNumber(|w.genomes|) + 2 * pairs
    requires GenAlg.Breeds(GenAlg.Prepare(w.ga, w.genomes).value, rounds, pairs)
    ensures Step(w, senses, rounds, round, false).Success?
    ensures UpdateAsWritten(w, senses, rounds, round) == Failure(NameError)
  {
    GenAlg.EpochEvenReturns(w.ga, w.genomes, rounds, pairs);
    assert GenAlg.EpochWith(w.ga, w.genomes, rounds, false).Success?;
  }

  /** The draws of one call of update. */
  datatype Draws = Draws(senses: seq<Sense>, rounds: seq<GenAlg.Round>)

  /** The window's update loop: update is called with each supplied draw in turn until
      the window closes; a draw that does not fit the world it meets (a sense per agent,
      rounds for the current population) ends the run with DrawsExhausted. */
  function Run(w: World, draws: seq<Draws>, round: real -> real, endOfWorld: nat): (r: Result<World>)
    requires Consistent(w)
    ensures r.Success? ==> Consistent(r.value)
    ensures r.Success? ==> w.generation <= r.value.generation
    ensures r.Success? && r.value.closed && !w.closed ==> r.value.generation >= endOfWorld
    decreases |draws|
  {
    if w.closed || |draws| == 0 then Success(w)
    else if !ValidDraws(w, draws[0].senses, draws[0].rounds) then Failure(DrawsExhausted)
    else
      var w' :- Update(w, draws[0].senses, draws[0].rounds, round, endOfWorld);
      Run(w', draws[1..], round, endOfWorld)
  }

  /** Starting from a counter of at most NUM_TICKS (as Init leaves it), the tick counter
      stays at most NUM_TICKS through any run, and is at least 1 after any completed
      update. */
  lemma {:induction false} RunKeepsTicks(w: World, draws: seq<Draws>, round: real -> real,
                                         endOfWorld: nat)
    requires Consistent(w) && w.ticks <= Params.NUM_TICKS
    requires Run(w, draws, round, endOfWorld).Success?
    ensures Run(w, draws, round, endOfWorld).value.ticks <= Params.NUM_TICKS
    ensures !w.closed && |draws| > 0 ==> 1 <= Run(w, draws, round, endOfWorld).value.ticks
    decreases |draws|
  {
    if !w.closed && |draws| > 0 {
      var w' := Update(w, draws[0].senses, draws[0].rounds, round, endOfWorld).value;
      RunKeepsTicks(w', draws[1..], round, endOfWorld);
    }
  }
}

=== FILE: wrappers.dfy ===
/** Failure-compatible wrappers and the exceptions the modelled Ruby code can raise. */
module Wrappers {

  /** The Ruby exceptions (and non-returning outcomes) that the model distinguishes. */
  datatype Error =
    | DimensionMismatch   // Matrix::ErrDimensionMismatch
    | NoMethodError       // a method called on nil
    | TypeError           // nil used where an Integer or Array is needed
    | ZeroDivisionError   // Array#normalize on a zero vector
    | ExtinctionEvent     // ALife2#update with no agents left
    | NameError           // a reference to a constant that is not defined
    | DrawsExhausted      // a loop still running when the supplied random draws ran out

  datatype Option<+T> = None | Some(value: T) {
    predicate IsFailure() { None? }

    function PropagateFailure<U>(): Option<U>
      requires None?
    {
      None
    }

    function Extract(): T
      requires Some?
    {
      value
    }
  }

  datatype Result<+T> = Success(value: T) | Failure(error: Error) {
    predicate IsFailure() { Failure? }

    function PropagateFailure<U>(): Result<U>
      requires Failure?
    {
      Failure(error)
    }

    function Extract(): T
      requires Success?
    {
      value
    }
  }
}
